=== FILE: README.md ===
# Waste detection trackers — a Dafny model

The repository is a camera-based waste detector in three generations:

- **Version1** is a line-crossing counter. A centroid tracker (`Version1/tracker.py`, with an inline copy in `Version1/camaraLaptop.py`) follows detections from frame to frame. It credits an object's category when the object crosses a vertical line from left to right.
- **Version2** and **Version3** drive a collector robot. Their trackers add anti-false-positive filters:
  - a confidence threshold;
  - a margin for creating tracks;
  - class-stability bookkeeping;
  - confirmation criteria.

  They report confirmed objects, grouped by category, once each. Version3 also computes a movement pattern. Its MQTT publisher decides, per category, whether the robot should collect.

This project models the following, as pure functions over immutable data:

- the box centroid (`Geometry`);
- the category tables and their lookups (`Categories`, `WasteTables`);
- the bounded histories and statistics kept per track (`TrackMetrics`);
- the greedy nearest-pair association shared by all trackers (`Association`);
- the Version1 tracker and its two crossing checks (`CountingTracker`, `LineCrossing`, `LaptopCounter`);
- the Version2/Version3 tracker, one engine parameterised by a variant (`RobotTrack`, `RobotRounds`, `RobotTracker`, `RobotReport`, `RobotLifetime`, `Deployments`);
- the publisher's decision logic (`Publisher`).

How Python state maps to the model:

- Each tracker's object dictionary is a sequence of tracks in ascending id order. Ids come from an increasing counter and are never re-inserted, so this is the dictionary's insertion order.
- A call that mutates the tracker returns the new tracker.
- Distances are compared as integer squared distances. The gate `d < max_distance` becomes `max_distance > 0 && d² < max_distance²`, and `GateMatchesDistance` proves the two agree.
- The distance matrix is a snapshot of the centres taken before association, as in the source.

Confidences and times are real numbers. The current time is a parameter `now`.

Two behaviours of the source are modelled exactly as written:

- In the association loop of Version2/Version3, a pair refused by the class-stability check is not marked as used. The next round selects the same pair again and bumps its class-change counter again. `RobotRounds.RefusedPairHoldsTheLoop` states the result: the rest of the loop matches nothing, and the counter grows by one per remaining round.
- The crossing check of `Version1/tracker.py` re-scans the whole position window on every call. Its `counted` flag can be cleared by a right-to-left step and set again later. A track can therefore be credited again on a later call (`LineCrossing.RescanAlternates`). The laptop copy skips counted tracks and never clears the flag, so each object is credited at most once (`LaptopCounter.EachObjectCountedAtMostOnce`).

## Model

| member | source | states |
|---|---|---|
| Geometry.FloorHalf | Version1/detection.py:4-7 | the coordinate of the centroid is the floor of half the sum: `2r <= a < 2r + 2`, also for negative sums |
| Geometry.TruncHalf | Version1/camaraLaptop.py:194-196 | `int(a / 2)` truncates toward zero: the floor bracket for non-negative sums, the ceiling bracket for negative ones |
| Geometry.CenterInsideBox | Version1/detection.py:4-7 | the centroid of an ordered box lies inside the box |
| Geometry.CenterTruncInsideBox | Version1/camaraLaptop.py:194-196 | the laptop script's centroid also lies inside an ordered box |
| Geometry.CenterSymmetric | Version1/detection.py:4-7 | swapping the two corners leaves both centroid formulas unchanged |
| Geometry.CenterOfDegenerateBox | Version1/detection.py:4-7 | a one-point box has that point as centroid under both formulas |
| Geometry.TruncVersusFloor | Version1/camaraLaptop.py:194-196 | the two centroid formulas agree exactly when the coordinate sum is non-negative or even; otherwise truncation is one more than the floor |
| Geometry.SqDist | Version1/tracker.py:50-52 | the squared distance is zero exactly when the two points coincide |
| Geometry.GateMatchesDistance | Version1/tracker.py:71 | comparing squared distances against the squared gate accepts exactly the pairs whose Euclidean distance is below `max_distance` |
| Categories.ItemCategoryIsFirstHolder | Version3/categories.py:6-11 | a label's category is the name of the first table entry listing it, and DESCONOCIDO when no entry lists it |
| Categories.FirstHolderExists | Version2/categories.py:6-11 | a label listed by some entry has a first listing entry |
| Categories.Lookup | Version3/categories.py:15-16 | the lookup fails exactly when no entry has the name; a hit is an entry of the table with that name, and the only one when names are distinct |
| Categories.CategoryColor | Version2/categories.py:13-18 | a listed category gets its own colour; an unlisted one gets grey (128, 128, 128) |
| Categories.CategoryPriority | Version3/categories.py:19-23 | a listed category gets its own priority; an unlisted one gets LOW |
| Categories.WithPriorityMembers | Version3/categories.py:27-29 | each priority group holds only table entries of that priority |
| Categories.WithPriorityComplete | Version3/categories.py:27-29 | every entry with a priority is in its priority's group |
| Categories.WithPriorityLength | Version3/categories.py:27-30 | the three groups together are exactly as long as the table |
| Categories.OrderedCategories | Version3/categories.py:25-30 | the priority order is a rearrangement of the table: same length, same entries, sorted HIGH before MEDIUM before LOW, table order kept within a priority |
| Categories.GroupsHoldEveryEntry | Version3/categories.py:25-30 | every table entry appears in the concatenated priority groups |
| Categories.SortedTableKeepsOrder | Version3/categories.py:25-30 | a table already sorted by priority is returned unchanged |
| Categories.PriorityOrderIsPermutation | Version3/categories.py:25-30 | on a table with distinct names, the returned names are distinct and include every category name |
| WasteTables.CoveredLabelsAreKnown | Version2/categories.py:6-11 | a label some entry lists never falls into DESCONOCIDO |
| WasteTables.RecyclingTablePartitionsLabels | Version2/config.py:31-64 | the recycling table's three categories have distinct names, list disjoint labels and together list exactly the 22 detector labels, so every label has a known category |
| WasteTables.RobotTablePartitionsLabels | Version3/config.py:21-69 | the robot table's five categories have distinct names, each with a priority, list disjoint labels and together list exactly the 12 detector labels |
| WasteTables.RobotTableNames | Version3/config.py:37-69 | the robot categories are METAL, PLASTICO, BOLSAS, PAPEL, OTROS in that order |
| WasteTables.RecyclingTableNames | Version2/config.py:40-64 | the recycling categories are RECICLABLE, NO_RECICLABLE, PELIGROSO in that order |
| WasteTables.RobotPriorityOrder | Version3/config.py:37-69 | the robot's priority order is METAL, PLASTICO, BOLSAS, PAPEL, OTROS |
| WasteTables.UnknownCategoryDefaults | Version3/categories.py:13-23 | DESCONOCIDO is drawn grey on both tables and has LOW priority on the robot table |
| TrackMetrics.Window | Version2/tracker.py:148-151 | keeping the last `cap` entries yields the suffix of that length, or the whole list when shorter |
| TrackMetrics.Push | Version2/tracker.py:142-151 | append-then-trim gives a non-empty window of at most `cap` entries: the new value last, preceded by the newest old entries; below the cap it is a plain append |
| TrackMetrics.MeanBounds | Version2/tracker.py:154 | the average confidence lies between the smallest and largest bound of the history |
| TrackMetrics.PositionVariance | Version2/tracker.py:48-56 | the positional variance is 0 for fewer than three positions and never negative |
| TrackMetrics.PopVarianceNonNegative | Version2/tracker.py:48-56 | a population variance is never negative |
| TrackMetrics.ConstantHasNoVariance | Version2/tracker.py:48-56 | a constant series has that constant as mean and variance 0 |
| TrackMetrics.StationaryTrackHasNoVariance | Version2/tracker.py:48-56 | a track that never moved has positional variance 0 |
| TrackMetrics.MovementPattern | Version3/tracker.py:58-76 | fewer than four positions are STATIC; otherwise STATIC exactly when the mean step is below 5 and FAST_MOVING exactly when it is at least 20 |
| TrackMetrics.StationaryTrackIsStatic | Version3/tracker.py:58-76 | a track that never moved is STATIC |
| Association.ScanRows | Version1/tracker.py:61-70 | the double scan ends with the first strictly closest free pair in row-major order, or none |
| Association.SelectPair | Version1/tracker.py:57-70 | no pair is selected exactly when no free track/detection pair remains; a selected pair is free, no free pair is closer, and no earlier pair ties with it |
| Association.FirstClosestUnique | Version1/tracker.py:61-70 | the pair the scan selects is uniquely determined |
| Association.ClosestOutsideGateMeansAllOutside | Version1/tracker.py:57-71 | when the closest free pair is outside the gate, so is every free pair |
| Association.GreedyExtends | Version1/tracker.py:57-82 | adding the selected pair keeps the matching one-to-one and greedy |
| Association.ExhaustedLeavesNoFreePair | Version1/tracker.py:57 | after `min(#tracks, #detections)` one-to-one matches no free pair remains |
| CountingTracker.NewTrack | Version1/tracker.py:16-27 | a new track has the given id, one position at the detection's centre, nothing missed, not counted, and the label's category |
| CountingTracker.Follow | Version1/tracker.py:74-80 | a matched track takes the detection's centre and label, resets its miss count, keeps id and counted flag, and appends the centre to a window of at most 10 positions |
| CountingTracker.FollowIsWellFormed | Version1/tracker.py:74-80 | a matched track ends at its centre, keeps at most 10 positions and carries its new label's category |
| CountingTracker.Deregister | Version1/tracker.py:29-31 | the id must be registered (deleting an absent key is an error); removing it shortens the table and keeps exactly the other tracks |
| CountingTracker.AgeUnmatched | Version1/tracker.py:84-89 | every track kept is a surviving original, aged when unmatched; a track is dropped exactly when its miss count would exceed the limit |
| CountingTracker.DroppedTrackIsDeregistered | Version1/tracker.py:84-89 | a track the ageing pass drops is deregistered: no aged track carries its id, and every aged track comes from one that `deregister` of that id keeps |
| CountingTracker.AgeUnmatchedKeepsOrder | Version1/tracker.py:84-89 | ageing keeps ids ascending |
| CountingTracker.NewTracks | Version1/tracker.py:44-47 | registering a batch creates one new track per detection, with consecutive ids from the counter |
| CountingTracker.RegisterAll | Version1/tracker.py:91-94 | registration appends the new tracks and advances the counter by their number |
| CountingTracker.RegisterAllKeepsValid | Version1/tracker.py:16-27 | registration keeps ids ascending, issued and every track well formed |
| CountingTracker.Unclaimed | Version1/tracker.py:91-94 | the detections registered are exactly those no track claimed, as many as there are unclaimed indices |
| CountingTracker.UnclaimedSplits | Version1/tracker.py:91-94 | registration follows detection order, one track per unclaimed index: for a concatenation, the first part's detections come first, then the second part's with positions offset by the first part's length |
| CountingTracker.RoundKeepsConsistent | Version1/tracker.py:71-82 | each round matches only gated, unused pairs and updates only the matched track |
| CountingTracker.RoundsKeepGreedy | Version1/tracker.py:57-82 | every match the loop makes is the first closest free pair of its round |
| CountingTracker.StuckRoundIsFinal | Version1/tracker.py:57-82 | once a round matches nothing, every later round matches nothing |
| CountingTracker.RoundRefusesOrGrows | Version1/tracker.py:71-82 | a round either refuses and changes nothing, or adds exactly one match |
| CountingTracker.RefusalLeavesNone | Version1/tracker.py:71 | a refused round leaves no free pair within the gate |
| CountingTracker.RoundsSettle | Version1/tracker.py:57-82 | after `k` rounds either `k` matches were made or no free pair is left within the gate |
| CountingTracker.AssociationIsGreedyAndMaximal | Version1/tracker.py:49-82 | the association is consistent and greedy, and leaves no unmatched pair within the gate |
| CountingTracker.UpdateKeepsValid | Version1/tracker.py:33-94 | an update keeps the table invariant: ids ascending and issued, bounded windows ending at the centre, categories matching labels |
| CountingTracker.EmptyFrameOnlyAges | Version1/tracker.py:35-41 | a frame without detections ages every track and drops exactly those past the limit |
| CountingTracker.FirstFrameRegistersEvery | Version1/tracker.py:43-47 | with no tracks, every detection becomes a new track, in order |
| CountingTracker.UnmatchedDetectionsAllRegistered | Version1/tracker.py:84-94 | the id counter advances by the number of detections left unmatched |
| CountingTracker.AssociateKeepsIdsAndFlags | Version1/tracker.py:71-82 | association changes neither ids nor counted flags |
| CountingTracker.RegisteredAreNew | Version1/tracker.py:16-27 | registration adds only uncounted tracks with newly issued ids |
| CountingTracker.UpdateKeepsCountedFlags | Version1/tracker.py:33-94 | after an update every track is an old one with its counted flag, or a new uncounted one with a new id |
| LineCrossing.RescanUncounted | Version1/tracker.py:104-114 | from an uncounted state the scan credits exactly when some later step goes rightward across the line |
| LineCrossing.RescanCounted | Version1/tracker.py:104-114 | from a counted state the scan credits exactly when a leftward step is later followed by a rightward one; otherwise the flag survives exactly when no leftward step occurs |
| LineCrossing.CrossTrack | Version1/tracker.py:99-114 | the check changes only a track's counted flag, a credited track ends counted, and a track with fewer than two positions is skipped |
| LineCrossing.CrossTrackCredits | Version1/tracker.py:99-114 | a track is credited exactly when it has a rightward step (uncounted) or a leftward-then-rightward pair of steps (counted) |
| LineCrossing.RescanAlternates | Version1/tracker.py:106-111 | an uncounted window with both crossings and no later recrossing is credited, then uncredited and restored on the next call |
| LineCrossing.Tally | Version1/tracker.py:112-113 | the returned map counts each category exactly as often as it was credited, and holds no other key |
| LineCrossing.CrossedCountsPerCategory | Version1/tracker.py:96-115 | the credited tracks of a category are exactly the tracks of that category the check credits |
| LineCrossing.CheckWithCounts | Version1/tracker.py:96-115 | a category is in the result exactly when some track of it is credited, with the number of such tracks |
| LineCrossing.CheckLineCrossing | Version1/tracker.py:96-115 | the check keeps the tracks in place and changes only their counted flags |
| LineCrossing.CheckLineCrossingKeepsValid | Version1/tracker.py:96-115 | the check keeps the table invariant |
| LaptopCounter.FindRightward | Version1/camaraLaptop.py:177-189 | the scan succeeds exactly when some step from the start on goes rightward across the line |
| LaptopCounter.CrossOnce | Version1/camaraLaptop.py:168-189 | a track is credited exactly when it is uncounted and has a rightward step; credited tracks become counted and nothing else changes |
| LaptopCounter.CrossOnceAgreesOnUncounted | Version1/camaraLaptop.py:164-191 | on an uncounted track the laptop check and the tracker module's check agree |
| LaptopCounter.ChecksDifferOnCounted | Version1/camaraLaptop.py:169-170 | on a counted track that stepped back, the laptop check leaves it counted while the tracker module's check clears the flag |
| LaptopCounter.CheckOnce | Version1/camaraLaptop.py:164-191 | the check keeps the tracks in place and sets the counted flag of exactly the credited ones |
| LaptopCounter.CreditedIdsFacts | Version1/camaraLaptop.py:168-189 | the credited ids come in ascending order, and each belongs to a track the check credits |
| LaptopCounter.CheckCreditsNewIds | Version1/camaraLaptop.py:168-189 | a check credits distinct ids, none credited before |
| LaptopCounter.FrameKeepsCredited | Version1/camaraLaptop.py:87-162 | an update keeps every credited object counted |
| LaptopCounter.CheckKeepsCredited | Version1/camaraLaptop.py:164-191 | after a check every credited object, old or new, is counted |
| LaptopCounter.RunCreditsNewIds | Version1/camaraLaptop.py:164-191 | over any sequence of frames and checks the credited ids are distinct and new |
| LaptopCounter.EachObjectCountedAtMostOnce | Version1/camaraLaptop.py:168-189 | from an empty tracker no object is ever credited twice |
| RobotTrack.MovementOf | Version3/tracker.py:172 | only Version3 records a movement pattern; windows under four positions are STATIC |
| RobotTrack.NewTrack | Version2/tracker.py:18-41 | a new track starts unconfirmed and unreported with one sighting, its confidence as average, both times set to now, the last report at 0 and its label as stable class |
| RobotTrack.NewTrackWellFormed | Version2/tracker.py:18-41 | a new track is well formed |
| RobotTrack.Stability | Version2/tracker.py:58-72 | a same-class sighting changes nothing. Another class costs one class change, and it is refused exactly when that exceeds the budget (3, or 4 in Version3). The stable class switches only on acceptance after more than half the required sightings. |
| RobotTrack.StabilityKeepsWellFormed | Version3/tracker.py:78-92 | the stability check keeps a track well formed |
| RobotTrack.Moved | Version2/tracker.py:139-155 | a matched track takes the centre, resets misses, counts one more sighting, pushes position (cap 15/12) and confidence (cap 10/8), recomputes average and variance, and keeps everything else |
| RobotTrack.Accept | Version2/tracker.py:139-164 | a match as above; the track ends confirmed exactly when it already was or now meets the confirmation criteria |
| RobotTrack.AcceptKeepsWellFormed | Version3/tracker.py:155-180 | a match keeps a track well formed |
| RobotRounds.RoundKeepsConsistent | Version2/tracker.py:129-168 | each round matches only gated, unused pairs that pass the stability check; every other track changes at most by the stability bookkeeping |
| RobotRounds.RoundsKeepConsistent | Version2/tracker.py:113-168 | the whole loop keeps that consistency |
| RobotRounds.RoundsKeepGreedy | Version2/tracker.py:113-128 | every match is the first closest free pair of its round |
| RobotRounds.RoundsAcceptAtMostOnePerRound | Version2/tracker.py:113-168 | `k` rounds extend the matching by at most `k` pairs and never undo one |
| RobotRounds.StuckRoundIsFinal | Version3/tracker.py:131-147 | a round that changes nothing fixes the rest of the loop |
| RobotRounds.RefusedPairHoldsTheLoop | Version2/tracker.py:129-137 | once the selected pair is refused, the remaining rounds match nothing and add one class change per round to that track |
| RobotTracker.Confident | Version2/tracker.py:87 | the filter keeps exactly the detections at or above the threshold |
| RobotTracker.ConfidentCountsIndices | Version2/tracker.py:87 | the filter keeps one entry per position at or above the threshold, so repeated detections keep their multiplicity |
| RobotTracker.ConfidentSplits | Version2/tracker.py:87 | the filter keeps detection order: filtering a concatenation concatenates the filtered parts |
| RobotTracker.NoConfidentDetectionOnlyAges | Version2/tracker.py:86-95 | when every detection is below the threshold, the update only ages the tracks |
| RobotTracker.Deregister | Version2/tracker.py:43-46 | removing an id keeps exactly the other tracks, and a missing id changes nothing |
| RobotTracker.AgeUnmatched | Version3/tracker.py:187-191 | every track kept is a surviving original, aged when unmatched; a track is dropped exactly when its miss count would exceed the limit |
| RobotTracker.DroppedTrackIsDeregistered | Version2/tracker.py:170-175 | a track the ageing pass drops is deregistered: no aged track carries its id, every aged track comes from one that `deregister` of that id keeps, and deregistering it again changes nothing |
| RobotTracker.AgeUnmatchedKeepsOrder | Version2/tracker.py:170-175 | ageing keeps ids ascending |
| RobotTracker.NewTracks | Version2/tracker.py:97-102 | a batch registration creates one new track per observation, with consecutive ids |
| RobotTracker.RegisterAll | Version2/tracker.py:177-180 | registration appends the new tracks and advances the counter by their number |
| RobotTracker.RegisterAllKeepsValid | Version2/tracker.py:18-41 | registration keeps ids ascending, issued and every track well formed |
| RobotTracker.Unclaimed | Version3/tracker.py:193-196 | the detections registered are exactly those unclaimed at or above threshold plus margin (0.1 in Version2, 0.05 in Version3) |
| RobotTracker.UnclaimedCountsIndices | Version2/tracker.py:177-180 | one track is registered per unclaimed position that clears the creation threshold, repeated detections included |
| RobotTracker.UnclaimedSplits | Version2/tracker.py:177-180 | registration follows detection order: for a concatenation, the first part's detections come first, then the second part's with positions offset by the first part's length |
| RobotTracker.UpdateKeepsValid | Version2/tracker.py:74-180 | an update keeps the table invariant |
| RobotTracker.AssociateIsConsistent | Version3/tracker.py:122-184 | the association matches only gated pairs that pass stability, updates matched tracks with their detection and keeps tracks well formed |
| RobotTracker.AssociationIsGreedyMatching | Version2/tracker.py:104-168 | the matching is gated, one-to-one, greedy and no longer than the smaller side |
| RobotTracker.UpdateNeverReusesIds | Version2/tracker.py:74-180 | every track after an update evolved from an old one with an old id, or is new, unconfirmed, unreported, with a new id |
| RobotTracker.UpdateKeepsRecentTracks | Version2/tracker.py:170-175 | a track whose miss count stays within the limit survives the update |
| RobotTracker.FirstFrameRegistersConfident | Version3/tracker.py:115-120 | with no tracks, the update registers exactly the confident detections that clear the creation margin |
| RobotReport.ReportOf | Version3/tracker.py:212-220 | a report entry carries the id, stable class, category, average confidence and time since first seen; in Version3 also the track's movement pattern and its current centre as position, in Version2 neither |
| RobotReport.MarkReported | Version2/tracker.py:189-207 | a due track is marked reported at now; any other track is unchanged |
| RobotReport.Collect | Version2/tracker.py:187-207 | the entries are exactly those of due tracks, and every track is marked as above |
| RobotReport.Group | Version2/tracker.py:193-197 | the report has a key exactly for each category with a due entry, and holds that category's entries |
| RobotReport.InCategoryMembers | Version3/tracker.py:208-212 | a category's group holds exactly the entries of that category |
| RobotReport.InCategorySplits | Version3/tracker.py:203-212 | grouping keeps entry order: the group of a concatenation is the first part's group followed by the second's |
| RobotReport.InCategoryInIdOrder | Version3/tracker.py:203-212 | a group of entries taken in id order is in id order, so no entry appears twice |
| RobotReport.BucketCountsDueTracks | Version3/tracker.py:203-212 | a category's group holds one entry per due track of that category |
| RobotReport.BucketsAreDueTracks | Version3/tracker.py:203-220 | each group returned lists the due tracks of its category, one entry each, in ascending id order |
| RobotReport.CollectInIdOrder | Version2/tracker.py:187 | entries appear in ascending id order |
| RobotReport.NothingDueNothingReported | Version2/tracker.py:187-191 | with nothing due the report is empty and the table unchanged |
| RobotReport.ReportKeepsValid | Version2/tracker.py:182-209 | reporting keeps the table invariant |
| RobotReport.ReportTwiceAtOnce | Version2/tracker.py:189-207 | a second report at the same instant is empty and changes nothing |
| RobotReport.DetectionStats | Version3/tracker.py:227-241 | the total is the table size, confirmed never exceeds it, pending is total minus confirmed, and a static count exists only in Version3 |
| RobotReport.CountConfirmedCountsIndices | Version2/tracker.py:214 | the confirmed count equals the number of positions in the table whose track is confirmed |
| RobotReport.ConfirmedCountsConfirmedTracks | Version2/tracker.py:211-221 | the statistics report the number of confirmed tracks as confirmed and the number of the others as pending |
| RobotReport.CountStaticCountsIndices | Version3/tracker.py:232-233 | the static count equals the number of positions in the table whose track has movement pattern STATIC |
| RobotReport.StaticObjectsAreStaticTracks | Version3/tracker.py:232-239 | Version3's `static_objects` figure is the number of tracks whose movement pattern is STATIC |
| RobotReport.PendingCountsUnconfirmed | Version2/tracker.py:213-215 | the pending count is the number of unconfirmed tracks |
| RobotReport.ReportKeepsStats | Version2/tracker.py:211-221 | reporting leaves the statistics unchanged |
| RobotLifetime.FrameKeepsPublished | Version2/tracker.py:74-180 | an update keeps the table valid, every published id issued, and every surviving published object marked reported |
| RobotLifetime.PollPublishesNewIds | Version2/tracker.py:187-207 | one report lists distinct ids, none published before, all already issued |
| RobotLifetime.PollKeepsPublished | Version2/tracker.py:206-207 | after a report every published object is marked reported |
| RobotLifetime.RunPublishesFreshIds | Version2/tracker.py:182-209 | over any sequence of frames and report calls the reported ids are distinct and new |
| RobotLifetime.EachObjectReportedAtMostOnce | Version3/tracker.py:198-225 | from an empty tracker no object is ever reported twice |
| Publisher.PublishPriority | Version3/mqtt_client.py:100-103 | a category missing from the table has priority LOW |
| Publisher.PublishPriorityAgrees | Version3/mqtt_client.py:100-103 | the publisher and the category helpers read the same priority |
| Publisher.EntryPriority | Version3/mqtt_client.py:100-103 | a listed category is read with its own priority |
| Publisher.RobotPriorities | Version3/mqtt_client.py:100-103 | on the robot table METAL and PLASTICO are HIGH, BOLSAS and PAPEL MEDIUM, OTROS and DESCONOCIDO LOW |
| Publisher.ShouldCollect | Version3/mqtt_client.py:105-116 | nothing is collected from no items; three or more are always collected; a missing category needs three |
| Publisher.CollectMonotone | Version3/mqtt_client.py:105-116 | more items never withdraw a recommendation |
| Publisher.UrgencyLowersTheBar | Version3/mqtt_client.py:111-116 | a more urgent priority never needs more items |
| Publisher.RobotTableThresholds | Version3/mqtt_client.py:105-116 | on the robot table one METAL or PLASTICO item, two BOLSAS or PAPEL items, or three OTROS or unknown items recommend collection, and fewer do not |
| Publisher.ItemsOf | Version3/mqtt_client.py:79-80 | the payload lists every item's id, class and confidence, in order |
| Publisher.PublishDetection | Version3/mqtt_client.py:62-83 | nothing is published exactly when disconnected or the category has no topic; otherwise it goes to the category's topic with the category, the item count and the items' ids |
| Publisher.RobotCategoriesHaveTopics | Version3/mqtt_client.py:23-33 | every robot category has a topic, and DESCONOCIDO has none, so it is never published |
| Publisher.PublishedGroupIsCategory | Version3/mqtt_client.py:62-83 | a published report group holds only its category's entries; its item count is the number of due tracks of that category, and the recommendation is the one its priority gives for that count |
| Deployments.Matches | Version2/tracker.py:145 | a run of matches only evolves a track and adds one sighting each |
| Deployments.ConfirmedOnlyAfterEnoughSightings | Version2/tracker.py:157-164 | an unconfirmed track becomes confirmed only once its sighting count reaches the minimum |
| Deployments.NewObjectsWaitForConfirmation | Version2/config.py:14 | with the shipped settings a new object needs at least four more sightings in Version2 and three in Version3 |
| Deployments.Version3IgnoresVariance | Version3/tracker.py:175-178 | Version3's confirmation criteria do not depend on positional variance |

## Left out

- Camera capture, the detector model, drawing, streaming and console output are I/O and are not modelled. The trackers receive detections as data.
- Time: `time.time()` and `datetime.now()` become the parameter `now`. The publisher's payload timestamp is left out.
- Floating point: confidences, times, averages and variances are exact reals. Pixel coordinates are integers, as the centroid functions produce them.
- The `int()` conversion that every `get_center` applies to the detector's float box corners is not modelled. It truncates toward zero before halving. Boxes are given with integer corners.
- TrackMetrics.MovementPattern: the step length `np.linalg.norm` (a square root) is a function parameter of the configuration rather than computed.
- Publisher.PublishDetection: rounding the confidence to three decimals, JSON encoding and the broker call with its success code are not modelled. The result is the topic and payload that would be handed over.
- The MQTT connection, its callbacks, `publish_robot_status`, `disconnect` and `Version2/mqtt_client.py` are network code and are not modelled.
- The module-level counters of the Version1 scripts (`total_counter` and the per-category `count` fields) are updated by the main loop, which is not modelled.
- Version1/categories.py is not part of this model. The Version1 tracker is run on the recycling table, which is the table of `Version1/config.py` and of the laptop script.
- Key order inside the report dictionaries and the payload is not modelled; the grouping is a map.
- RobotReport.DetectionStats: `collectible_items` duplicates `static_objects` and is not a separate field.

=== FILE: association.dfy ===
/** One selection step of the greedy nearest-pair association shared by the
    robot trackers: among the track/detection pairs not yet used, pick the
    closest one, preferring the earliest track and then the earliest
    detection on ties (the strict `<` of a row-major scan). Distances are
    compared squared, which orders pairs exactly as Euclidean distance does. */
module Association {
  import opened Wrappers
  import opened Geometry

  /** A track index and a detection index. */
  datatype Pair = Pair(t: nat, d: nat)

  /** Row-major order: (a, b) is scanned before (i, j). */
  predicate Before(a: nat, b: nat, i: nat, j: nat) {
    a < i || (a == i && b < j)
  }

  predicate Free(ts: seq<Point>, ds: seq<Point>, usedT: set<nat>, usedD: set<nat>, a: nat, b: nat) {
    a < |ts| && b < |ds| && a !in usedT && b !in usedD
  }

  function Dist(ts: seq<Point>, ds: seq<Point>, a: nat, b: nat): nat
    requires a < |ts| && b < |ds|
  {
    SqDist(ts[a], ds[b])
  }

  /** `p` is the pair the scan settles on among the free pairs scanned before
      (i, j): no free pair before (i, j) is closer, and none scanned before
      `p` is as close. */
  ghost predicate BestBefore(ts: seq<Point>, ds: seq<Point>, usedT: set<nat>, usedD: set<nat>, i: nat, j: nat, best: Option<Pair>) {
    match best
    case None =>
      forall a: nat, b: nat | Free(ts, ds, usedT, usedD, a, b) :: !Before(a, b, i, j)
    case Some(p) =>
      Free(ts, ds, usedT, usedD, p.t, p.d) && Before(p.t, p.d, i, j) &&
      forall a: nat, b: nat | Free(ts, ds, usedT, usedD, a, b) && Before(a, b, i, j) ::
        Dist(ts, ds, p.t, p.d) <= Dist(ts, ds, a, b) &&
        (Before(a, b, p.t, p.d) ==> Dist(ts, ds, p.t, p.d) < Dist(ts, ds, a, b))
  }

  /** The full contract of a selection: the first closest free pair. */
  ghost predicate FirstClosest(ts: seq<Point>, ds: seq<Point>, usedT: set<nat>, usedD: set<nat>, p: Pair) {
    Free(ts, ds, usedT, usedD, p.t, p.d) &&
    forall a: nat, b: nat | Free(ts, ds, usedT, usedD, a, b) ::
      Dist(ts, ds, p.t, p.d) <= Dist(ts, ds, a, b) &&
      (Before(a, b, p.t, p.d) ==> Dist(ts, ds, p.t, p.d) < Dist(ts, ds, a, b))
  }

  /** The inner loop over detections for track row `i`, from column `j`. */
  function ScanRow(ts: seq<Point>, ds: seq<Point>, usedT: set<nat>, usedD: set<nat>, i: nat, j: nat, best: Option<Pair>): (r: Option<Pair>)
    requires i < |ts| && i !in usedT && j <= |ds|
    requires BestBefore(ts, ds, usedT, usedD, i, j, best)
    ensures BestBefore(ts, ds, usedT, usedD, i + 1, 0, r)
    decreases |ds| - j
  {
    if j == |ds| then
      assert forall a: nat, b: nat | Free(ts, ds, usedT, usedD, a, b) :: Before(a, b, i, j) == Before(a, b, i + 1, 0);
      best
    else if j in usedD then
      ScanRow(ts, ds, usedT, usedD, i, j + 1, best)
    else if best.None? || Dist(ts, ds, i, j) < Dist(ts, ds, best.value.t, best.value.d) then
      ScanRow(ts, ds, usedT, usedD, i, j + 1, Some(Pair(i, j)))
    else
      ScanRow(ts, ds, usedT, usedD, i, j + 1, best)
  }

  /** The outer loop over track rows, from row `i`. */
  function ScanRows(ts: seq<Point>, ds: seq<Point>, usedT: set<nat>, usedD: set<nat>, i: nat, best: Option<Pair>): (r: Option<Pair>)
    requires i <= |ts|
    requires BestBefore(ts, ds, usedT, usedD, i, 0, best)
    ensures BestBefore(ts, ds, usedT, usedD, |ts|, 0, r)
    decreases |ts| - i
  {
    if i == |ts| then best
    else if i in usedT then
      assert forall a: nat, b: nat | Free(ts, ds, usedT, usedD, a, b) :: Before(a, b, i, 0) == Before(a, b, i + 1, 0);
      ScanRows(ts, ds, usedT, usedD, i + 1, best)
    else
      ScanRows(ts, ds, usedT, usedD, i + 1, ScanRow(ts, ds, usedT, usedD, i, 0, best))
  }

  /** One association round's search: the first closest free pair, or None
      when every track or every detection is already used. */
  function SelectPair(ts: seq<Point>, ds: seq<Point>, usedT: set<nat>, usedD: set<nat>): (r: Option<Pair>)
    ensures r.None? <==> forall a: nat, b: nat :: !Free(ts, ds, usedT, usedD, a, b)
    ensures r.Some? ==> FirstClosest(ts, ds, usedT, usedD, r.value)
  {
    var r := ScanRows(ts, ds, usedT, usedD, 0, None);
    assert forall a: nat, b: nat | Free(ts, ds, usedT, usedD, a, b) :: Before(a, b, |ts|, 0);
    r
  }

  /** The selection is determined: at most one pair is the first closest. */
  lemma FirstClosestUnique(ts: seq<Point>, ds: seq<Point>, usedT: set<nat>, usedD: set<nat>, p: Pair, q: Pair)
    requires FirstClosest(ts, ds, usedT, usedD, p)
    requires FirstClosest(ts, ds, usedT, usedD, q)
    ensures p == q
  {
    assert Dist(ts, ds, p.t, p.d) <= Dist(ts, ds, q.t, q.d);
    assert Dist(ts, ds, q.t, q.d) <= Dist(ts, ds, p.t, p.d);
    assert !Before(p.t, p.d, q.t, q.d);
    assert !Before(q.t, q.d, p.t, p.d);
  }

  /** When the selected pair is outside the distance gate, so is every free
      pair: a round that rejects on distance could match nothing at all. */
  lemma ClosestOutsideGateMeansAllOutside(ts: seq<Point>, ds: seq<Point>, usedT: set<nat>, usedD: set<nat>, p: Pair, maxDistance: int)
    requires FirstClosest(ts, ds, usedT, usedD, p)
    requires !WithinGate(Dist(ts, ds, p.t, p.d), maxDistance)
    ensures forall a: nat, b: nat | Free(ts, ds, usedT, usedD, a, b) :: !WithinGate(Dist(ts, ds, a, b), maxDistance)
  {
  }

  /** The track indices of the accepted pairs (`used_obj`). */
  function UsedTracks(ms: seq<Pair>): set<nat> {
    set k | 0 <= k < |ms| :: ms[k].t
  }

  /** The detection indices of the accepted pairs (`used_det`). */
  function UsedDetections(ms: seq<Pair>): set<nat> {
    set k | 0 <= k < |ms| :: ms[k].d
  }

  /** No track and no detection takes part in two accepted pairs. */
  ghost predicate OneToOne(ms: seq<Pair>) {
    forall k, l | 0 <= k < l < |ms| :: ms[k].t != ms[l].t && ms[k].d != ms[l].d
  }

  lemma UsedAfterMatch(ms: seq<Pair>, p: Pair)
    ensures UsedTracks(ms + [p]) == UsedTracks(ms) + {p.t}
    ensures UsedDetections(ms + [p]) == UsedDetections(ms) + {p.d}
  {
    var ms' := ms + [p];
    assert ms'[|ms|] == p;
    forall i | i in UsedTracks(ms') ensures i in UsedTracks(ms) + {p.t} {
      var k :| 0 <= k < |ms'| && ms'[k].t == i;
      if k < |ms| {
        assert ms'[k] == ms[k];
      }
    }
    forall j | j in UsedDetections(ms') ensures j in UsedDetections(ms) + {p.d} {
      var k :| 0 <= k < |ms'| && ms'[k].d == j;
      if k < |ms| {
        assert ms'[k] == ms[k];
      }
    }
    forall k | 0 <= k < |ms| ensures ms'[k] == ms[k] {
    }
  }

  /** Every accepted pair was, when accepted, the first closest pair among
      those still unused. */
  ghost predicate Greedy(ts: seq<Point>, ds: seq<Point>, ms: seq<Pair>) {
    forall k | 0 <= k < |ms| ::
      FirstClosest(ts, ds, UsedTracks(ms[..k]), UsedDetections(ms[..k]), ms[k])
  }

  /** Accepting the pair the next round selects keeps the matching greedy. */
  lemma GreedyExtends(ts: seq<Point>, ds: seq<Point>, ms: seq<Pair>, p: Pair)
    requires Greedy(ts, ds, ms)
    requires SelectPair(ts, ds, UsedTracks(ms), UsedDetections(ms)) == Some(p)
    ensures Greedy(ts, ds, ms + [p])
  {
    var ms' := ms + [p];
    assert ms'[..|ms|] == ms;
    forall k | 0 <= k < |ms| ensures ms'[..k] == ms[..k] && ms'[k] == ms[k] {
    }
  }

  /** One-to-one pairs use as many tracks, and as many detections, as there
      are pairs. */
  lemma {:induction false} UsedCount(ms: seq<Pair>)
    requires OneToOne(ms)
    ensures |UsedTracks(ms)| == |ms| && |UsedDetections(ms)| == |ms|
  {
    if |ms| > 0 {
      var n := |ms| - 1;
      var p := ms[n];
      assert ms == ms[..n] + [p];
      UsedCount(ms[..n]);
      UsedAfterMatch(ms[..n], p);
      assert p.t !in UsedTracks(ms[..n]) && p.d !in UsedDetections(ms[..n]);
    }
  }

  /** A set of indices below `n` with at least `n` members holds all of them. */
  lemma {:induction false} FullRange(s: set<nat>, n: nat)
    requires forall i | i in s :: i < n
    requires |s| >= n
    ensures forall i: nat | i < n :: i in s
  {
    if n > 0 {
      var m := n - 1;
      if m !in s {
        BoundedCardinality(s, m);
      } else {
        var s' := s - {m};
        assert s == s' + {m};
        FullRange(s', m);
      }
    }
  }

  /** A set of indices below `n` has at most `n` members. */
  lemma {:induction false} BoundedCardinality(s: set<nat>, n: nat)
    requires forall i | i in s :: i < n
    ensures |s| <= n
  {
    if n > 0 {
      var m := n - 1;
      var s' := s - {m};
      BoundedCardinality(s', m);
      if m in s {
        assert s == s' + {m};
      } else {
        assert s == s';
      }
    }
  }

  /** Once as many one-to-one pairs are accepted as there are tracks or
      detections, no unused pair is left. */
  lemma ExhaustedLeavesNoFreePair(ts: seq<Point>, ds: seq<Point>, ms: seq<Pair>)
    requires OneToOne(ms)
    requires forall k | 0 <= k < |ms| :: ms[k].t < |ts| && ms[k].d < |ds|
    requires |ms| >= |ts| || |ms| >= |ds|
    ensures forall a: nat, b: nat :: !Free(ts, ds, UsedTracks(ms), UsedDetections(ms), a, b)
  {
    UsedCount(ms);
    if |ms| >= |ts| {
      FullRange(UsedTracks(ms), |ts|);
    } else {
      FullRange(UsedDetections(ms), |ds|);
    }
  }
}

=== FILE: categories.dfy ===
/** Static waste-category tables and the pure lookups the trackers use to turn
    a detector item into a category, a display colour and a pickup priority. */
module Categories {
  import opened Wrappers

  datatype Priority = High | Medium | Low

  /** A display colour in OpenCV's (blue, green, red) order. */
  datatype Color = Color(b: int, g: int, r: int)

  /** One entry of a category table. Tables without a priority column leave
      `priority` empty. */
  datatype Category = Category(name: string, items: seq<string>, color: Color, priority: Option<Priority>)

  /** A category table in declaration order (the order Python iterates it in). */
  type Table = seq<Category>

  /** The sentinel category of a item no table entry lists. */
  const Unknown: string := "DESCONOCIDO"

  /** The colour of a category the table does not define. */
  const Gray: Color := Color(128, 128, 128)

  /** `k` is the first entry whose item list holds `item`. */
  ghost predicate FirstHolder(table: Table, item: string, k: int) {
    && 0 <= k < |table|
    && item in table[k].items
    && forall k' | 0 <= k' < k :: item !in table[k'].items
  }

  /** `get_item_category`: the first category, in table order, whose items hold
      the label, and the unknown sentinel when none does. */
  function ItemCategory(table: Table, item: string): string {
    if |table| == 0 then Unknown
    else if item in table[0].items then table[0].name
    else ItemCategory(table[1..], item)
  }

  /** The category of a label is the name of the first entry listing it, and
      the unknown sentinel when no entry does. */
  lemma {:induction false} ItemCategoryIsFirstHolder(table: Table, item: string)
    ensures forall k | FirstHolder(table, item, k) :: ItemCategory(table, item) == table[k].name
    ensures (forall k | 0 <= k < |table| :: item !in table[k].items) ==> ItemCategory(table, item) == Unknown
    decreases |table|
  {
    if |table| > 0 && item !in table[0].items {
      ItemCategoryIsFirstHolder(table[1..], item);
      assert forall k | FirstHolder(table, item, k) :: FirstHolder(table[1..], item, k - 1);
      assert forall k | 1 <= k < |table| :: table[k] == table[1..][k - 1];
    }
  }

  /** A label some entry lists has a first such entry. */
  lemma FirstHolderExists(table: Table, item: string, k0: int)
    requires 0 <= k0 < |table| && item in table[k0].items
    ensures exists k :: FirstHolder(table, item, k)
  {
    if item in table[0].items {
      assert FirstHolder(table, item, 0);
    } else {
      FirstHolderExists(table[1..], item, k0 - 1);
      var k :| FirstHolder(table[1..], item, k);
      assert FirstHolder(table, item, k + 1);
    }
  }

  /** Names are the keys of the Python dictionary, hence distinct. */
  predicate DistinctNames(table: Table) {
    forall i, j | 0 <= i < j < |table| :: table[i].name != table[j].name
  }

  /** Dictionary lookup of a category by name. */
  function Lookup(table: Table, name: string): (r: Option<Category>)
    ensures r.None? <==> forall k | 0 <= k < |table| :: table[k].name != name
    ensures r.Some? ==> r.value in table && r.value.name == name
    ensures DistinctNames(table) ==> forall k | 0 <= k < |table| && table[k].name == name :: r == Some(table[k])
  {
    if |table| == 0 then None
    else if table[0].name == name then Some(table[0])
    else
      var r := Lookup(table[1..], name);
      assert forall k | 1 <= k < |table| :: table[k] == table[1..][k - 1];
      r
  }

  /** `get_category_color`: the table colour, or gray for an unknown category. */
  function CategoryColor(table: Table, name: string): (c: Color)
    ensures DistinctNames(table) ==> forall k | 0 <= k < |table| && table[k].name == name :: c == table[k].color
    ensures (forall k | 0 <= k < |table| :: table[k].name != name) ==> c == Gray
  {
    match Lookup(table, name)
    case Some(cat) => cat.color
    case None => Gray
  }

  /** Every entry carries a priority, as `get_category_priority` and
      `get_priority_order` index the priority field unconditionally. */
  predicate Prioritized(table: Table) {
    forall k | 0 <= k < |table| :: table[k].priority.Some?
  }

  /** `get_category_priority`: the table priority, or LOW for an unknown category. */
  function CategoryPriority(table: Table, name: string): (p: Priority)
    requires Prioritized(table)
    ensures DistinctNames(table) ==> forall k | 0 <= k < |table| && table[k].name == name :: Some(p) == table[k].priority
    ensures (forall k | 0 <= k < |table| :: table[k].name != name) ==> p == Low
  {
    match Lookup(table, name)
    case Some(cat) => cat.priority.value
    case None => Low
  }

  /** Position of a priority group in the pickup order. */
  function Rank(p: Priority): nat {
    match p
    case High => 0
    case Medium => 1
    case Low => 2
  }

  /** The entries of one priority group, in table order. */
  function WithPriority(cs: seq<Category>, p: Priority): (r: seq<Category>)
    ensures |r| <= |cs|
  {
    if |cs| == 0 then []
    else (if cs[0].priority == Some(p) then [cs[0]] else []) + WithPriority(cs[1..], p)
  }

  /** A group holds only entries of the table with that priority. */
  lemma WithPriorityMembers(cs: seq<Category>, p: Priority)
    ensures forall c | c in WithPriority(cs, p) :: c in cs && c.priority == Some(p)
  {
    if |cs| > 0 {
      WithPriorityMembers(cs[1..], p);
    }
  }

  lemma WithPriorityAppend(a: seq<Category>, b: seq<Category>, p: Priority)
    ensures WithPriority(a + b, p) == WithPriority(a, p) + WithPriority(b, p)
  {
    if |a| > 0 {
      assert (a + b)[1..] == a[1..] + b;
      WithPriorityAppend(a[1..], b, p);
    } else {
      assert a + b == b;
    }
  }

  lemma WithPriorityOfGroup(cs: seq<Category>, p: Priority, q: Priority)
    requires forall c | c in cs :: c.priority == Some(p)
    ensures WithPriority(cs, q) == if p == q then cs else []
  {
    if |cs| > 0 {
      WithPriorityOfGroup(cs[1..], p, q);
      assert cs == [cs[0]] + cs[1..];
    }
  }

  lemma WithPriorityLength(cs: seq<Category>)
    requires forall c | c in cs :: c.priority.Some?
    ensures |WithPriority(cs, High)| + |WithPriority(cs, Medium)| + |WithPriority(cs, Low)| == |cs|
  {
    if |cs| > 0 {
      WithPriorityLength(cs[1..]);
      assert cs[0] in cs;
      match cs[0].priority.value
      case High =>
        assert |WithPriority(cs, High)| == 1 + |WithPriority(cs[1..], High)|;
      case Medium =>
        assert |WithPriority(cs, Medium)| == 1 + |WithPriority(cs[1..], Medium)|;
      case Low =>
        assert |WithPriority(cs, Low)| == 1 + |WithPriority(cs[1..], Low)|;
    }
  }

  lemma WithPriorityComplete(cs: seq<Category>, k: int)
    requires 0 <= k < |cs| && cs[k].priority.Some?
    ensures cs[k] in WithPriority(cs, cs[k].priority.value)
  {
    if k > 0 {
      WithPriorityComplete(cs[1..], k - 1);
    }
  }

  lemma WithPriorityDistinct(cs: seq<Category>, p: Priority)
    requires DistinctNames(cs)
    ensures DistinctNames(WithPriority(cs, p))
  {
    if |cs| > 0 {
      WithPriorityDistinct(cs[1..], p);
      var rest := WithPriority(cs[1..], p);
      WithPriorityMembers(cs[1..], p);
      forall c | c in rest ensures c.name != cs[0].name {
        var k :| 0 <= k < |cs[1..]| && cs[1..][k] == c;
        assert cs[k + 1] == c;
      }
    }
  }

  /** Non-decreasing in rank: every HIGH entry before every MEDIUM one, every
      MEDIUM one before every LOW one. */
  ghost predicate RankSorted(cs: seq<Category>)
    requires forall c | c in cs :: c.priority.Some?
  {
    forall i, j | 0 <= i < j < |cs| :: Rank(cs[i].priority.value) <= Rank(cs[j].priority.value)
  }

  lemma GroupsHoldEveryEntry(table: Table)
    requires Prioritized(table)
    ensures forall k | 0 <= k < |table| ::
      table[k] in WithPriority(table, High) + WithPriority(table, Medium) + WithPriority(table, Low)
  {
    forall k | 0 <= k < |table|
      ensures table[k] in WithPriority(table, High) + WithPriority(table, Medium) + WithPriority(table, Low)
    {
      var h, m, l := WithPriority(table, High), WithPriority(table, Medium), WithPriority(table, Low);
      WithPriorityComplete(table, k);
      var p := table[k].priority.value;
      if p == High {
        assert table[k] in h;
      } else if p == Medium {
        assert table[k] in m;
      } else {
        assert table[k] in l;
      }
    }
  }

  lemma GroupsAreRankSorted(h: seq<Category>, m: seq<Category>, l: seq<Category>)
    requires forall c | c in h :: c.priority == Some(High)
    requires forall c | c in m :: c.priority == Some(Medium)
    requires forall c | c in l :: c.priority == Some(Low)
    ensures forall c | c in h + m + l :: c.priority.Some?
    ensures RankSorted(h + m + l)
  {
    var r := h + m + l;
    forall i | 0 <= i < |r|
      ensures Rank(r[i].priority.value) == (if i < |h| then 0 else if i < |h| + |m| then 1 else 2)
    {
      if i < |h| {
        assert r[i] == h[i];
      } else if i < |h| + |m| {
        assert r[i] == m[i - |h|];
      } else {
        assert r[i] == l[i - |h| - |m|];
      }
    }
  }

  lemma GroupsAreStable(table: Table, p: Priority)
    ensures
      var h, m, l := WithPriority(table, High), WithPriority(table, Medium), WithPriority(table, Low);
      WithPriority(h + m + l, p) == WithPriority(table, p)
  {
    var h, m, l := WithPriority(table, High), WithPriority(table, Medium), WithPriority(table, Low);
    WithPriorityMembers(table, High);
    WithPriorityMembers(table, Medium);
    WithPriorityMembers(table, Low);
    WithPriorityAppend(h + m, l, p);
    WithPriorityAppend(h, m, p);
    WithPriorityOfGroup(h, High, p);
    WithPriorityOfGroup(m, Medium, p);
    WithPriorityOfGroup(l, Low, p);
  }

  /** The table's entries grouped HIGH, then MEDIUM, then LOW. */
  function OrderedCategories(table: Table): (r: seq<Category>)
    requires Prioritized(table)
    ensures |r| == |table|
    ensures forall c | c in r :: c in table && c.priority.Some?
    ensures forall k | 0 <= k < |table| :: table[k] in r
    ensures RankSorted(r)
    ensures forall p :: WithPriority(r, p) == WithPriority(table, p)
  {
    var h, m, l := WithPriority(table, High), WithPriority(table, Medium), WithPriority(table, Low);
    WithPriorityLength(table);
    WithPriorityMembers(table, High);
    WithPriorityMembers(table, Medium);
    WithPriorityMembers(table, Low);
    GroupsHoldEveryEntry(table);
    GroupsAreRankSorted(h, m, l);
    forall p ensures WithPriority(h + m + l, p) == WithPriority(table, p) {
      GroupsAreStable(table, p);
    }
    h + m + l
  }

  lemma WithPriorityNone(cs: seq<Category>, p: Priority)
    requires forall c | c in cs :: c.priority != Some(p)
    ensures WithPriority(cs, p) == []
  {
    if |cs| > 0 {
      WithPriorityNone(cs[1..], p);
    }
  }

  /** The tail of a table listed HIGH, MEDIUM, LOW is listed so too, and
      ranks no lower than its head. */
  lemma SortedTail(table: Table)
    requires |table| > 0 && Prioritized(table) && RankSorted(table)
    ensures Prioritized(table[1..]) && RankSorted(table[1..])
    ensures forall d | d in table[1..] :: d.priority.Some? && Rank(table[0].priority.value) <= Rank(d.priority.value)
  {
    var rest := table[1..];
    assert forall i | 0 <= i < |rest| :: rest[i] == table[i + 1];
    forall i, j | 0 <= i < j < |rest|
      ensures Rank(rest[i].priority.value) <= Rank(rest[j].priority.value)
    {
      assert rest[i] == table[i + 1] && rest[j] == table[j + 1];
    }
    forall d | d in rest ensures Rank(table[0].priority.value) <= Rank(d.priority.value) {
      var i :| 0 <= i < |rest| && rest[i] == d;
      assert table[i + 1] == d;
    }
  }

  /** A table already listed HIGH, MEDIUM, LOW keeps its own order. */
  lemma {:induction false} SortedTableKeepsOrder(table: Table)
    requires Prioritized(table)
    requires RankSorted(table)
    ensures WithPriority(table, High) + WithPriority(table, Medium) + WithPriority(table, Low) == table
  {
    if |table| > 0 {
      var rest := table[1..];
      SortedTail(table);
      SortedTableKeepsOrder(rest);
      assert table == [table[0]] + rest;
      GroupsOfCons(table[0], rest);
    }
  }

  lemma WithPriorityCons(c: Category, rest: seq<Category>, q: Priority)
    ensures WithPriority([c] + rest, q) == (if c.priority == Some(q) then [c] else []) + WithPriority(rest, q)
  {
    assert ([c] + rest)[1..] == rest;
  }

  lemma ConcatWithHead(c: Category, a: seq<Category>, b: seq<Category>, d: seq<Category>)
    ensures ([c] + a) + b + d == [c] + (a + b + d)
  {
  }

  /** Prepending an entry whose rank is at most every other rank puts it at
      the head of the grouped order. */
  lemma GroupsOfCons(c: Category, rest: seq<Category>)
    requires c.priority.Some?
    requires forall d | d in rest :: d.priority.Some? && Rank(c.priority.value) <= Rank(d.priority.value)
    ensures WithPriority([c] + rest, High) + WithPriority([c] + rest, Medium) + WithPriority([c] + rest, Low)
         == [c] + (WithPriority(rest, High) + WithPriority(rest, Medium) + WithPriority(rest, Low))
  {
    var h, m, l := WithPriority(rest, High), WithPriority(rest, Medium), WithPriority(rest, Low);
    WithPriorityCons(c, rest, High);
    WithPriorityCons(c, rest, Medium);
    WithPriorityCons(c, rest, Low);
    var p := c.priority.value;
    if p == Medium {
      WithPriorityNone(rest, High);
    } else if p == Low {
      WithPriorityNone(rest, High);
      WithPriorityNone(rest, Medium);
    }
    ConcatWithHead(c, h, m, l);
  }

  function Names(cs: seq<Category>): (r: seq<string>)
    ensures |r| == |cs|
    ensures forall i | 0 <= i < |cs| :: r[i] == cs[i].name
  {
    if |cs| == 0 then [] else [cs[0].name] + Names(cs[1..])
  }

  /** `get_priority_order`: category names, HIGH group first, then MEDIUM,
      then LOW, each group in table order. */
  function PriorityOrder(table: Table): (r: seq<string>)
    requires Prioritized(table)
  {
    Names(OrderedCategories(table))
  }

  /** The grouped order never repeats a category name. */
  lemma OrderedCategoriesDistinct(table: Table)
    requires Prioritized(table)
    requires DistinctNames(table)
    ensures DistinctNames(OrderedCategories(table))
  {
    var cs := OrderedCategories(table);
    forall i, j | 0 <= i < j < |cs| ensures cs[i].name != cs[j].name {
      assert cs[i] in cs && cs[j] in cs;
      if cs[i].priority == cs[j].priority {
        // within one group: the group is a subsequence of the table
        var p := cs[i].priority.value;
        WithPriorityDistinct(table, p);
        WithPriorityIndices(cs, p, i, j);
        var g := WithPriority(cs, p);
        var a, b :| 0 <= a < b < |g| && g[a] == cs[i] && g[b] == cs[j];
        assert g == WithPriority(table, p);
      } else {
        // across groups: two different entries of the table
        var a :| 0 <= a < |table| && table[a] == cs[i];
        var b :| 0 <= b < |table| && table[b] == cs[j];
        assert a != b;
      }
    }
  }

  /** The priority order lists each category of the table exactly once. */
  lemma PriorityOrderIsPermutation(table: Table)
    requires Prioritized(table)
    requires DistinctNames(table)
    ensures |PriorityOrder(table)| == |table|
    ensures forall i, j | 0 <= i < j < |PriorityOrder(table)| :: PriorityOrder(table)[i] != PriorityOrder(table)[j]
    ensures forall k | 0 <= k < |table| :: table[k].name in PriorityOrder(table)
  {
    var cs := OrderedCategories(table);
    OrderedCategoriesDistinct(table);
    forall k | 0 <= k < |table| ensures table[k].name in PriorityOrder(table) {
      var i :| 0 <= i < |cs| && cs[i] == table[k];
      assert PriorityOrder(table)[i] == table[k].name;
    }
  }

  /** Two distinct positions of one group keep distinct positions in the
      group's subsequence. */
  lemma WithPriorityIndices(cs: seq<Category>, p: Priority, i: int, j: int)
    requires 0 <= i < j < |cs|
    requires cs[i].priority == Some(p) && cs[j].priority == Some(p)
    ensures exists a, b :: 0 <= a < b < |WithPriority(cs, p)| && WithPriority(cs, p)[a] == cs[i] && WithPriority(cs, p)[b] == cs[j]
  {
    if i == 0 {
      WithPriorityComplete(cs[1..], j - 1);
      var rest := WithPriority(cs[1..], p);
      var b :| 0 <= b < |rest| && rest[b] == cs[j];
      var g := WithPriority(cs, p);
      assert g == [cs[0]] + rest;
      assert 0 < b + 1 < |g| && g[0] == cs[i] && g[b + 1] == cs[j];
    } else {
      WithPriorityIndices(cs[1..], p, i - 1, j - 1);
      var rest := WithPriority(cs[1..], p);
      var a, b :| 0 <= a < b < |rest| && rest[a] == cs[i] && rest[b] == cs[j];
      var pre := if cs[0].priority == Some(p) then [cs[0]] else [];
      var g := WithPriority(cs, p);
      assert g == pre + rest;
      assert 0 <= |pre| + a < |pre| + b < |g| && g[|pre| + a] == cs[i] && g[|pre| + b] == cs[j];
    }
  }
}

=== FILE: counting_tracker.dfy ===
/** The centroid tracker of the line-crossing counter (`Version1/tracker.py`,
    and the inline copy in `Version1/camaraLaptop.py`). It has no confidence
    handling: every detection takes part, and a matched track simply takes
    over the detection's centre, label and category. The table is a sequence
    in ascending id order, which is the insertion order of the original
    dictionary. */
module CountingTracker {
  import opened Wrappers
  import opened Geometry
  import opened Categories
  import opened Association
  import opened TrackMetrics

  /** `max_distance`, `max_disappeared` and the category table the labels
      are looked up in. */
  datatype Limits = Limits(maxDistance: int, maxDisappeared: int, table: Table)

  /** The limits of `ObjectTracker()` built without arguments. */
  function DefaultLimits(table: Table): Limits {
    Limits(80, 10, table)
  }

  /** At most this many recent positions are kept per track. */
  const PositionCap: nat := 10

  /** One detection as the tracker reads it: its centre and its label. */
  datatype Sighting = Sighting(center: Point, className: string)

  datatype Track = Track(
    id: nat,
    center: Point,
    disappeared: nat,
    positions: seq<Point>,
    counted: bool,
    className: string,
    category: string)

  datatype Counter = Counter(objects: seq<Track>, nextId: nat)

  /** `ObjectTracker()`: no tracks, ids start at zero. */
  const Empty := Counter([], 0)

  /** A track as every path of the tracker leaves it: a non-empty bounded
      position window ending at the centre, and the category of its label. */
  ghost predicate WellFormed(c: Limits, tr: Track) {
    1 <= |tr.positions| <= PositionCap &&
    tr.center == tr.positions[|tr.positions| - 1] &&
    tr.category == ItemCategory(c.table, tr.className)
  }

  predicate IdsAscending(objs: seq<Track>) {
    forall i, j | 0 <= i < j < |objs| :: objs[i].id < objs[j].id
  }

  /** The table invariant: ids ascending and already issued, every track well
      formed. */
  ghost predicate Valid(c: Limits, t: Counter) {
    IdsAscending(t.objects) &&
    forall i | 0 <= i < |t.objects| :: t.objects[i].id < t.nextId && WellFormed(c, t.objects[i])
  }

  lemma EmptyIsValid(c: Limits)
    ensures Valid(c, Empty)
  {
  }

  /** The track `register` creates: not yet counted, one position. */
  function NewTrack(c: Limits, id: nat, s: Sighting): (r: Track)
    ensures WellFormed(c, r)
    ensures r.id == id && !r.counted && r.disappeared == 0 && |r.positions| == 1
    ensures r.center == s.center && r.className == s.className
  {
    Track(id, s.center, 0, [s.center], false, s.className, ItemCategory(c.table, s.className))
  }

  /** A matched track follows its detection: new centre appended to the
      bounded window, absence reset, label and category overwritten; its id
      and its `counted` flag are kept. */
  function Follow(c: Limits, tr: Track, s: Sighting): (r: Track)
    ensures 1 <= |r.positions| <= PositionCap
    ensures r.id == tr.id && r.counted == tr.counted
    ensures r.center == s.center && r.disappeared == 0 && r.className == s.className
    ensures |tr.positions| < PositionCap ==> r.positions == tr.positions + [s.center]
    ensures r.positions[..|r.positions| - 1] == tr.positions[|tr.positions| + 1 - |r.positions|..]
  {
    var ps := Push(tr.positions, s.center, PositionCap);
    tr.(center := s.center, disappeared := 0, positions := ps,
        className := s.className, category := ItemCategory(c.table, s.className))
  }

  /** Whatever the track was, following a detection leaves it well formed. */
  lemma FollowIsWellFormed(c: Limits, tr: Track, s: Sighting)
    ensures WellFormed(c, Follow(c, tr, s))
  {
  }

  /** `deregister`: drop the track with this id. The id must be registered:
      deleting an absent key is an error in the tracker. */
  function Deregister(objs: seq<Track>, id: nat): (r: seq<Track>)
    requires exists x | x in objs :: x.id == id
    ensures |r| < |objs|
    ensures forall x | x in r :: x in objs && x.id != id
    ensures forall x | x in objs && x.id != id :: x in r
  {
    var n := |objs| - 1;
    var x := objs[n];
    assert objs == objs[..n] + [x];
    if x.id == id then
      if exists y | y in objs[..n] :: y.id == id then Deregister(objs[..n], id) else objs[..n]
    else
      Deregister(objs[..n], id) + [x]
  }

  /** An unmatched track counts one more frame of absence. */
  function Absent(tr: Track): Track {
    tr.(disappeared := tr.disappeared + 1)
  }

  function AfterAgeing(tr: Track, matched: bool): Track {
    if matched then tr else Absent(tr)
  }

  /** Whether the ageing pass keeps the track: matched tracks always, others
      while their absence count does not exceed the limit. */
  predicate Kept(c: Limits, tr: Track, matched: bool) {
    matched || tr.disappeared + 1 <= c.maxDisappeared
  }

  /** The ageing pass: every track whose index was not matched counts an
      absent frame and is deregistered once that count exceeds
      `maxDisappeared`. */
  function AgeUnmatched(c: Limits, objs: seq<Track>, used: set<nat>): (r: seq<Track>)
    ensures |r| <= |objs|
    ensures forall i | 0 <= i < |objs| && Kept(c, objs[i], i in used) :: AfterAgeing(objs[i], i in used) in r
    ensures forall x | x in r :: exists i | 0 <= i < |objs| :: Kept(c, objs[i], i in used) && x == AfterAgeing(objs[i], i in used)
  {
    if |objs| == 0 then []
    else
      var n := |objs| - 1;
      var rest := AgeUnmatched(c, objs[..n], used);
      var x := AfterAgeing(objs[n], n in used);
      if Kept(c, objs[n], n in used) then rest + [x] else rest
  }

  /** Ageing deregisters a dropped track: no track of the aged table carries
      its id, and every aged track comes from one that `Deregister` of that id
      keeps. */
  lemma DroppedTrackIsDeregistered(c: Limits, objs: seq<Track>, used: set<nat>, i: nat)
    requires IdsAscending(objs) && i < |objs| && !Kept(c, objs[i], i in used)
    ensures forall x | x in AgeUnmatched(c, objs, used) ::
      x.id != objs[i].id && exists y | y in Deregister(objs, objs[i].id) :: y.id == x.id
  {
    forall x | x in AgeUnmatched(c, objs, used)
      ensures x.id != objs[i].id && exists y | y in Deregister(objs, objs[i].id) :: y.id == x.id
    {
      var j :| 0 <= j < |objs| && Kept(c, objs[j], j in used) && x == AfterAgeing(objs[j], j in used);
      assert j != i;
      assert objs[j] in Deregister(objs, objs[i].id);
    }
  }

  /** Ageing keeps ids, so it keeps any bound on them. */
  lemma AgedIdsBelow(c: Limits, objs: seq<Track>, used: set<nat>, bound: nat)
    requires forall i | 0 <= i < |objs| :: objs[i].id < bound
    ensures forall y | y in AgeUnmatched(c, objs, used) :: y.id < bound
  {
    forall y | y in AgeUnmatched(c, objs, used) ensures y.id < bound {
      var i :| 0 <= i < |objs| && Kept(c, objs[i], i in used) && y == AfterAgeing(objs[i], i in used);
    }
  }

  /** Appending a track above every id keeps the ids ascending. */
  lemma AppendKeepsAscending(objs: seq<Track>, x: Track)
    requires IdsAscending(objs) && forall y | y in objs :: y.id < x.id
    ensures IdsAscending(objs + [x])
  {
    var r := objs + [x];
    forall i, j | 0 <= i < j < |r| ensures r[i].id < r[j].id {
      assert r[i] == objs[i];
      if j < |objs| {
        assert r[j] == objs[j];
      } else {
        assert objs[i] in objs;
      }
    }
  }

  /** Ageing removes tracks but never reorders them. */
  lemma {:induction false} AgeUnmatchedKeepsOrder(c: Limits, objs: seq<Track>, used: set<nat>)
    requires IdsAscending(objs)
    ensures IdsAscending(AgeUnmatched(c, objs, used))
  {
    if |objs| > 0 {
      var n := |objs| - 1;
      var rest := AgeUnmatched(c, objs[..n], used);
      AgeUnmatchedKeepsOrder(c, objs[..n], used);
      AgedIdsBelow(c, objs[..n], used, objs[n].id);
      var x := AfterAgeing(objs[n], n in used);
      if Kept(c, objs[n], n in used) {
        assert AgeUnmatched(c, objs, used) == rest + [x];
        AppendKeepsAscending(rest, x);
      }
    }
  }

  /** The tracks `register` creates for the sightings, one per sighting,
      numbered upwards from `nextId`. */
  function NewTracks(c: Limits, nextId: nat, ss: seq<Sighting>): (r: seq<Track>)
    ensures |r| == |ss|
    ensures forall k | 0 <= k < |ss| :: r[k] == NewTrack(c, nextId + k, ss[k])
  {
    seq(|ss|, k requires 0 <= k < |ss| => NewTrack(c, nextId + k, ss[k]))
  }

  /** Each new track is well formed, uncounted and carries its issued id. */
  lemma NewTracksFacts(c: Limits, nextId: nat, ss: seq<Sighting>)
    ensures forall k | 0 <= k < |ss| ::
      NewTracks(c, nextId, ss)[k].id == nextId + k && !NewTracks(c, nextId, ss)[k].counted &&
      WellFormed(c, NewTracks(c, nextId, ss)[k])
  {
    var r := NewTracks(c, nextId, ss);
    forall k | 0 <= k < |ss| ensures r[k].id == nextId + k && !r[k].counted && WellFormed(c, r[k]) {
      assert r[k] == NewTrack(c, nextId + k, ss[k]);
    }
  }

  /** Registers the sightings in order: the table grows by the new tracks
      and the counter by their number. */
  function RegisterAll(c: Limits, t: Counter, ss: seq<Sighting>): (r: Counter)
    ensures r.nextId == t.nextId + |ss|
    ensures r.objects == t.objects + NewTracks(c, t.nextId, ss)
  {
    Counter(t.objects + NewTracks(c, t.nextId, ss), t.nextId + |ss|)
  }

  /** Appending a well-formed track under the next id keeps the table
      valid. */
  lemma AppendKeepsValid(c: Limits, objs: seq<Track>, nextId: nat, x: Track)
    requires Valid(c, Counter(objs, nextId)) && x.id == nextId && WellFormed(c, x)
    ensures Valid(c, Counter(objs + [x], nextId + 1))
  {
    AppendKeepsAscending(objs, x);
    var r := objs + [x];
    forall i | 0 <= i < |r| ensures r[i].id < nextId + 1 && WellFormed(c, r[i]) {
      if i < |objs| {
        assert r[i] == objs[i];
      }
    }
  }

  /** Registering a batch is registering all but its last element, then
      appending the last one's track. */
  lemma NewTracksSnoc(c: Limits, nextId: nat, ss: seq<Sighting>)
    requires |ss| > 0
    ensures NewTracks(c, nextId, ss) ==
      NewTracks(c, nextId, ss[..|ss| - 1]) + [NewTrack(c, nextId + |ss| - 1, ss[|ss| - 1])]
  {
    var n := |ss| - 1;
    var lhs := NewTracks(c, nextId, ss);
    var rhs := NewTracks(c, nextId, ss[..n]) + [NewTrack(c, nextId + n, ss[n])];
    forall k | 0 <= k < |ss| ensures lhs[k] == rhs[k] {
      if k < n {
        assert ss[..n][k] == ss[k];
      }
    }
  }

  lemma RegisterAllSnoc(c: Limits, t: Counter, ss: seq<Sighting>)
    requires |ss| > 0
    ensures RegisterAll(c, t, ss) ==
      Counter(RegisterAll(c, t, ss[..|ss| - 1]).objects + [NewTrack(c, t.nextId + |ss| - 1, ss[|ss| - 1])],
              t.nextId + |ss|)
  {
    var n := |ss| - 1;
    NewTracksSnoc(c, t.nextId, ss);
    AppendAssociates(t.objects, NewTracks(c, t.nextId, ss[..n]), [NewTrack(c, t.nextId + n, ss[n])]);
  }

  /** Registration keeps the table valid: the new tracks are well formed
      and numbered upwards from the counter. */
  lemma {:induction false} RegisterAllKeepsValid(c: Limits, t: Counter, ss: seq<Sighting>)
    requires Valid(c, t)
    ensures Valid(c, RegisterAll(c, t, ss))
    decreases |ss|
  {
    if |ss| > 0 {
      var n := |ss| - 1;
      RegisterAllKeepsValid(c, t, ss[..n]);
      var mid := RegisterAll(c, t, ss[..n]);
      AppendKeepsValid(c, mid.objects, mid.nextId, NewTrack(c, t.nextId + n, ss[n]));
      RegisterAllSnoc(c, t, ss);
    }
  }

  /** The detection indices below `n` that are in `used`. */
  function UsedBelow(used: set<nat>, n: nat): set<nat> {
    set j: nat | j < n && j in used
  }

  /** The detections no track claimed, in detection order. There is no
      confidence test: each of them becomes a track. */
  function Unclaimed(dets: seq<Sighting>, used: set<nat>): (r: seq<Sighting>)
    ensures |r| + |UsedBelow(used, |dets|)| == |dets|
    ensures forall s | s in r :: exists j | 0 <= j < |dets| :: j !in used && dets[j] == s
    ensures forall j | 0 <= j < |dets| && j !in used :: dets[j] in r
  {
    if |dets| == 0 then
      assert UsedBelow(used, 0) == {};
      []
    else
      var n := |dets| - 1;
      var rest := Unclaimed(dets[..n], used);
      if n in used then
        assert UsedBelow(used, n + 1) == UsedBelow(used, n) + {n};
        rest
      else
        assert UsedBelow(used, n + 1) == UsedBelow(used, n);
        rest + [dets[n]]
  }

  /** One step of the registration pass: a detection appended after `p` is
      registered after those of `p` when no track claimed it. */
  lemma UnclaimedStep(f: seq<Sighting>, used: set<nat>, p: seq<Sighting>, x: Sighting)
    requires f == p + [x]
    ensures Unclaimed(f, used) == Unclaimed(p, used) + (if |p| !in used then [x] else [])
  {
    assert f[..|f| - 1] == p;
  }

  /** Registration follows detection order, one track per unclaimed
      position: the unclaimed detections of a concatenation are those of the
      first part followed by those of the second, whose positions are offset
      by the first part's length. */
  lemma {:induction false} UnclaimedSplits(a: seq<Sighting>, b: seq<Sighting>, used: set<nat>)
    ensures Unclaimed(a + b, used) == Unclaimed(a, used) + Unclaimed(b, Shift(used, |a|))
    decreases |b|
  {
    if |b| > 0 {
      var n := |b| - 1;
      var sh := Shift(used, |a|);
      var p := a + b[..n];
      assert b == b[..n] + [b[n]];
      assert a + b == p + [b[n]];
      assert |p| in used <==> n in sh;
      UnclaimedStep(b, sh, b[..n], b[n]);
      UnclaimedStep(a + b, used, p, b[n]);
      UnclaimedSplits(a, b[..n], used);
      var last: seq<Sighting> := if n !in sh then [b[n]] else [];
      AppendAssociates(Unclaimed(a, used), Unclaimed(b[..n], sh), last);
    } else {
      assert a + b == a;
    }
  }

  function Min(a: nat, b: nat): nat {
    if a <= b then a else b
  }

  function Centers(objs: seq<Track>): (r: seq<Point>)
    ensures |r| == |objs|
    ensures forall i | 0 <= i < |objs| :: r[i] == objs[i].center
  {
    seq(|objs|, i requires 0 <= i < |objs| => objs[i].center)
  }

  function SightedCenters(dets: seq<Sighting>): (r: seq<Point>)
    ensures |r| == |dets|
    ensures forall j | 0 <= j < |dets| :: r[j] == dets[j].center
  {
    seq(|dets|, j requires 0 <= j < |dets| => dets[j].center)
  }

  /** The association loop state: the tracks as updated so far and the
      accepted pairs in acceptance order. */
  datatype Matching = Matching(objs: seq<Track>, matches: seq<Pair>)

  /** The pair a round starting in `st` selects. */
  function Selected(snap: seq<Point>, dets: seq<Sighting>, st: Matching): Option<Pair> {
    SelectPair(snap, SightedCenters(dets), UsedTracks(st.matches), UsedDetections(st.matches))
  }

  /** One round: the first closest unused pair is accepted when it is inside
      the distance gate. */
  function Round(c: Limits, snap: seq<Point>, dets: seq<Sighting>, st: Matching): (r: Matching)
    requires |st.objs| == |snap|
    ensures |r.objs| == |st.objs|
  {
    match Selected(snap, dets, st)
    case None => st
    case Some(p) =>
      if !WithinGate(SqDist(snap[p.t], dets[p.d].center), c.maxDistance) then st
      else Matching(st.objs[p.t := Follow(c, st.objs[p.t], dets[p.d])], st.matches + [p])
  }

  function Rounds(c: Limits, snap: seq<Point>, dets: seq<Sighting>, k: nat, st: Matching): (r: Matching)
    requires |st.objs| == |snap|
    ensures |r.objs| == |st.objs|
  {
    if k == 0 then st else Rounds(c, snap, dets, k - 1, Round(c, snap, dets, st))
  }

  /** The accepted pairs are in range and inside the distance gate. */
  ghost predicate PairsGated(c: Limits, snap: seq<Point>, dets: seq<Sighting>, ms: seq<Pair>) {
    forall k | 0 <= k < |ms| ::
      ms[k].t < |snap| && ms[k].d < |dets| &&
      WithinGate(SqDist(snap[ms[k].t], dets[ms[k].d].center), c.maxDistance)
  }

  /** Each matched track is its starting track having followed its
      detection. */
  ghost predicate Followed(c: Limits, objs0: seq<Track>, objs: seq<Track>, dets: seq<Sighting>, ms: seq<Pair>) {
    forall k | 0 <= k < |ms| && ms[k].t < |objs0| && ms[k].t < |objs| && ms[k].d < |dets| ::
      objs[ms[k].t] == Follow(c, objs0[ms[k].t], dets[ms[k].d])
  }

  /** A track without an accepted pair is untouched. */
  ghost predicate Untouched(objs0: seq<Track>, objs: seq<Track>, ms: seq<Pair>) {
    forall i {:trigger objs[i]} | 0 <= i < |objs0| && i < |objs| && i !in UsedTracks(ms) :: objs[i] == objs0[i]
  }

  /** What holds of the loop state relative to the tracks `objs0` it started
      from. */
  ghost predicate Consistent(c: Limits, objs0: seq<Track>, snap: seq<Point>, dets: seq<Sighting>, st: Matching) {
    |objs0| == |snap| == |st.objs| &&
    PairsGated(c, snap, dets, st.matches) &&
    OneToOne(st.matches) &&
    Followed(c, objs0, st.objs, dets, st.matches) &&
    Untouched(objs0, st.objs, st.matches)
  }

  lemma MatchKeepsPairs(c: Limits, snap: seq<Point>, dets: seq<Sighting>, ms: seq<Pair>, p: Pair)
    requires PairsGated(c, snap, dets, ms) && OneToOne(ms)
    requires p.t < |snap| && p.d < |dets| && p.t !in UsedTracks(ms) && p.d !in UsedDetections(ms)
    requires WithinGate(SqDist(snap[p.t], dets[p.d].center), c.maxDistance)
    ensures PairsGated(c, snap, dets, ms + [p]) && OneToOne(ms + [p])
  {
    var ms' := ms + [p];
    forall k | 0 <= k < |ms| ensures ms'[k] == ms[k] && ms[k].t != p.t && ms[k].d != p.d {
    }
  }

  lemma MatchKeepsFollowed(c: Limits, objs0: seq<Track>, objs: seq<Track>, dets: seq<Sighting>, ms: seq<Pair>, p: Pair)
    requires Followed(c, objs0, objs, dets, ms) && Untouched(objs0, objs, ms)
    requires |objs| == |objs0| && p.t < |objs| && p.d < |dets| && p.t !in UsedTracks(ms)
    ensures Followed(c, objs0, objs[p.t := Follow(c, objs[p.t], dets[p.d])], dets, ms + [p])
  {
    var ms' := ms + [p];
    assert objs[p.t] == objs0[p.t];
    forall k | 0 <= k < |ms| ensures ms'[k] == ms[k] && ms[k].t != p.t {
    }
  }

  lemma MatchKeepsUntouched(objs0: seq<Track>, objs: seq<Track>, ms: seq<Pair>, p: Pair, a: Track)
    requires Untouched(objs0, objs, ms)
    requires p.t < |objs|
    ensures Untouched(objs0, objs[p.t := a], ms + [p])
  {
    UsedAfterMatch(ms, p);
    var objs' := objs[p.t := a];
    forall i | 0 <= i < |objs0| && i < |objs'| && i !in UsedTracks(ms + [p])
      ensures objs'[i] == objs0[i]
    {
      assert i != p.t && i !in UsedTracks(ms);
      assert objs'[i] == objs[i];
    }
  }

  lemma {:induction false} RoundKeepsConsistent(c: Limits, objs0: seq<Track>, snap: seq<Point>, dets: seq<Sighting>, st: Matching)
    requires Consistent(c, objs0, snap, dets, st)
    ensures Consistent(c, objs0, snap, dets, Round(c, snap, dets, st))
  {
    match Selected(snap, dets, st)
    case None =>
    case Some(p) =>
      if WithinGate(SqDist(snap[p.t], dets[p.d].center), c.maxDistance) {
        var a := Follow(c, st.objs[p.t], dets[p.d]);
        MatchKeepsPairs(c, snap, dets, st.matches, p);
        MatchKeepsFollowed(c, objs0, st.objs, dets, st.matches, p);
        MatchKeepsUntouched(objs0, st.objs, st.matches, p, a);
      }
  }

  lemma {:induction false} RoundsKeepConsistent(c: Limits, objs0: seq<Track>, snap: seq<Point>, dets: seq<Sighting>, k: nat, st: Matching)
    requires Consistent(c, objs0, snap, dets, st)
    ensures Consistent(c, objs0, snap, dets, Rounds(c, snap, dets, k, st))
  {
    if k > 0 {
      RoundKeepsConsistent(c, objs0, snap, dets, st);
      RoundsKeepConsistent(c, objs0, snap, dets, k - 1, Round(c, snap, dets, st));
    }
  }

  lemma RoundKeepsGreedy(c: Limits, snap: seq<Point>, dets: seq<Sighting>, st: Matching)
    requires |st.objs| == |snap|
    requires Greedy(snap, SightedCenters(dets), st.matches)
    ensures Greedy(snap, SightedCenters(dets), Round(c, snap, dets, st).matches)
  {
    var r := Round(c, snap, dets, st);
    if r.matches != st.matches {
      GreedyExtends(snap, SightedCenters(dets), st.matches, Selected(snap, dets, st).value);
    }
  }

  lemma {:induction false} RoundsKeepGreedy(c: Limits, snap: seq<Point>, dets: seq<Sighting>, k: nat, st: Matching)
    requires |st.objs| == |snap|
    requires Greedy(snap, SightedCenters(dets), st.matches)
    ensures Greedy(snap, SightedCenters(dets), Rounds(c, snap, dets, k, st).matches)
  {
    if k > 0 {
      RoundKeepsGreedy(c, snap, dets, st);
      RoundsKeepGreedy(c, snap, dets, k - 1, Round(c, snap, dets, st));
    }
  }

  /** No unused pair inside the distance gate is left. */
  ghost predicate NoneLeftInGate(c: Limits, snap: seq<Point>, dets: seq<Sighting>, ms: seq<Pair>) {
    forall a: nat, b: nat | Free(snap, SightedCenters(dets), UsedTracks(ms), UsedDetections(ms), a, b) ::
      !WithinGate(Dist(snap, SightedCenters(dets), a, b), c.maxDistance)
  }

  /** A round that accepts nothing repeats in every later round. */
  lemma {:induction false} StuckRoundIsFinal(c: Limits, snap: seq<Point>, dets: seq<Sighting>, k: nat, st: Matching)
    requires |st.objs| == |snap|
    requires Round(c, snap, dets, st) == st
    ensures Rounds(c, snap, dets, k, st) == st
  {
    if k > 0 {
      StuckRoundIsFinal(c, snap, dets, k - 1, st);
    }
  }

  /** The round starting in `st` accepts nothing: no unused pair is left,
      or the first closest one is outside the distance gate. */
  predicate Refuses(c: Limits, snap: seq<Point>, dets: seq<Sighting>, st: Matching) {
    match Selected(snap, dets, st)
    case None => true
    case Some(p) => p.t < |snap| && p.d < |dets| && !WithinGate(SqDist(snap[p.t], dets[p.d].center), c.maxDistance)
  }

  /** A refusing round has found every unused pair outside the gate. */
  lemma RefusalLeavesNone(c: Limits, snap: seq<Point>, dets: seq<Sighting>, st: Matching)
    requires Refuses(c, snap, dets, st)
    ensures NoneLeftInGate(c, snap, dets, st.matches)
  {
    match Selected(snap, dets, st)
    case None =>
    case Some(p) =>
      ClosestOutsideGateMeansAllOutside(snap, SightedCenters(dets), UsedTracks(st.matches), UsedDetections(st.matches), p, c.maxDistance);
  }

  /** A round either refuses and changes nothing, or accepts exactly one
      pair. */
  lemma RoundRefusesOrGrows(c: Limits, snap: seq<Point>, dets: seq<Sighting>, st: Matching)
    requires |st.objs| == |snap|
    ensures Refuses(c, snap, dets, st) ==> Round(c, snap, dets, st) == st
    ensures !Refuses(c, snap, dets, st) ==> |Round(c, snap, dets, st).matches| == |st.matches| + 1
  {
  }

  lemma RoundsStep(c: Limits, snap: seq<Point>, dets: seq<Sighting>, k: nat, st: Matching)
    requires |st.objs| == |snap| && k > 0
    ensures Rounds(c, snap, dets, k, st) == Rounds(c, snap, dets, k - 1, Round(c, snap, dets, st))
  {
  }

  /** Each of `k` rounds either accepts a pair or refuses, after which every
      later round refuses too. */
  lemma RoundsReachFixpoint(c: Limits, snap: seq<Point>, dets: seq<Sighting>, k: nat, st: Matching)
    requires |st.objs| == |snap|
    ensures var r := Rounds(c, snap, dets, k, st);
      |r.matches| == |st.matches| + k || Refuses(c, snap, dets, r)
    decreases k
  {
    if k > 0 {
      RoundRefusesOrGrows(c, snap, dets, st);
      if Refuses(c, snap, dets, st) {
        StuckRoundIsFinal(c, snap, dets, k, st);
      } else {
        RoundsReachFixpoint(c, snap, dets, k - 1, Round(c, snap, dets, st));
        RoundsStep(c, snap, dets, k, st);
      }
    }
  }

  /** Each of `k` rounds either accepts a pair or finds every unused pair
      outside the gate. */
  lemma RoundsSettle(c: Limits, snap: seq<Point>, dets: seq<Sighting>, k: nat, st: Matching)
    requires |st.objs| == |snap|
    ensures var r := Rounds(c, snap, dets, k, st);
      |r.matches| == |st.matches| + k || NoneLeftInGate(c, snap, dets, r.matches)
  {
    RoundsReachFixpoint(c, snap, dets, k, st);
    var r := Rounds(c, snap, dets, k, st);
    if |r.matches| != |st.matches| + k {
      RefusalLeavesNone(c, snap, dets, r);
    }
  }

  /** The association loop of one `update`, from the table as it stood. */
  function Associate(c: Limits, objs: seq<Track>, dets: seq<Sighting>): (a: Matching)
    ensures |a.objs| == |objs|
  {
    Rounds(c, Centers(objs), dets, Min(|objs|, |dets|), Matching(objs, []))
  }

  /** `update` on one frame's detections. */
  function Update(c: Limits, t: Counter, dets: seq<Sighting>): (r: Counter)
    ensures r.nextId >= t.nextId
  {
    if |dets| == 0 then
      Counter(AgeUnmatched(c, t.objects, {}), t.nextId)
    else if |t.objects| == 0 then
      RegisterAll(c, t, dets)
    else
      var a := Associate(c, t.objects, dets);
      RegisterAll(c, Counter(AgeUnmatched(c, a.objs, UsedTracks(a.matches)), t.nextId),
                  Unclaimed(dets, UsedDetections(a.matches)))
  }

  /** The association loop pairs tracks and detections one-to-one, only
      inside the distance gate, each pair being the first closest among
      those still unused when it was taken; it stops only when no unused
      pair inside the gate is left. Matched tracks followed their detection
      and the others are untouched. */
  lemma AssociationIsGreedyAndMaximal(c: Limits, objs: seq<Track>, dets: seq<Sighting>)
    ensures var a := Associate(c, objs, dets);
      Consistent(c, objs, Centers(objs), dets, a) &&
      Greedy(Centers(objs), SightedCenters(dets), a.matches) &&
      NoneLeftInGate(c, Centers(objs), dets, a.matches)
  {
    var snap := Centers(objs);
    var st0 := Matching(objs, []);
    var k := Min(|objs|, |dets|);
    RoundsKeepConsistent(c, objs, snap, dets, k, st0);
    RoundsKeepGreedy(c, snap, dets, k, st0);
    RoundsSettle(c, snap, dets, k, st0);
    var a := Associate(c, objs, dets);
    if |a.matches| == k {
      ExhaustedLeavesNoFreePair(snap, SightedCenters(dets), a.matches);
    }
  }

  lemma AgedTracksStayWellFormed(c: Limits, objs: seq<Track>, used: set<nat>, nextId: nat)
    requires forall i | 0 <= i < |objs| :: objs[i].id < nextId && WellFormed(c, objs[i])
    ensures forall x | x in AgeUnmatched(c, objs, used) :: x.id < nextId && WellFormed(c, x)
  {
    forall x | x in AgeUnmatched(c, objs, used) ensures x.id < nextId && WellFormed(c, x) {
      var i :| 0 <= i < |objs| && Kept(c, objs[i], i in used) && x == AfterAgeing(objs[i], i in used);
      AgeingKeepsWellFormed(c, objs[i], i in used);
    }
  }

  lemma AgeingKeepsWellFormed(c: Limits, tr: Track, matched: bool)
    requires WellFormed(c, tr)
    ensures WellFormed(c, AfterAgeing(tr, matched)) && AfterAgeing(tr, matched).id == tr.id
  {
    var r := AfterAgeing(tr, matched);
    assert r.positions == tr.positions && r.center == tr.center;
    assert r.className == tr.className && r.category == tr.category;
  }

  /** Ageing keeps the table valid. */
  lemma AgeingKeepsValid(c: Limits, objs: seq<Track>, used: set<nat>, nextId: nat)
    requires Valid(c, Counter(objs, nextId))
    ensures Valid(c, Counter(AgeUnmatched(c, objs, used), nextId))
  {
    AgeUnmatchedKeepsOrder(c, objs, used);
    AgedTracksStayWellFormed(c, objs, used, nextId);
    var r := AgeUnmatched(c, objs, used);
    assert forall k | 0 <= k < |r| :: r[k] in r;
  }

  /** The association loop keeps ids, order and well-formedness. */
  lemma AssociateKeepsValid(c: Limits, t: Counter, dets: seq<Sighting>)
    requires Valid(c, t)
    ensures Valid(c, Counter(Associate(c, t.objects, dets).objs, t.nextId))
  {
    AssociationIsGreedyAndMaximal(c, t.objects, dets);
    var a := Associate(c, t.objects, dets);
    forall i | 0 <= i < |a.objs| ensures a.objs[i].id == t.objects[i].id && WellFormed(c, a.objs[i]) {
      if i in UsedTracks(a.matches) {
        var k :| 0 <= k < |a.matches| && a.matches[k].t == i;
      }
    }
  }

  /** `update` keeps the table invariant. */
  lemma UpdateKeepsValid(c: Limits, t: Counter, dets: seq<Sighting>)
    requires Valid(c, t)
    ensures Valid(c, Update(c, t, dets))
  {
    if |dets| == 0 {
      AgeingKeepsValid(c, t.objects, {}, t.nextId);
    } else if |t.objects| == 0 {
      RegisterAllKeepsValid(c, t, dets);
    } else {
      var a := Associate(c, t.objects, dets);
      AssociateKeepsValid(c, t, dets);
      AgeingKeepsValid(c, a.objs, UsedTracks(a.matches), t.nextId);
      RegisterAllKeepsValid(c, Counter(AgeUnmatched(c, a.objs, UsedTracks(a.matches)), t.nextId),
                            Unclaimed(dets, UsedDetections(a.matches)));
    }
  }

  /** With no detections, every track ages and exactly those whose absence
      count now exceeds `maxDisappeared` are removed; nothing else changes. */
  lemma EmptyFrameOnlyAges(c: Limits, t: Counter)
    ensures var r := Update(c, t, []);
      r.nextId == t.nextId &&
      (forall i | 0 <= i < |t.objects| && t.objects[i].disappeared + 1 <= c.maxDisappeared ::
        Absent(t.objects[i]) in r.objects) &&
      (forall x | x in r.objects :: exists i | 0 <= i < |t.objects| ::
        t.objects[i].disappeared + 1 <= c.maxDisappeared && x == Absent(t.objects[i]))
  {
  }

  /** On an empty table every detection becomes a track, in detection order,
      under consecutive new ids. */
  lemma FirstFrameRegistersEvery(c: Limits, t: Counter, dets: seq<Sighting>)
    requires |t.objects| == 0 && |dets| > 0
    ensures var r := Update(c, t, dets);
      r.nextId == t.nextId + |dets| && |r.objects| == |dets| &&
      forall k | 0 <= k < |dets| :: r.objects[k] == NewTrack(c, t.nextId + k, dets[k])
  {
    assert Update(c, t, dets) == RegisterAll(c, t, dets);
    assert t.objects + NewTracks(c, t.nextId, dets) == NewTracks(c, t.nextId, dets);
  }

  /** Every detection left unmatched becomes a new track: the ids issued by
      `update` are exactly as many as the detections minus the matches. */
  lemma UnmatchedDetectionsAllRegistered(c: Limits, t: Counter, dets: seq<Sighting>)
    requires |t.objects| > 0 && |dets| > 0
    ensures var a := Associate(c, t.objects, dets);
      Update(c, t, dets).nextId == t.nextId + |dets| - |a.matches|
  {
    AssociationIsGreedyAndMaximal(c, t.objects, dets);
    var a := Associate(c, t.objects, dets);
    UsedCount(a.matches);
    var used := UsedDetections(a.matches);
    assert UsedBelow(used, |dets|) == used;
  }

  /** The association loop changes neither ids nor `counted` flags. */
  lemma AssociateKeepsIdsAndFlags(c: Limits, objs: seq<Track>, dets: seq<Sighting>)
    ensures var a := Associate(c, objs, dets);
      forall i | 0 <= i < |a.objs| :: a.objs[i].id == objs[i].id && a.objs[i].counted == objs[i].counted
  {
    AssociationIsGreedyAndMaximal(c, objs, dets);
    var a := Associate(c, objs, dets);
    forall i | 0 <= i < |a.objs| ensures a.objs[i].id == objs[i].id && a.objs[i].counted == objs[i].counted {
      if i in UsedTracks(a.matches) {
        var k :| 0 <= k < |a.matches| && a.matches[k].t == i;
      }
    }
  }

  /** Registration keeps the existing tracks and adds uncounted ones under
      the ids it issues. */
  lemma RegisteredAreNew(c: Limits, base: Counter, ss: seq<Sighting>)
    ensures var r := RegisterAll(c, base, ss);
      forall x | x in r.objects :: x in base.objects || (base.nextId <= x.id < r.nextId && !x.counted)
  {
    var born := NewTracks(c, base.nextId, ss);
    NewTracksFacts(c, base.nextId, ss);
    var all := base.objects + born;
    forall x | x in all ensures x in base.objects || (base.nextId <= x.id < base.nextId + |ss| && !x.counted) {
      var m :| 0 <= m < |all| && all[m] == x;
      if m < |base.objects| {
        assert x == base.objects[m];
      } else {
        assert x == born[m - |base.objects|];
      }
    }
  }

  /** Every track after `update` either carries the id and the `counted`
      flag of a track that was there before, or is new: its id was issued by
      this call and it is not counted. */
  lemma UpdateKeepsCountedFlags(c: Limits, t: Counter, dets: seq<Sighting>)
    ensures var r := Update(c, t, dets);
      forall x | x in r.objects ::
        (exists i | 0 <= i < |t.objects| :: x.id == t.objects[i].id && x.counted == t.objects[i].counted) ||
        (t.nextId <= x.id < r.nextId && !x.counted)
  {
    if |dets| > 0 {
      if |t.objects| == 0 {
        RegisteredAreNew(c, t, dets);
      } else {
        var a := Associate(c, t.objects, dets);
        AssociateKeepsIdsAndFlags(c, t.objects, dets);
        var base := Counter(AgeUnmatched(c, a.objs, UsedTracks(a.matches)), t.nextId);
        RegisteredAreNew(c, base, Unclaimed(dets, UsedDetections(a.matches)));
        forall x | x in base.objects
          ensures exists i | 0 <= i < |t.objects| :: x.id == t.objects[i].id && x.counted == t.objects[i].counted
        {
          var i :| 0 <= i < |a.objs| && Kept(c, a.objs[i], i in UsedTracks(a.matches)) && x == AfterAgeing(a.objs[i], i in UsedTracks(a.matches));
        }
      }
    }
  }
}

=== FILE: deployments.dfy ===
/** The configurations the robot trackers ship with: the constructor defaults
    and configuration constants of Version2 and Version3, and what they imply
    for how soon a new object can be confirmed. */
module Deployments {
  import opened Geometry
  import opened TrackMetrics
  import opened WasteTables
  import opened RobotTrack

  /** Version2: five sightings, confidence 0.7, a 3 s cooldown, 1.5 s of
      presence, variance at most 50, gate 80 px, 15 missed frames, on the
      recycling table. */
  function Version2Config(stepLength: (Point, Point) -> real): Config {
    Config(V2, 80, 15, 5, 0.7, 3.0, 1.5, 50.0, RecyclingTable, stepLength)
  }

  /** Version3: four sightings, confidence 0.75, a 2 s cooldown, 1 s of
      presence, variance 60 (no longer checked), gate 90 px, 12 missed
      frames, on the robot table. */
  function Version3Config(stepLength: (Point, Point) -> real): Config {
    Config(V3, 90, 12, 4, 0.75, 2.0, 1.0, 60.0, RobotTable, stepLength)
  }

  /** The tracks a sequence of matched sightings leads to, newest last. */
  function Matches(c: Config, tr: Track, sightings: seq<(Observation, real)>): (r: Track)
    ensures Evolves(tr, r)
    ensures r.consecutive == tr.consecutive + |sightings|
    decreases |sightings|
  {
    if |sightings| == 0 then tr
    else
      var next := Accept(c, tr, sightings[0].0, sightings[0].1);
      var r := Matches(c, next, sightings[1..]);
      EvolvesTransitive(tr, next, r);
      r
  }

  /** Confirmation needs the sighting count: an unconfirmed track becomes
      confirmed only once its count reaches the configured minimum. */
  lemma {:induction false} ConfirmedOnlyAfterEnoughSightings(c: Config, tr: Track, sightings: seq<(Observation, real)>)
    requires !tr.confirmed
    ensures Matches(c, tr, sightings).confirmed ==> tr.consecutive + |sightings| >= c.minConsecutive
    decreases |sightings|
  {
    if |sightings| > 0 {
      var next := Accept(c, tr, sightings[0].0, sightings[0].1);
      if next.confirmed {
        assert Qualifies(c, next, sightings[0].1);
      } else {
        ConfirmedOnlyAfterEnoughSightings(c, next, sightings[1..]);
      }
    }
  }

  /** With the shipped settings, a newly registered object is confirmed no
      earlier than on its fifth sighting in Version2 and its fourth in
      Version3, counting the one that registered it. */
  lemma NewObjectsWaitForConfirmation(stepLength: (Point, Point) -> real, id: nat, o: Observation, now: real,
                                      sightings: seq<(Observation, real)>)
    ensures Matches(Version2Config(stepLength), NewTrack(Version2Config(stepLength), id, o, now), sightings).confirmed
      ==> |sightings| >= 4
    ensures Matches(Version3Config(stepLength), NewTrack(Version3Config(stepLength), id, o, now), sightings).confirmed
      ==> |sightings| >= 3
  {
    ConfirmedOnlyAfterEnoughSightings(Version2Config(stepLength), NewTrack(Version2Config(stepLength), id, o, now), sightings);
    ConfirmedOnlyAfterEnoughSightings(Version3Config(stepLength), NewTrack(Version3Config(stepLength), id, o, now), sightings);
  }

  /** A Version3 track never needs a small positional variance: the
      confirmation criteria there ignore it. */
  lemma Version3IgnoresVariance(stepLength: (Point, Point) -> real, tr: Track, v: real, now: real)
    ensures Qualifies(Version3Config(stepLength), tr, now) == Qualifies(Version3Config(stepLength), tr.(positionVariance := v), now)
  {
  }
}

=== FILE: geometry.dfy ===
/** Integer pixel geometry shared by every tracker variant: box centroids,
    squared centroid distances and the association distance gate. */
module Geometry {

  /** A pixel position; every tracker stores centres as integer pairs. */
  datatype Point = Point(x: int, y: int)

  /** A bounding box given by two opposite corners `(x1, y1)` and `(x2, y2)`,
      already converted to integers. */
  datatype Box = Box(x1: int, y1: int, x2: int, y2: int)

  /** Python's `a // 2`: division rounding toward minus infinity. Dafny's `/`
      by a positive divisor is Euclidean, which coincides with the floor. */
  function FloorHalf(a: int): (r: int)
    ensures 2 * r <= a < 2 * r + 2
  {
    a / 2
  }

  /** Python's `int(a / 2)`: true division then truncation toward zero. */
  function TruncHalf(a: int): (r: int)
    ensures a >= 0 ==> 2 * r <= a < 2 * r + 2
    ensures a < 0 ==> 2 * r - 2 < a <= 2 * r
  {
    if a >= 0 then a / 2 else -((-a) / 2)
  }

  /** The floor midpoint of a box, `((x1+x2)//2, (y1+y2)//2)`. */
  function Center(b: Box): Point {
    Point(FloorHalf(b.x1 + b.x2), FloorHalf(b.y1 + b.y2))
  }

  /** The truncating midpoint of a box, `(int((x1+x2)/2), int((y1+y2)/2))`. */
  function CenterTrunc(b: Box): Point {
    Point(TruncHalf(b.x1 + b.x2), TruncHalf(b.y1 + b.y2))
  }

  /** The box with its two corners exchanged. */
  function SwapCorners(b: Box): Box {
    Box(b.x2, b.y2, b.x1, b.y1)
  }

  /** A box whose first corner is its top-left one. */
  predicate Ordered(b: Box) {
    b.x1 <= b.x2 && b.y1 <= b.y2
  }

  predicate Inside(p: Point, b: Box) {
    b.x1 <= p.x <= b.x2 && b.y1 <= p.y <= b.y2
  }

  /** The floor midpoint of an ordered box lies inside the box. */
  lemma CenterInsideBox(b: Box)
    requires Ordered(b)
    ensures Inside(Center(b), b)
  {
  }

  /** The truncating midpoint of an ordered box lies inside the box too. */
  lemma CenterTruncInsideBox(b: Box)
    requires Ordered(b)
    ensures Inside(CenterTrunc(b), b)
  {
  }

  /** Neither midpoint depends on which corner is listed first. */
  lemma CenterSymmetric(b: Box)
    ensures Center(SwapCorners(b)) == Center(b)
    ensures CenterTrunc(SwapCorners(b)) == CenterTrunc(b)
  {
  }

  /** A one-pixel box is its own centre. */
  lemma CenterOfDegenerateBox(b: Box)
    requires b.x1 == b.x2 && b.y1 == b.y2
    ensures Center(b) == Point(b.x1, b.y1)
    ensures CenterTrunc(b) == Point(b.x1, b.y1)
  {
  }

  /** The two midpoint rules agree except on a negative odd coordinate sum,
      where truncation rounds up and the floor rounds down. */
  lemma TruncVersusFloor(a: int)
    ensures (a >= 0 || a % 2 == 0) <==> TruncHalf(a) == FloorHalf(a)
    ensures a < 0 && a % 2 == 1 ==> TruncHalf(a) == FloorHalf(a) + 1
  {
  }

  /** Squared Euclidean distance between two centres. */
  function SqDist(p: Point, q: Point): (d: nat)
    ensures d == 0 <==> p == q
  {
    var dx := p.x - q.x;
    var dy := p.y - q.y;
    assert dx * dx >= 0 && dy * dy >= 0;
    assert dx * dx + dy * dy == 0 ==> dx == 0 && dy == 0 by {
      if dx != 0 { assert dx * dx > 0; }
      if dy != 0 { assert dy * dy > 0; }
    }
    dx * dx + dy * dy
  }

  /** The association gate `distance < max_distance`, stated on the squared
      distance: a non-positive gate admits nothing. */
  predicate WithinGate(d2: nat, maxDistance: int) {
    maxDistance > 0 && d2 < maxDistance * maxDistance
  }

  /** Squaring is strictly monotone on non-negative numbers, so comparing
      squared distances orders pairs exactly as comparing distances does. */
  lemma SquareOrder(d: real, e: real)
    requires 0.0 <= d && 0.0 <= e
    ensures d < e <==> d * d < e * e
  {
    if d < e {
      assert d * (e - d) >= 0.0;
      assert e * (e - d) > 0.0;
      assert d * (e - d) == d * e - d * d;
      assert e * (e - d) == e * e - e * d;
    } else {
      assert e * (d - e) >= 0.0;
      assert d * (d - e) >= 0.0;
      assert e * (d - e) == e * d - e * e;
      assert d * (d - e) == d * d - d * e;
    }
  }

  /** For any Euclidean distance `d` with `d * d` equal to the squared
      distance, the gate on squared distances agrees with `d < maxDistance`. */
  lemma GateMatchesDistance(d: real, d2: nat, maxDistance: int)
    requires 0.0 <= d && d * d == d2 as real
    ensures WithinGate(d2, maxDistance) <==> d < maxDistance as real
  {
    if maxDistance > 0 {
      SquareOrder(d, maxDistance as real);
      assert (maxDistance * maxDistance) as real == maxDistance as real * maxDistance as real;
    }
  }

  /** The detection container of the detector boundary: its centre is always
      the floor midpoint of its box. */
  datatype Detection = Detection(xyxy: Box, clsId: int, conf: real, className: string, category: string) {
    function CenterPoint(): Point {
      Center(xyxy)
    }
  }
}

=== FILE: laptop_counter.dfy ===
/** The inline tracker of the laptop camera script
    (`Version1/camaraLaptop.py`). Its `update` is the one of the
    line-crossing counter; its crossing check differs: a track already
    counted is skipped, and the flag is never cleared, so each object is
    credited at most once in its lifetime. */
module LaptopCounter {
  import opened Geometry
  import opened CountingTracker
  import opened LineCrossing

  /** The scan for the first rightward step from `i` on. */
  function FindRightward(ps: seq<Point>, lineX: int, i: nat): (r: bool)
    ensures r <==> RightwardFrom(ps, lineX, i)
    decreases |ps| - i
  {
    if i + 1 >= |ps| then false
    else if Rightward(ps, i, lineX) then true
    else
      var r := FindRightward(ps, lineX, i + 1);
      assert RightwardFrom(ps, lineX, i) ==> RightwardFrom(ps, lineX, i + 1) by {
        if RightwardFrom(ps, lineX, i) {
          var j: nat :| i <= j && j + 1 < |ps| && Rightward(ps, j, lineX);
          assert j != i;
        }
      }
      r
  }

  /** One track's part of the laptop's `check_line_crossing`: an uncounted
      track with a rightward step is credited and becomes counted; nothing
      else changes. */
  function CrossOnce(tr: Track, lineX: int): (r: (Track, bool))
    ensures r.1 <==> !tr.counted && RightwardFrom(tr.positions, lineX, 0)
    ensures r.0 == tr.(counted := tr.counted || r.1)
  {
    if tr.counted then (tr, false)
    else if |tr.positions| < 2 then (tr, false)
    else if FindRightward(tr.positions, lineX, 0) then (tr.(counted := true), true)
    else (tr, false)
  }

  /** On a track not yet counted the two crossing checks agree; they differ
      only in what they do with a counted one. */
  lemma CrossOnceAgreesOnUncounted(tr: Track, lineX: int)
    requires !tr.counted
    ensures CrossOnce(tr, lineX) == CrossTrack(tr, lineX)
  {
    CrossTrackCredits(tr, lineX);
    if |tr.positions| >= 2 {
      RescanUncounted(tr.positions, lineX, 0);
    }
  }

  /** A counted track is left alone by the laptop check, while the rescanning
      check clears it on a leftward step that no rightward step follows. */
  lemma ChecksDifferOnCounted(tr: Track, lineX: int)
    requires tr.counted && LeftwardFrom(tr.positions, lineX, 0) && !BackAndForthFrom(tr.positions, lineX, 0)
    ensures CrossOnce(tr, lineX) == (tr, false)
    ensures !CrossTrack(tr, lineX).0.counted
  {
    RescanCounted(tr.positions, lineX, 0);
  }

  function OnceStep(lineX: int): Step {
    tr => CrossOnce(tr, lineX)
  }

  /** `check_line_crossing` of the laptop script at the line `x = lineX`. */
  function CheckOnce(t: Counter, lineX: int): (r: (map<string, nat>, Counter))
    ensures r.1.nextId == t.nextId && |r.1.objects| == |t.objects|
    ensures forall i | 0 <= i < |t.objects| ::
      r.1.objects[i] == t.objects[i].(counted := t.objects[i].counted || CrossOnce(t.objects[i], lineX).1)
  {
    CheckWith(t, OnceStep(lineX))
  }

  /** The ids of the tracks one check credits, in order. */
  function CreditedIds(t: Counter, lineX: int): (r: seq<nat>)
    ensures |r| <= |t.objects|
  {
    var cr := Crossed(t.objects, OnceStep(lineX)).0;
    seq(|cr|, k requires 0 <= k < |cr| => cr[k].id)
  }

  /** Some track of the table carries the id and is credited by the check. */
  predicate CreditedAt(objs: seq<Track>, lineX: int, id: nat) {
    exists i | 0 <= i < |objs| :: id == objs[i].id && CrossOnce(objs[i], lineX).1
  }

  /** Each credited id is the id of a track the check credited, and they come
      out in ascending order. */
  lemma CreditedIdsFacts(t: Counter, lineX: int)
    requires IdsAscending(t.objects)
    ensures Ascending(CreditedIds(t, lineX))
    ensures forall k | 0 <= k < |CreditedIds(t, lineX)| :: CreditedAt(t.objects, lineX, CreditedIds(t, lineX)[k])
  {
    var cr := Crossed(t.objects, OnceStep(lineX)).0;
    CrossedInOrder(t.objects, OnceStep(lineX));
    var ids := CreditedIds(t, lineX);
    forall k | 0 <= k < |ids| ensures CreditedAt(t.objects, lineX, ids[k]) {
      assert cr[k] in cr;
      var i :| 0 <= i < |t.objects| && cr[k] == t.objects[i] && OnceStep(lineX)(t.objects[i]).1;
      assert OnceStep(lineX)(t.objects[i]) == CrossOnce(t.objects[i], lineX);
      assert ids[k] == t.objects[i].id;
    }
  }

  predicate Ascending(ids: seq<nat>) {
    forall i, j | 0 <= i < j < |ids| :: ids[i] < ids[j]
  }

  /** The credited tracks come out in table order. */
  lemma {:induction false} CrossedInOrder(objs: seq<Track>, step: Step)
    requires IdsAscending(objs)
    ensures IdsAscending(Crossed(objs, step).0)
  {
    if |objs| > 0 {
      var n := |objs| - 1;
      CrossedInOrder(objs[..n], step);
      var rest := Crossed(objs[..n], step).0;
      forall x | x in rest ensures x.id < objs[n].id {
        var i :| 0 <= i < n && x == objs[..n][i] && step(objs[..n][i]).1;
        assert objs[..n][i] == objs[i];
      }
      if step(objs[n]).1 {
        var r := rest + [objs[n]];
        forall i, j | 0 <= i < j < |r| ensures r[i].id < r[j].id {
          if j < |rest| {
            assert r[i] == rest[i] && r[j] == rest[j];
          } else {
            assert r[i] == rest[i] && rest[i] in rest;
          }
        }
      }
    }
  }

  /** The calls the laptop script makes on its tracker. */
  datatype Call = Frame(dets: seq<Sighting>) | Check(lineX: int)

  /** The tracker after the calls, and the ids credited, in order. */
  function Run(c: Limits, t: Counter, calls: seq<Call>): (r: (Counter, seq<nat>))
    decreases |calls|
  {
    if |calls| == 0 then (t, [])
    else match calls[0]
      case Frame(dets) => Run(c, Update(c, t, dets), calls[1..])
      case Check(lineX) =>
        var rest := Run(c, CheckOnce(t, lineX).1, calls[1..]);
        (rest.0, CreditedIds(t, lineX) + rest.1)
  }

  predicate DistinctIds(ids: seq<nat>) {
    forall i, j | 0 <= i < j < |ids| :: ids[i] != ids[j]
  }

  /** Every credited id was issued. */
  predicate Issued(t: Counter, credited: set<nat>) {
    forall id | id in credited :: id < t.nextId
  }

  /** A track carrying a credited id is counted. */
  predicate CountedIfCredited(t: Counter, credited: set<nat>) {
    forall i | 0 <= i < |t.objects| && t.objects[i].id in credited :: t.objects[i].counted
  }

  /** Between calls: the table is valid, every credited id was issued, and a
      track still carrying one is counted. */
  ghost predicate CreditedCounted(c: Limits, t: Counter, credited: set<nat>) {
    Valid(c, t) && Issued(t, credited) && CountedIfCredited(t, credited)
  }

  lemma FrameKeepsCounted(c: Limits, t: Counter, dets: seq<Sighting>, credited: set<nat>)
    requires Issued(t, credited) && CountedIfCredited(t, credited)
    ensures CountedIfCredited(Update(c, t, dets), credited)
  {
    var r := Update(c, t, dets);
    UpdateKeepsCountedFlags(c, t, dets);
    forall k | 0 <= k < |r.objects| && r.objects[k].id in credited ensures r.objects[k].counted {
      var x := r.objects[k];
      assert x in r.objects;
      if !(t.nextId <= x.id < r.nextId && !x.counted) {
        var i :| 0 <= i < |t.objects| && x.id == t.objects[i].id && x.counted == t.objects[i].counted;
      }
    }
  }

  lemma FrameKeepsCredited(c: Limits, t: Counter, dets: seq<Sighting>, credited: set<nat>)
    requires CreditedCounted(c, t, credited)
    ensures CreditedCounted(c, Update(c, t, dets), credited)
  {
    UpdateKeepsValid(c, t, dets);
    FrameKeepsCounted(c, t, dets, credited);
  }

  function IdSet(ids: seq<nat>): set<nat> {
    set k | 0 <= k < |ids| :: ids[k]
  }

  /** A check credits only tracks not credited before, each once. */
  lemma CheckCreditsNewIds(t: Counter, lineX: int, credited: set<nat>)
    requires IdsAscending(t.objects) && CountedIfCredited(t, credited)
    ensures var ids := CreditedIds(t, lineX);
      DistinctIds(ids) && forall k | 0 <= k < |ids| :: ids[k] !in credited
  {
    var ids := CreditedIds(t, lineX);
    CreditedIdsFacts(t, lineX);
    forall k | 0 <= k < |ids| ensures ids[k] !in credited {
      var i :| 0 <= i < |t.objects| && ids[k] == t.objects[i].id && CrossOnce(t.objects[i], lineX).1;
    }
  }

  /** Ids are unique in the table, so a credited id names a track the check
      credited. */
  lemma CreditedIdWasCredited(t: Counter, lineX: int, i: nat)
    requires IdsAscending(t.objects) && i < |t.objects|
    requires t.objects[i].id in IdSet(CreditedIds(t, lineX))
    ensures CrossOnce(t.objects[i], lineX).1
  {
    var ids := CreditedIds(t, lineX);
    CreditedIdsFacts(t, lineX);
    var k :| 0 <= k < |ids| && ids[k] == t.objects[i].id;
    assert CreditedAt(t.objects, lineX, ids[k]);
    var j :| 0 <= j < |t.objects| && ids[k] == t.objects[j].id && CrossOnce(t.objects[j], lineX).1;
    assert t.objects[j].id == t.objects[i].id;
  }

  /** A check marks every track it credits counted. */
  lemma CheckKeepsCounted(t: Counter, lineX: int, credited: set<nat>)
    requires IdsAscending(t.objects) && CountedIfCredited(t, credited)
    ensures CountedIfCredited(CheckOnce(t, lineX).1, credited + IdSet(CreditedIds(t, lineX)))
  {
    var ids := CreditedIds(t, lineX);
    var t1 := CheckOnce(t, lineX).1;
    forall i | 0 <= i < |t1.objects| && t1.objects[i].id in credited + IdSet(ids) ensures t1.objects[i].counted {
      if t.objects[i].id !in credited {
        CreditedIdWasCredited(t, lineX, i);
      }
    }
  }

  /** A check credits only ids already issued. */
  lemma CheckKeepsIssued(c: Limits, t: Counter, lineX: int, credited: set<nat>)
    requires Valid(c, t) && Issued(t, credited)
    ensures Issued(CheckOnce(t, lineX).1, credited + IdSet(CreditedIds(t, lineX)))
  {
    var ids := CreditedIds(t, lineX);
    CreditedIdsFacts(t, lineX);
    forall id | id in IdSet(ids) ensures id < t.nextId {
      var k :| 0 <= k < |ids| && ids[k] == id;
      var i :| 0 <= i < |t.objects| && ids[k] == t.objects[i].id && CrossOnce(t.objects[i], lineX).1;
    }
  }

  /** Crossing checks keep the table invariant. */
  lemma CheckOnceKeepsValid(c: Limits, t: Counter, lineX: int)
    requires Valid(c, t)
    ensures Valid(c, CheckOnce(t, lineX).1)
  {
  }

  /** After a check every credited track is counted. */
  lemma CheckKeepsCredited(c: Limits, t: Counter, lineX: int, credited: set<nat>)
    requires CreditedCounted(c, t, credited)
    ensures CreditedCounted(c, CheckOnce(t, lineX).1, credited + IdSet(CreditedIds(t, lineX)))
  {
    CheckOnceKeepsValid(c, t, lineX);
    CheckKeepsIssued(c, t, lineX, credited);
    CheckKeepsCounted(t, lineX, credited);
  }

  lemma ConcatKeepsDistinct(ids: seq<nat>, rest: seq<nat>, credited: set<nat>)
    requires DistinctIds(ids) && DistinctIds(rest)
    requires forall k | 0 <= k < |ids| :: ids[k] !in credited
    requires forall k | 0 <= k < |rest| :: rest[k] !in credited + IdSet(ids)
    ensures DistinctIds(ids + rest)
    ensures forall k | 0 <= k < |ids + rest| :: (ids + rest)[k] !in credited
  {
    var all := ids + rest;
    forall i, j | 0 <= i < j < |all| ensures all[i] != all[j] {
      if j < |ids| {
        assert all[i] == ids[i] && all[j] == ids[j];
      } else if i < |ids| {
        assert all[i] == ids[i] && all[j] == rest[j - |ids|];
        assert ids[i] in IdSet(ids);
      } else {
        assert all[i] == rest[i - |ids|] && all[j] == rest[j - |ids|];
      }
    }
    forall k | 0 <= k < |all| ensures all[k] !in credited {
      if k >= |ids| {
        assert all[k] == rest[k - |ids|];
      }
    }
  }

  lemma {:induction false} RunCreditsNewIds(c: Limits, t: Counter, calls: seq<Call>, credited: set<nat>)
    requires CreditedCounted(c, t, credited)
    ensures DistinctIds(Run(c, t, calls).1)
    ensures forall k | 0 <= k < |Run(c, t, calls).1| :: Run(c, t, calls).1[k] !in credited
    decreases |calls|
  {
    if |calls| > 0 {
      match calls[0]
      case Frame(dets) =>
        FrameKeepsCredited(c, t, dets, credited);
        RunCreditsNewIds(c, Update(c, t, dets), calls[1..], credited);
      case Check(lineX) =>
        var ids := CreditedIds(t, lineX);
        var t1 := CheckOnce(t, lineX).1;
        CheckCreditsNewIds(t, lineX, credited);
        CheckKeepsCredited(c, t, lineX, credited);
        RunCreditsNewIds(c, t1, calls[1..], credited + IdSet(ids));
        var rest := Run(c, t1, calls[1..]).1;
        assert Run(c, t, calls).1 == ids + rest;
        ConcatKeepsDistinct(ids, rest, credited);
    }
  }

  /** From a new tracker, whatever the frames and line positions, no object
      is ever credited twice. */
  lemma EachObjectCountedAtMostOnce(c: Limits, calls: seq<Call>)
    ensures DistinctIds(Run(c, Empty, calls).1)
  {
    RunCreditsNewIds(c, Empty, calls, {});
  }
}

=== FILE: line_crossing.dfy ===
/** `check_line_crossing` of `Version1/tracker.py`: every track rescans its
    whole stored position window. A step from the right of the vertical
    line back to its left clears the track's `counted` flag; a step from its
    left to on or past it credits an uncounted track once and ends that
    track's scan. The credits are tallied per category. */
module LineCrossing {
  import opened Geometry
  import opened CountingTracker

  /** Stored step `i` goes from the left of the line to on or past it. */
  predicate Rightward(ps: seq<Point>, i: nat, lineX: int)
    requires i + 1 < |ps|
  {
    ps[i].x < lineX <= ps[i + 1].x
  }

  /** Stored step `i` goes from on or past the line back to its left. */
  predicate Leftward(ps: seq<Point>, i: nat, lineX: int)
    requires i + 1 < |ps|
  {
    ps[i].x >= lineX > ps[i + 1].x
  }

  /** Some step from `i` on is rightward. */
  predicate RightwardFrom(ps: seq<Point>, lineX: int, i: nat) {
    exists j: nat | i <= j && j + 1 < |ps| :: Rightward(ps, j, lineX)
  }

  /** Some step from `i` on is leftward. */
  predicate LeftwardFrom(ps: seq<Point>, lineX: int, i: nat) {
    exists j: nat | i <= j && j + 1 < |ps| :: Leftward(ps, j, lineX)
  }

  /** Some leftward step from `i` on is followed by a rightward one. */
  predicate BackAndForthFrom(ps: seq<Point>, lineX: int, i: nat) {
    exists a: nat, b: nat | i <= a < b && b + 1 < |ps| :: Leftward(ps, a, lineX) && Rightward(ps, b, lineX)
  }

  /** The scan of the steps from `i` on, starting with flag `counted`: the
      flag afterwards, and whether the track was credited. */
  function Rescan(ps: seq<Point>, lineX: int, i: nat, counted: bool): (r: (bool, bool))
    ensures r.1 ==> r.0
    decreases |ps| - i
  {
    if i + 1 >= |ps| then (counted, false)
    else
      var cleared := if counted && Leftward(ps, i, lineX) then false else counted;
      if !cleared && Rightward(ps, i, lineX) then (true, true)
      else Rescan(ps, lineX, i + 1, cleared)
  }

  /** From an uncounted state the scan credits exactly when some remaining
      step is rightward, and the flag ends up set exactly when it credits. */
  lemma {:induction false} RescanUncounted(ps: seq<Point>, lineX: int, i: nat)
    ensures Rescan(ps, lineX, i, false).1 <==> RightwardFrom(ps, lineX, i)
    ensures Rescan(ps, lineX, i, false).0 == Rescan(ps, lineX, i, false).1
    decreases |ps| - i
  {
    if i + 1 < |ps| {
      RescanUncounted(ps, lineX, i + 1);
      if !Rightward(ps, i, lineX) {
        assert RightwardFrom(ps, lineX, i) ==> RightwardFrom(ps, lineX, i + 1) by {
          if RightwardFrom(ps, lineX, i) {
            var j: nat :| i <= j && j + 1 < |ps| && Rightward(ps, j, lineX);
            assert j != i;
          }
        }
      } else {
        assert Rightward(ps, i, lineX);
      }
    }
  }

  /** From a counted state the scan credits exactly when a remaining
      leftward step is later followed by a rightward one; without a credit
      the flag stays set exactly when no remaining step is leftward. */
  lemma {:induction false} RescanCounted(ps: seq<Point>, lineX: int, i: nat)
    ensures Rescan(ps, lineX, i, true).1 <==> BackAndForthFrom(ps, lineX, i)
    ensures !Rescan(ps, lineX, i, true).1 ==> (Rescan(ps, lineX, i, true).0 <==> !LeftwardFrom(ps, lineX, i))
    decreases |ps| - i
  {
    if i + 1 < |ps| {
      if Leftward(ps, i, lineX) {
        assert !Rightward(ps, i, lineX);
        RescanUncounted(ps, lineX, i + 1);
        assert LeftwardFrom(ps, lineX, i);
        assert RightwardFrom(ps, lineX, i + 1) <==> BackAndForthFrom(ps, lineX, i) by {
          if RightwardFrom(ps, lineX, i + 1) {
            var j: nat :| i + 1 <= j && j + 1 < |ps| && Rightward(ps, j, lineX);
            assert Leftward(ps, i, lineX) && Rightward(ps, j, lineX);
          }
          if BackAndForthFrom(ps, lineX, i) {
            var a: nat, b: nat :| i <= a < b && b + 1 < |ps| && Leftward(ps, a, lineX) && Rightward(ps, b, lineX);
            assert i + 1 <= b;
          }
        }
      } else {
        RescanCounted(ps, lineX, i + 1);
        assert BackAndForthFrom(ps, lineX, i) <==> BackAndForthFrom(ps, lineX, i + 1) by {
          if BackAndForthFrom(ps, lineX, i) {
            var a: nat, b: nat :| i <= a < b && b + 1 < |ps| && Leftward(ps, a, lineX) && Rightward(ps, b, lineX);
            assert a != i;
          }
          if BackAndForthFrom(ps, lineX, i + 1) {
            var a: nat, b: nat :| i + 1 <= a < b && b + 1 < |ps| && Leftward(ps, a, lineX) && Rightward(ps, b, lineX);
          }
        }
        assert LeftwardFrom(ps, lineX, i) <==> LeftwardFrom(ps, lineX, i + 1) by {
          if LeftwardFrom(ps, lineX, i) {
            var j: nat :| i <= j && j + 1 < |ps| && Leftward(ps, j, lineX);
            assert j != i;
          }
        }
      }
    }
  }

  /** One track's part of `check_line_crossing`: the track with its new
      flag, and whether it was credited. A track with fewer than two stored
      positions is skipped. */
  function CrossTrack(tr: Track, lineX: int): (r: (Track, bool))
    ensures r.0 == tr.(counted := r.0.counted)
    ensures r.1 ==> r.0.counted
    ensures |tr.positions| < 2 ==> r == (tr, false)
  {
    if |tr.positions| < 2 then (tr, false)
    else
      var s := Rescan(tr.positions, lineX, 0, tr.counted);
      (tr.(counted := s.0), s.1)
  }

  /** A track is credited exactly when it has a rightward step and is not
      counted, or is counted but has a leftward step followed later by a
      rightward one. */
  lemma CrossTrackCredits(tr: Track, lineX: int)
    ensures CrossTrack(tr, lineX).1 <==>
      if tr.counted then BackAndForthFrom(tr.positions, lineX, 0)
      else RightwardFrom(tr.positions, lineX, 0)
  {
    if tr.counted {
      RescanCounted(tr.positions, lineX, 0);
    } else {
      RescanUncounted(tr.positions, lineX, 0);
    }
  }

  /** The window is rescanned in full on every call, so a track whose stored
      steps cross rightward and later leftward, with no rightward step after
      a leftward one, is credited on one call, cleared without credit on the
      next, and is then back where it started: called repeatedly with the
      same window it is credited on every other call. */
  lemma RescanAlternates(tr: Track, lineX: int)
    requires !tr.counted
    requires RightwardFrom(tr.positions, lineX, 0) && LeftwardFrom(tr.positions, lineX, 0)
    requires !BackAndForthFrom(tr.positions, lineX, 0)
    ensures var first := CrossTrack(tr, lineX);
      var second := CrossTrack(first.0, lineX);
      first.1 && !second.1 && second.0 == tr
  {
    var ps := tr.positions;
    RescanUncounted(ps, lineX, 0);
    var first := CrossTrack(tr, lineX);
    assert first.0.positions == ps && first.0.counted;
    RescanCounted(ps, lineX, 0);
  }

  /** `crossings[cat] = crossings.get(cat, 0) + 1` over the credited
      categories in order. */
  function Tally(cats: seq<string>): (m: map<string, nat>)
    ensures forall k :: k in m <==> k in cats
    ensures forall k | k in m :: m[k] == multiset(cats)[k]
  {
    if |cats| == 0 then map[]
    else
      var n := |cats| - 1;
      var m := Tally(cats[..n]);
      assert cats == cats[..n] + [cats[n]];
      m[cats[n] := (if cats[n] in m then m[cats[n]] else 0) + 1]
  }

  /** One track's part of a crossing check: the track with its new flag,
      and whether it was credited. */
  type Step = Track -> (Track, bool)

  /** The crossing step of this module at the line `x = lineX`. */
  function RescanStep(lineX: int): Step {
    tr => CrossTrack(tr, lineX)
  }

  /** The loop of a crossing check over the tracks in id order: the credited
      tracks, in order, and every track with its new flag. */
  function Crossed(objs: seq<Track>, step: Step): (r: (seq<Track>, seq<Track>))
    ensures |r.1| == |objs| && |r.0| <= |objs|
    ensures forall i | 0 <= i < |objs| :: r.1[i] == step(objs[i]).0
    ensures forall x | x in r.0 :: exists i | 0 <= i < |objs| :: x == objs[i] && step(objs[i]).1
  {
    if |objs| == 0 then ([], [])
    else
      var n := |objs| - 1;
      var rest := Crossed(objs[..n], step);
      var x := step(objs[n]);
      (if x.1 then rest.0 + [objs[n]] else rest.0, rest.1 + [x.0])
  }

  function CategoriesOf(ts: seq<Track>): (r: seq<string>)
    ensures |r| == |ts| && forall k | 0 <= k < |ts| :: r[k] == ts[k].category
  {
    seq(|ts|, k requires 0 <= k < |ts| => ts[k].category)
  }

  /** The indices of the tracks credited under category `cat`. */
  ghost function CreditedIn(objs: seq<Track>, step: Step, cat: string): set<nat> {
    set i: nat | i < |objs| && step(objs[i]).1 && objs[i].category == cat
  }

  lemma CreditedInStep(objs: seq<Track>, step: Step, cat: string)
    requires |objs| > 0
    ensures var n := |objs| - 1;
      CreditedIn(objs, step, cat) ==
        CreditedIn(objs[..n], step, cat) + (if step(objs[n]).1 && objs[n].category == cat then {n} else {})
  {
    var n := |objs| - 1;
    assert forall i: nat | i < n :: objs[..n][i] == objs[i];
  }

  /** Each credited track adds one to its category: the credited categories
      hold `cat` once per track credited under it. */
  lemma {:induction false} CrossedCountsPerCategory(objs: seq<Track>, step: Step, cat: string)
    ensures multiset(CategoriesOf(Crossed(objs, step).0))[cat] == |CreditedIn(objs, step, cat)|
  {
    if |objs| == 0 {
      assert CreditedIn(objs, step, cat) == {};
    } else {
      var n := |objs| - 1;
      CrossedCountsPerCategory(objs[..n], step, cat);
      CreditedInStep(objs, step, cat);
      assert n !in CreditedIn(objs[..n], step, cat);
      var rest := Crossed(objs[..n], step).0;
      if step(objs[n]).1 {
        assert CategoriesOf(rest + [objs[n]]) == CategoriesOf(rest) + [objs[n].category];
      }
    }
  }

  /** A crossing check: the per-category counts of the credited tracks and
      the table with the new flags. */
  function CheckWith(t: Counter, step: Step): (r: (map<string, nat>, Counter))
    ensures r.1.nextId == t.nextId && |r.1.objects| == |t.objects|
  {
    var cr := Crossed(t.objects, step);
    (Tally(CategoriesOf(cr.0)), Counter(cr.1, t.nextId))
  }

  /** The result of a crossing check holds a category exactly when some
      track under it was credited, and then counts those tracks. */
  lemma CheckWithCounts(t: Counter, step: Step, cat: string)
    ensures var r := CheckWith(t, step);
      (cat in r.0 <==> |CreditedIn(t.objects, step, cat)| > 0) &&
      (cat in r.0 ==> r.0[cat] == |CreditedIn(t.objects, step, cat)|)
  {
    CrossedCountsPerCategory(t.objects, step, cat);
  }

  /** `check_line_crossing` at the line `x = lineX`. */
  function CheckLineCrossing(t: Counter, lineX: int): (r: (map<string, nat>, Counter))
    ensures r.1.nextId == t.nextId && |r.1.objects| == |t.objects|
    ensures forall i | 0 <= i < |t.objects| :: r.1.objects[i] == t.objects[i].(counted := r.1.objects[i].counted)
  {
    CheckWith(t, RescanStep(lineX))
  }

  /** Crossing checks keep the table invariant. */
  lemma CheckLineCrossingKeepsValid(c: Limits, t: Counter, lineX: int)
    requires Valid(c, t)
    ensures Valid(c, CheckLineCrossing(t, lineX).1)
  {
  }
}

=== FILE: publisher.dfy ===
/** The decision logic of the collector robot's MQTT publisher
    (`Version3/mqtt_client.py`): which categories have a topic, the checks
    made before anything is published, the payload built from a group of
    report entries, and the rule recommending collection. The broker
    connection, JSON encoding and timestamps are not modelled: the
    connection state is a parameter and the result is the message that
    would be handed to the broker. */
module Publisher {
  import opened Wrappers
  import opened Categories
  import opened WasteTables
  import opened RobotTrack
  import opened RobotTracker
  import opened RobotReport

  /** The topic of each category the robot publishes, and of its control
      channels. */
  const Topics: map<string, string> := map[
    "METAL" := "robot/deteccion/metal",
    "PLASTICO" := "robot/deteccion/plastico",
    "BOLSAS" := "robot/deteccion/bolsas",
    "PAPEL" := "robot/deteccion/papel",
    "OTROS" := "robot/deteccion/otros",
    "STATUS" := "robot/status",
    "LOCATION" := "robot/location",
    "COMMAND" := "robot/command"
  ]

  const RobotId: string := "COLLECTOR_01"

  /** `_get_category_priority`: the priority the table gives the category,
      LOW when the category is unknown or carries no priority. */
  function PublishPriority(table: Table, category: string): (p: Priority)
    ensures (forall k | 0 <= k < |table| :: table[k].name != category) ==> p == Low
  {
    match Lookup(table, category)
    case Some(cat) => if cat.priority.Some? then cat.priority.value else Low
    case None => Low
  }

  /** On a table where every entry has a priority, the publisher reads the
      same priority as the category helpers do. */
  lemma PublishPriorityAgrees(table: Table, category: string)
    requires Prioritized(table)
    ensures PublishPriority(table, category) == CategoryPriority(table, category)
  {
  }

  /** The collection rule on a priority and an item count: any HIGH item,
      two MEDIUM ones, three of anything else. */
  function CollectFor(p: Priority, count: nat): bool {
    if p == High then count >= 1
    else if p == Medium then count >= 2
    else count >= 3
  }

  /** `_should_collect(category, items)`. */
  function ShouldCollect(table: Table, category: string, items: seq<Report>): (r: bool)
    ensures |items| == 0 ==> !r
    ensures |items| >= 3 ==> r
    ensures (forall k | 0 <= k < |table| :: table[k].name != category) ==> (r <==> |items| >= 3)
  {
    CollectFor(PublishPriority(table, category), |items|)
  }

  /** More items never withdraw a recommendation. */
  lemma CollectMonotone(p: Priority, n: nat, m: nat)
    requires n <= m && CollectFor(p, n)
    ensures CollectFor(p, m)
  {
  }

  /** A more urgent priority never needs more items: whatever LOW collects,
      MEDIUM collects, and whatever MEDIUM collects, HIGH collects. */
  lemma UrgencyLowersTheBar(n: nat)
    ensures CollectFor(Low, n) ==> CollectFor(Medium, n)
    ensures CollectFor(Medium, n) ==> CollectFor(High, n)
  {
  }

  /** On a table with distinct names, a listed category is read with its own
      priority. */
  lemma EntryPriority(table: Table, k: nat)
    requires DistinctNames(table) && k < |table| && table[k].priority.Some?
    ensures PublishPriority(table, table[k].name) == table[k].priority.value
  {
  }

  /** The priority and name of the robot table's entry at position `k`. */
  lemma RobotEntry(k: nat, name: string, p: Priority)
    requires k < 5
    requires Names(RobotTable)[k] == name && RobotTable[k].priority == Some(p)
    ensures PublishPriority(RobotTable, name) == p
  {
    RobotTablePartitionsLabels();
    EntryPriority(RobotTable, k);
  }

  /** The priorities the publisher reads from the shipped robot table. */
  lemma RobotPriorities()
    ensures PublishPriority(RobotTable, "METAL") == High
    ensures PublishPriority(RobotTable, "PLASTICO") == High
    ensures PublishPriority(RobotTable, "BOLSAS") == Medium
    ensures PublishPriority(RobotTable, "PAPEL") == Medium
    ensures PublishPriority(RobotTable, "OTROS") == Low
    ensures PublishPriority(RobotTable, Unknown) == Low
  {
    RobotTableNames();
    RobotEntry(0, "METAL", High);
    RobotEntry(1, "PLASTICO", High);
    RobotEntry(2, "BOLSAS", Medium);
    RobotEntry(3, "PAPEL", Medium);
    RobotEntry(4, "OTROS", Low);
    UnknownCategoryDefaults();
    PublishPriorityAgrees(RobotTable, Unknown);
  }

  /** With the shipped robot table: METAL and PLASTICO are collected from one
      item, BOLSAS and PAPEL from two, OTROS and unknown categories from
      three. */
  lemma RobotTableThresholds(items: seq<Report>)
    ensures ShouldCollect(RobotTable, "METAL", items) <==> |items| >= 1
    ensures ShouldCollect(RobotTable, "PLASTICO", items) <==> |items| >= 1
    ensures ShouldCollect(RobotTable, "BOLSAS", items) <==> |items| >= 2
    ensures ShouldCollect(RobotTable, "PAPEL", items) <==> |items| >= 2
    ensures ShouldCollect(RobotTable, "OTROS", items) <==> |items| >= 3
    ensures ShouldCollect(RobotTable, Unknown, items) <==> |items| >= 3
  {
    RobotPriorities();
  }

  /** One entry of the payload's item list. Rounding the confidence to three
      decimals is not modelled. */
  datatype PayloadItem = PayloadItem(id: nat, className: string, confidence: real)

  datatype Payload = Payload(
    robotId: string,
    category: string,
    itemCount: nat,
    items: seq<PayloadItem>,
    priority: Priority,
    collectionRecommended: bool)

  function ItemsOf(items: seq<Report>): (r: seq<PayloadItem>)
    ensures |r| == |items|
    ensures forall k | 0 <= k < |items| ::
      r[k] == PayloadItem(items[k].id, items[k].className, items[k].confidence)
  {
    seq(|items|, k requires 0 <= k < |items| => PayloadItem(items[k].id, items[k].className, items[k].confidence))
  }

  /** `publish_detection(category, items)` up to the broker call: nothing
      when the publisher is not connected or the category has no topic,
      otherwise the topic and the payload handed to the broker. */
  function PublishDetection(connected: bool, table: Table, category: string, items: seq<Report>): (r: Option<(string, Payload)>)
    ensures r.None? <==> !connected || category !in Topics
    ensures r.Some? ==> r.value.0 == Topics[category]
    ensures r.Some? ==> r.value.1.category == category && r.value.1.itemCount == |items| == |r.value.1.items|
    ensures r.Some? ==> forall k | 0 <= k < |items| :: r.value.1.items[k].id == items[k].id
  {
    if !connected then None
    else if category !in Topics then None
    else
      Some((Topics[category],
            Payload(RobotId, category, |items|, ItemsOf(items),
                    PublishPriority(table, category), ShouldCollect(table, category, items))))
  }

  lemma UnknownHasNoTopic()
    ensures Unknown !in Topics
  {
  }

  lemma RobotNamesHaveTopics()
    ensures forall k | 0 <= k < |RobotTable| :: RobotTable[k].name in Topics
  {
    RobotTableNames();
    forall k | 0 <= k < |RobotTable| ensures RobotTable[k].name in Topics {
      assert RobotTable[k].name == Names(RobotTable)[k];
    }
  }

  /** Every category of the robot table has a topic, and the unknown
      category has none: objects of unknown category are never published. */
  lemma RobotCategoriesHaveTopics(connected: bool, items: seq<Report>)
    ensures forall k | 0 <= k < |RobotTable| :: RobotTable[k].name in Topics
    ensures PublishDetection(connected, RobotTable, Unknown, items).None?
  {
    RobotNamesHaveTopics();
    UnknownHasNoTopic();
  }

  /** Each group of a report published on the robot table carries exactly the
      entries of its category, their count (one per due track of the
      category), and the recommendation the category's priority and that
      count give. */
  lemma PublishedGroupIsCategory(c: Config, t: Tracker, now: real, category: string)
    requires category in ConfirmedForReport(c, t, now).0
    requires category in Topics
    ensures var group := ConfirmedForReport(c, t, now).0[category];
      var r := PublishDetection(true, RobotTable, category, group);
      r.Some? && r.value.1.itemCount == |group| &&
      |group| == |DueIndices(c, t.objects, now, category)| &&
      (forall k | 0 <= k < |group| :: group[k].category == category) &&
      r.value.1.collectionRecommended == CollectFor(PublishPriority(RobotTable, category), |group|)
  {
    var es := Collect(c, t.objects, now).0;
    var group := ConfirmedForReport(c, t, now).0[category];
    assert group == InCategory(es, category);
    InCategoryMembers(es, category);
    BucketCountsDueTracks(c, t.objects, now, category);
    forall k | 0 <= k < |group| ensures group[k].category == category {
      assert group[k] in group;
    }
  }
}

=== FILE: robot_lifetime.dfy ===
/** The main loops of Version2 and Version3 alternate `update` on each frame
    with `get_confirmed_objects_for_report`. Whatever the frames and the
    clock readings, an object is published at most once in the tracker's
    lifetime. */
module RobotLifetime {
  import opened RobotTrack
  import opened RobotTracker
  import opened RobotReport

  /** One call the main loop makes on the tracker. */
  datatype Call = Frame(dets: seq<Observation>, now: real) | Poll(now: real)

  /** The tracker after the calls, and every report entry emitted, in
      order. */
  function Run(c: Config, t: Tracker, calls: seq<Call>): (r: (Tracker, seq<Report>))
    decreases |calls|
  {
    if |calls| == 0 then (t, [])
    else if calls[0].Frame? then
      Run(c, Update(c, t, calls[0].dets, calls[0].now), calls[1..])
    else
      var col := Collect(c, t.objects, calls[0].now);
      var rest := Run(c, ConfirmedForReport(c, t, calls[0].now).1, calls[1..]);
      (rest.0, col.0 + rest.1)
  }

  predicate DistinctIds(es: seq<Report>) {
    forall i, j | 0 <= i < j < |es| :: es[i].id != es[j].id
  }

  /** Between calls: the table is valid, every id already published was
      issued, and a track still carrying one is marked reported. */
  ghost predicate Published(c: Config, t: Tracker, emitted: set<nat>) {
    Valid(c, t) &&
    (forall id | id in emitted :: id < t.nextId) &&
    (forall i | 0 <= i < |t.objects| && t.objects[i].id in emitted :: t.objects[i].reported)
  }

  lemma FrameKeepsPublished(c: Config, t: Tracker, dets: seq<Observation>, now: real, emitted: set<nat>)
    requires Published(c, t, emitted)
    ensures Published(c, Update(c, t, dets, now), emitted)
  {
    var r := Update(c, t, dets, now);
    UpdateKeepsValid(c, t, dets, now);
    UpdateNeverReusesIds(c, t, dets, now);
    forall k | 0 <= k < |r.objects| && r.objects[k].id in emitted ensures r.objects[k].reported {
      var x := r.objects[k];
      assert x in r.objects;
      var i :| 0 <= i < |t.objects| && Evolves(t.objects[i], x);
    }
  }

  function IdsOf(es: seq<Report>): set<nat> {
    set k | 0 <= k < |es| :: es[k].id
  }

  /** A poll publishes only ids not published before, each once. */
  lemma PollPublishesNewIds(c: Config, t: Tracker, now: real, emitted: set<nat>)
    requires Published(c, t, emitted)
    ensures var es := Collect(c, t.objects, now).0;
      DistinctIds(es) && forall k | 0 <= k < |es| :: es[k].id !in emitted && es[k].id < t.nextId
  {
    var es := Collect(c, t.objects, now).0;
    CollectInIdOrder(c, t.objects, now);
    forall k | 0 <= k < |es| ensures es[k].id !in emitted && es[k].id < t.nextId {
      assert es[k] in es;
      var i :| 0 <= i < |t.objects| && Due(c, t.objects[i], now) && es[k] == ReportOf(c, t.objects[i], now);
    }
  }

  lemma SameIdSameIndex(objs: seq<Track>, i: nat, j: nat)
    requires IdsAscending(objs) && i < |objs| && j < |objs| && objs[i].id == objs[j].id
    ensures i == j
  {
  }

  /** Ids are unique in the table, so a collected id names a track that was
      due. */
  lemma CollectedIdWasDue(c: Config, objs: seq<Track>, now: real, i: nat)
    requires IdsAscending(objs) && i < |objs|
    requires objs[i].id in IdsOf(Collect(c, objs, now).0)
    ensures Due(c, objs[i], now)
  {
    var es := Collect(c, objs, now).0;
    var k :| 0 <= k < |es| && es[k].id == objs[i].id;
    assert es[k] in es;
    EntryOfDueTrack(c, objs, now, es[k]);
    var j :| 0 <= j < |objs| && Due(c, objs[j], now) && es[k].id == objs[j].id;
    SameIdSameIndex(objs, i, j);
  }

  /** After a poll, every track whose id has been published is marked
      reported. */
  lemma PollKeepsPublished(c: Config, t: Tracker, now: real, emitted: set<nat>)
    requires Published(c, t, emitted)
    ensures Published(c, ConfirmedForReport(c, t, now).1, emitted + IdsOf(Collect(c, t.objects, now).0))
  {
    var newly := IdsOf(Collect(c, t.objects, now).0);
    PollPublishesNewIds(c, t, now, emitted);
    ReportKeepsValid(c, t, now);
    var t1 := ConfirmedForReport(c, t, now).1;
    forall id | id in newly ensures id < t1.nextId {
      var es := Collect(c, t.objects, now).0;
      var k :| 0 <= k < |es| && es[k].id == id;
    }
    forall i | 0 <= i < |t1.objects| && t1.objects[i].id in emitted + newly ensures t1.objects[i].reported {
      assert t1.objects[i] == MarkReported(c, t.objects[i], now);
      if t.objects[i].id !in emitted {
        CollectedIdWasDue(c, t.objects, now, i);
      }
    }
  }

  lemma ConcatKeepsDistinct(es: seq<Report>, rest: seq<Report>, emitted: set<nat>)
    requires DistinctIds(es) && DistinctIds(rest)
    requires forall k | 0 <= k < |es| :: es[k].id !in emitted
    requires forall k | 0 <= k < |rest| :: rest[k].id !in emitted + IdsOf(es)
    ensures DistinctIds(es + rest)
    ensures forall k | 0 <= k < |es + rest| :: (es + rest)[k].id !in emitted
  {
    var all := es + rest;
    forall i, j | 0 <= i < j < |all| ensures all[i].id != all[j].id {
      if j < |es| {
        assert all[i] == es[i] && all[j] == es[j];
      } else if i < |es| {
        assert all[i] == es[i] && all[j] == rest[j - |es|];
        assert es[i].id in IdsOf(es);
      } else {
        assert all[i] == rest[i - |es|] && all[j] == rest[j - |es|];
      }
    }
    forall k | 0 <= k < |all| ensures all[k].id !in emitted {
      if k >= |es| {
        assert all[k] == rest[k - |es|];
      }
    }
  }

  lemma {:induction false} RunPublishesFreshIds(c: Config, t: Tracker, calls: seq<Call>, emitted: set<nat>)
    requires Published(c, t, emitted)
    ensures DistinctIds(Run(c, t, calls).1)
    ensures forall k | 0 <= k < |Run(c, t, calls).1| :: Run(c, t, calls).1[k].id !in emitted
    decreases |calls|
  {
    if |calls| > 0 {
      var now := calls[0].now;
      if calls[0].Frame? {
        FrameKeepsPublished(c, t, calls[0].dets, now, emitted);
        RunPublishesFreshIds(c, Update(c, t, calls[0].dets, now), calls[1..], emitted);
      } else {
        var es := Collect(c, t.objects, now).0;
        var t1 := ConfirmedForReport(c, t, now).1;
        PollPublishesNewIds(c, t, now, emitted);
        PollKeepsPublished(c, t, now, emitted);
        RunPublishesFreshIds(c, t1, calls[1..], emitted + IdsOf(es));
        var rest := Run(c, t1, calls[1..]).1;
        assert Run(c, t, calls).1 == es + rest;
        ConcatKeepsDistinct(es, rest, emitted);
      }
    }
  }

  /** From a new tracker, no object id is ever published twice. */
  lemma EachObjectReportedAtMostOnce(c: Config, calls: seq<Call>)
    ensures DistinctIds(Run(c, Empty, calls).1)
  {
    RunPublishesFreshIds(c, Empty, calls, {});
  }
}

=== FILE: robot_report.dfy ===
/** What the robot trackers hand to the rest of the program: the confirmed
    objects due for a report, grouped by category, and the table statistics;
    and the lifetime guarantee that no object is reported twice. */
module RobotReport {
  import opened Wrappers
  import opened Geometry
  import opened TrackMetrics
  import opened RobotTrack
  import opened RobotRounds
  import opened RobotTracker

  /** One entry of `get_confirmed_objects_for_report`. Version3 adds the
      movement pattern and the position; Version2 leaves both out. */
  datatype Report = Report(
    id: nat,
    className: string,
    category: string,
    confidence: real,
    detectionTime: real,
    movement: Option<Pattern>,
    position: Option<Point>)

  /** A track is due when it is confirmed, not yet reported, and the cooldown
      since its last report has passed. */
  predicate Due(c: Config, tr: Track, now: real) {
    tr.confirmed && !tr.reported && now - tr.lastReported >= c.reportCooldown
  }

  function ReportOf(c: Config, tr: Track, now: real): (e: Report)
    ensures e.id == tr.id && e.className == tr.stableClass && e.category == tr.category
    ensures e.confidence == tr.avgConfidence && e.detectionTime == now - tr.firstSeen
    ensures c.variant == V3 ==> e.position == Some(tr.center) && e.movement == tr.movement
    ensures c.variant == V2 ==> e.position.None? && e.movement.None?
  {
    Report(tr.id, tr.stableClass, tr.category, tr.avgConfidence, now - tr.firstSeen,
           if c.variant == V3 then tr.movement else None,
           if c.variant == V3 then Some(tr.center) else None)
  }

  function MarkReported(c: Config, tr: Track, now: real): (r: Track)
    ensures Due(c, tr, now) ==> r == tr.(reported := true, lastReported := now)
    ensures !Due(c, tr, now) ==> r == tr
  {
    if Due(c, tr, now) then tr.(reported := true, lastReported := now) else tr
  }

  /** The loop of `get_confirmed_objects_for_report` over the table in id
      order: the entries of the due tracks, and the table with exactly those
      tracks marked reported at `now`. */
  function Collect(c: Config, objs: seq<Track>, now: real): (r: (seq<Report>, seq<Track>))
    ensures |r.1| == |objs| && |r.0| <= |objs|
    ensures forall i | 0 <= i < |objs| :: r.1[i] == MarkReported(c, objs[i], now)
    ensures forall e | e in r.0 :: exists i | 0 <= i < |objs| :: Due(c, objs[i], now) && e == ReportOf(c, objs[i], now)
    ensures forall i | 0 <= i < |objs| && Due(c, objs[i], now) :: ReportOf(c, objs[i], now) in r.0
  {
    if |objs| == 0 then ([], [])
    else
      var n := |objs| - 1;
      var rest := Collect(c, objs[..n], now);
      var es := if Due(c, objs[n], now) then rest.0 + [ReportOf(c, objs[n], now)] else rest.0;
      (es, rest.1 + [MarkReported(c, objs[n], now)])
  }

  /** The entries of one category, in order. */
  function InCategory(es: seq<Report>, category: string): (r: seq<Report>)
    ensures |r| <= |es|
  {
    if |es| == 0 then []
    else
      var rest := InCategory(es[..|es| - 1], category);
      if es[|es| - 1].category == category then rest + [es[|es| - 1]] else rest
  }

  /** The dictionary keyed by category that the report step returns. */
  function Group(es: seq<Report>): (m: map<string, seq<Report>>)
    ensures forall k :: k in m <==> exists i | 0 <= i < |es| :: es[i].category == k
    ensures forall k | k in m :: m[k] == InCategory(es, k)
  {
    if |es| == 0 then map[]
    else
      var n := |es| - 1;
      var rest := Group(es[..n]);
      var e := es[n];
      assert e.category !in rest ==> InCategory(es[..n], e.category) == [] by {
        if e.category !in rest {
          NoneInCategory(es[..n], e.category);
        }
      }
      rest[e.category := (if e.category in rest then rest[e.category] else []) + [e]]
  }

  /** A category's bucket holds exactly the entries of that category. */
  lemma {:induction false} InCategoryMembers(es: seq<Report>, category: string)
    ensures forall e | e in InCategory(es, category) :: e in es && e.category == category
    ensures forall i | 0 <= i < |es| && es[i].category == category :: es[i] in InCategory(es, category)
  {
    if |es| > 0 {
      var n := |es| - 1;
      InCategoryMembers(es[..n], category);
      assert forall i | 0 <= i < n :: es[..n][i] == es[i];
    }
  }

  lemma {:induction false} NoneInCategory(es: seq<Report>, category: string)
    requires forall i | 0 <= i < |es| :: es[i].category != category
    ensures InCategory(es, category) == []
  {
    if |es| > 0 {
      NoneInCategory(es[..|es| - 1], category);
    }
  }

  /** `get_confirmed_objects_for_report` at time `now`. */
  function ConfirmedForReport(c: Config, t: Tracker, now: real): (r: (map<string, seq<Report>>, Tracker))
    ensures r.1.nextId == t.nextId && |r.1.objects| == |t.objects|
  {
    var col := Collect(c, t.objects, now);
    (Group(col.0), Tracker(col.1, t.nextId))
  }

  predicate ReportIdsAscending(es: seq<Report>) {
    forall i, j | 0 <= i < j < |es| :: es[i].id < es[j].id
  }

  /** Appending an entry above every id keeps the ids ascending. */
  lemma AppendKeepsReportOrder(es: seq<Report>, e: Report)
    requires ReportIdsAscending(es) && forall x | x in es :: x.id < e.id
    ensures ReportIdsAscending(es + [e])
  {
    var r := es + [e];
    forall i, j | 0 <= i < j < |r| ensures r[i].id < r[j].id {
      assert r[i] == es[i];
      if j < |es| {
        assert r[j] == es[j];
      } else {
        assert es[i] in es;
      }
    }
  }

  /** An entry is the report of a due track, so it carries that track's id. */
  lemma EntryOfDueTrack(c: Config, objs: seq<Track>, now: real, e: Report)
    requires e in Collect(c, objs, now).0
    ensures exists i | 0 <= i < |objs| :: Due(c, objs[i], now) && e.id == objs[i].id
  {
    var i :| 0 <= i < |objs| && Due(c, objs[i], now) && e == ReportOf(c, objs[i], now);
  }

  /** Collecting keeps ids, so it keeps any bound on them. */
  lemma CollectedBelow(c: Config, objs: seq<Track>, now: real, bound: nat)
    requires forall i | 0 <= i < |objs| :: objs[i].id < bound
    ensures forall e | e in Collect(c, objs, now).0 :: e.id < bound
  {
    forall e | e in Collect(c, objs, now).0 ensures e.id < bound {
      EntryOfDueTrack(c, objs, now, e);
    }
  }

  /** Entries come out in id order, so no id appears twice in one report. */
  lemma {:induction false} CollectInIdOrder(c: Config, objs: seq<Track>, now: real)
    requires IdsAscending(objs)
    ensures ReportIdsAscending(Collect(c, objs, now).0)
  {
    if |objs| > 0 {
      var n := |objs| - 1;
      var rest := Collect(c, objs[..n], now).0;
      CollectInIdOrder(c, objs[..n], now);
      if Due(c, objs[n], now) {
        CollectedBelow(c, objs[..n], now, objs[n].id);
        AppendKeepsReportOrder(rest, ReportOf(c, objs[n], now));
      }
    }
  }

  /** Bucketing keeps entry order: the bucket of a concatenation is the
      bucket of the first part followed by that of the second. */
  lemma {:induction false} InCategorySplits(a: seq<Report>, b: seq<Report>, category: string)
    ensures InCategory(a + b, category) == InCategory(a, category) + InCategory(b, category)
    decreases |b|
  {
    if |b| > 0 {
      var n := |b| - 1;
      assert (a + b)[..|a + b| - 1] == a + b[..n];
      InCategorySplits(a, b[..n], category);
      AppendAssociates(InCategory(a, category), InCategory(b[..n], category), [b[n]]);
    } else {
      assert a + b == a;
    }
  }

  /** A bucket of entries in id order is itself in id order, so it holds no
      entry twice. */
  lemma {:induction false} InCategoryInIdOrder(es: seq<Report>, category: string)
    requires ReportIdsAscending(es)
    ensures ReportIdsAscending(InCategory(es, category))
  {
    if |es| > 0 {
      var n := |es| - 1;
      assert ReportIdsAscending(es[..n]);
      InCategoryInIdOrder(es[..n], category);
      if es[n].category == category {
        InCategoryMembers(es[..n], category);
        forall x | x in InCategory(es[..n], category) ensures x.id < es[n].id {
          var i :| 0 <= i < n && es[..n][i] == x;
        }
        AppendKeepsReportOrder(InCategory(es[..n], category), es[n]);
      }
    }
  }

  /** The positions of the tracks of one category that are due at `now`. */
  ghost function DueIndices(c: Config, objs: seq<Track>, now: real, category: string): set<nat> {
    set i: nat | i < |objs| && Due(c, objs[i], now) && objs[i].category == category
  }

  lemma DueIndicesSnoc(c: Config, objs: seq<Track>, now: real, category: string)
    requires |objs| > 0
    ensures |DueIndices(c, objs, now, category)| == |DueIndices(c, objs[..|objs| - 1], now, category)|
      + (if Due(c, objs[|objs| - 1], now) && objs[|objs| - 1].category == category then 1 else 0)
  {
    var n := |objs| - 1;
    var extra: set<nat> := if Due(c, objs[n], now) && objs[n].category == category then {n} else {};
    assert DueIndices(c, objs, now, category) == DueIndices(c, objs[..n], now, category) + extra;
    assert n !in DueIndices(c, objs[..n], now, category);
  }

  /** One step of the report loop: the last track adds its entry after the
      earlier ones when it is due. */
  lemma CollectStep(c: Config, objs: seq<Track>, now: real)
    requires |objs| > 0
    ensures Collect(c, objs, now).0 == Collect(c, objs[..|objs| - 1], now).0
      + (if Due(c, objs[|objs| - 1], now) then [ReportOf(c, objs[|objs| - 1], now)] else [])
  {
  }

  /** Appending at most one entry grows its category's bucket by one exactly
      when the entry belongs to it. */
  lemma InCategoryAppend(es: seq<Report>, last: seq<Report>, category: string)
    requires |last| <= 1
    ensures |InCategory(es + last, category)|
      == |InCategory(es, category)| + (if |last| == 1 && last[0].category == category then 1 else 0)
  {
    InCategorySplits(es, last, category);
    if |last| == 1 {
      assert last[..0] == [];
    }
  }

  /** A category's bucket holds one entry per due track of that category. */
  lemma {:induction false} BucketCountsDueTracks(c: Config, objs: seq<Track>, now: real, category: string)
    ensures |InCategory(Collect(c, objs, now).0, category)| == |DueIndices(c, objs, now, category)|
    decreases |objs|
  {
    if |objs| > 0 {
      var n := |objs| - 1;
      var last: seq<Report> := if Due(c, objs[n], now) then [ReportOf(c, objs[n], now)] else [];
      CollectStep(c, objs, now);
      BucketCountsDueTracks(c, objs[..n], now, category);
      DueIndicesSnoc(c, objs, now, category);
      InCategoryAppend(Collect(c, objs[..n], now).0, last, category);
    }
  }

  /** Each bucket the report step returns lists the due tracks of its
      category, one entry each, in id order. */
  lemma BucketsAreDueTracks(c: Config, t: Tracker, now: real, category: string)
    requires Valid(c, t)
    requires category in ConfirmedForReport(c, t, now).0
    ensures var bucket := ConfirmedForReport(c, t, now).0[category];
      ReportIdsAscending(bucket) && |bucket| == |DueIndices(c, t.objects, now, category)|
  {
    var es := Collect(c, t.objects, now).0;
    CollectInIdOrder(c, t.objects, now);
    InCategoryInIdOrder(es, category);
    BucketCountsDueTracks(c, t.objects, now, category);
  }

  /** Marking a track reported keeps it well formed and keeps its id. */
  lemma MarkKeepsWellFormed(c: Config, tr: Track, now: real)
    requires WellFormed(c, tr)
    ensures WellFormed(c, MarkReported(c, tr, now)) && MarkReported(c, tr, now).id == tr.id
  {
    var r := MarkReported(c, tr, now);
    assert r.positions == tr.positions && r.confidenceHistory == tr.confidenceHistory;
    assert r.stableClass == tr.stableClass && r.category == tr.category && r.movement == tr.movement;
  }

  /** Reporting changes only the report fields of the due tracks, so the
      table stays valid. */
  lemma ReportKeepsValid(c: Config, t: Tracker, now: real)
    requires Valid(c, t)
    ensures Valid(c, ConfirmedForReport(c, t, now).1)
  {
    var r := ConfirmedForReport(c, t, now).1;
    forall i | 0 <= i < |r.objects| ensures r.objects[i].id == t.objects[i].id && WellFormed(c, r.objects[i]) {
      MarkKeepsWellFormed(c, t.objects[i], now);
    }
  }

  lemma {:induction false} NothingDueNothingReported(c: Config, objs: seq<Track>, now: real)
    requires forall i | 0 <= i < |objs| :: !Due(c, objs[i], now)
    ensures Collect(c, objs, now) == ([], objs)
  {
    if |objs| > 0 {
      var n := |objs| - 1;
      NothingDueNothingReported(c, objs[..n], now);
      assert objs[..n] + [objs[n]] == objs;
    }
  }

  /** Asking twice at the same instant yields nothing the second time and
      leaves the table as the first call left it. */
  lemma ReportTwiceAtOnce(c: Config, t: Tracker, now: real)
    ensures var t1 := ConfirmedForReport(c, t, now).1;
      ConfirmedForReport(c, t1, now) == (map[], t1)
  {
    var t1 := ConfirmedForReport(c, t, now).1;
    var col := Collect(c, t1.objects, now);
    forall i | 0 <= i < |t1.objects| ensures !Due(c, t1.objects[i], now) {
    }
    assert col.1 == t1.objects;
    NothingDueNothingReported(c, t1.objects, now);
  }

  /** `get_detection_stats`. Only Version3 counts static tracks (and reports
      the same number as collectible). */
  datatype Stats = Stats(total: nat, confirmed: nat, pending: int, staticObjects: Option<nat>)

  function CountConfirmed(objs: seq<Track>): (n: nat)
    ensures n <= |objs|
  {
    if |objs| == 0 then 0
    else CountConfirmed(objs[..|objs| - 1]) + (if objs[|objs| - 1].confirmed then 1 else 0)
  }

  function CountUnconfirmed(objs: seq<Track>): nat {
    if |objs| == 0 then 0
    else CountUnconfirmed(objs[..|objs| - 1]) + (if objs[|objs| - 1].confirmed then 0 else 1)
  }

  function CountStatic(objs: seq<Track>): (n: nat)
    ensures n <= |objs|
  {
    if |objs| == 0 then 0
    else CountStatic(objs[..|objs| - 1]) + (if objs[|objs| - 1].movement == Some(Static) then 1 else 0)
  }

  function DetectionStats(c: Config, t: Tracker): (s: Stats)
    ensures s.total == |t.objects| && s.confirmed <= s.total
    ensures s.pending == s.total - s.confirmed
    ensures s.staticObjects.Some? <==> c.variant == V3
  {
    var total := |t.objects|;
    var confirmed := CountConfirmed(t.objects);
    Stats(total, confirmed, total - confirmed, if c.variant == V3 then Some(CountStatic(t.objects)) else None)
  }

  /** The pending figure, computed as total minus confirmed, is the number of
      unconfirmed tracks. */
  lemma {:induction false} PendingCountsUnconfirmed(c: Config, t: Tracker)
    ensures DetectionStats(c, t).pending == CountUnconfirmed(t.objects)
  {
    CountsSplit(t.objects);
  }

  /** The positions of the confirmed tracks. */
  ghost function ConfirmedIndices(objs: seq<Track>): set<nat> {
    set i: nat | i < |objs| && objs[i].confirmed
  }

  lemma {:induction false} CountConfirmedCountsIndices(objs: seq<Track>)
    ensures CountConfirmed(objs) == |ConfirmedIndices(objs)|
    decreases |objs|
  {
    if |objs| > 0 {
      var n := |objs| - 1;
      CountConfirmedCountsIndices(objs[..n]);
      var extra: set<nat> := if objs[n].confirmed then {n} else {};
      assert ConfirmedIndices(objs) == ConfirmedIndices(objs[..n]) + extra;
      assert n !in ConfirmedIndices(objs[..n]);
    }
  }

  /** The confirmed figure is the number of confirmed tracks, and the pending
      figure the number of the others. */
  lemma ConfirmedCountsConfirmedTracks(c: Config, t: Tracker)
    ensures DetectionStats(c, t).confirmed == |ConfirmedIndices(t.objects)|
    ensures DetectionStats(c, t).pending == |t.objects| - |ConfirmedIndices(t.objects)|
  {
    CountConfirmedCountsIndices(t.objects);
  }

  /** The positions of the tracks whose movement pattern is STATIC. */
  ghost function StaticIndices(objs: seq<Track>): set<nat> {
    set i: nat | i < |objs| && objs[i].movement == Some(Static)
  }

  lemma {:induction false} CountStaticCountsIndices(objs: seq<Track>)
    ensures CountStatic(objs) == |StaticIndices(objs)|
    decreases |objs|
  {
    if |objs| > 0 {
      var n := |objs| - 1;
      CountStaticCountsIndices(objs[..n]);
      var extra: set<nat> := if objs[n].movement == Some(Static) then {n} else {};
      assert StaticIndices(objs) == StaticIndices(objs[..n]) + extra;
      assert n !in StaticIndices(objs[..n]);
    }
  }

  /** In Version3 the static figure is the number of tracks whose movement
      pattern is STATIC. */
  lemma StaticObjectsAreStaticTracks(c: Config, t: Tracker)
    requires c.variant == V3
    ensures DetectionStats(c, t).staticObjects == Some(|StaticIndices(t.objects)|)
  {
    CountStaticCountsIndices(t.objects);
  }

  lemma {:induction false} CountsSplit(objs: seq<Track>)
    ensures CountConfirmed(objs) + CountUnconfirmed(objs) == |objs|
  {
    if |objs| > 0 {
      CountsSplit(objs[..|objs| - 1]);
    }
  }

  lemma {:induction false} CountsIgnoreReporting(c: Config, objs: seq<Track>, now: real)
    ensures CountConfirmed(Collect(c, objs, now).1) == CountConfirmed(objs)
    ensures CountStatic(Collect(c, objs, now).1) == CountStatic(objs)
  {
    if |objs| > 0 {
      var n := |objs| - 1;
      CountsIgnoreReporting(c, objs[..n], now);
      var r := Collect(c, objs, now).1;
      assert r[..n] == Collect(c, objs[..n], now).1;
    }
  }

  /** Reporting does not change the statistics. */
  lemma ReportKeepsStats(c: Config, t: Tracker, now: real)
    ensures DetectionStats(c, ConfirmedForReport(c, t, now).1) == DetectionStats(c, t)
  {
    CountsIgnoreReporting(c, t.objects, now);
  }
}

=== FILE: robot_rounds.dfy ===
/** The association loop of the robot trackers: `min(#tracks, #detections)`
    rounds, each selecting the first closest unused pair on the distance
    snapshot taken before the loop, gating it, checking class stability and
    accepting the match. A refused pair is not marked used. */
module RobotRounds {
  import opened Wrappers
  import opened Geometry
  import opened Association
  import opened RobotTrack

  /** The loop state: the tracks as updated so far and the accepted pairs in
      acceptance order. */
  datatype Assoc = Assoc(objs: seq<Track>, matches: seq<Pair>)

  /** The centre snapshot taken before association. The counting tracker
      has the same projection over its own track and detection types. */
  function Centers(objs: seq<Track>): (r: seq<Point>)
    ensures |r| == |objs|
    ensures forall i | 0 <= i < |objs| :: r[i] == objs[i].center
  {
    seq(|objs|, i requires 0 <= i < |objs| => objs[i].center)
  }

  function ObservedCenters(obs: seq<Observation>): (r: seq<Point>)
    ensures |r| == |obs|
    ensures forall j | 0 <= j < |obs| :: r[j] == obs[j].center
  {
    seq(|obs|, j requires 0 <= j < |obs| => obs[j].center)
  }

  /** The pair a round starting in `st` selects. */
  function Selected(snap: seq<Point>, obs: seq<Observation>, st: Assoc): Option<Pair> {
    SelectPair(snap, ObservedCenters(obs), UsedTracks(st.matches), UsedDetections(st.matches))
  }

  /** One round of the association loop. */
  function Round(c: Config, snap: seq<Point>, obs: seq<Observation>, now: real, st: Assoc): (r: Assoc)
    requires |st.objs| == |snap|
    ensures |r.objs| == |st.objs|
  {
    match Selected(snap, obs, st)
    case None => st
    case Some(p) =>
      if !WithinGate(SqDist(snap[p.t], obs[p.d].center), c.maxDistance) then st
      else
        var s := Stability(c, st.objs[p.t], obs[p.d].className);
        if !s.0 then Assoc(st.objs[p.t := s.1], st.matches)
        else Assoc(st.objs[p.t := Accept(c, s.1, obs[p.d], now)], st.matches + [p])
  }

  function Rounds(c: Config, snap: seq<Point>, obs: seq<Observation>, now: real, k: nat, st: Assoc): (r: Assoc)
    requires |st.objs| == |snap|
    ensures |r.objs| == |st.objs|
  {
    if k == 0 then st else Rounds(c, snap, obs, now, k - 1, Round(c, snap, obs, now, st))
  }

  /** Each track only evolved from where the loop started and stays well
      formed. */
  ghost predicate TracksEvolved(c: Config, objs0: seq<Track>, objs: seq<Track>) {
    |objs| == |objs0| &&
    forall i {:trigger objs[i]} | 0 <= i < |objs0| :: Evolves(objs0[i], objs[i]) && WellFormed(c, objs[i])
  }

  /** The accepted pairs are in range and inside the distance gate. */
  ghost predicate PairsGated(c: Config, snap: seq<Point>, obs: seq<Observation>, ms: seq<Pair>) {
    forall k | 0 <= k < |ms| ::
      ms[k].t < |snap| && ms[k].d < |obs| &&
      WithinGate(SqDist(snap[ms[k].t], obs[ms[k].d].center), c.maxDistance)
  }

  /** A matched track sits on its detection and was seen at `now`. */
  ghost predicate MatchedOnDetection(objs: seq<Track>, obs: seq<Observation>, now: real, ms: seq<Pair>) {
    forall k | 0 <= k < |ms| && ms[k].t < |objs| && ms[k].d < |obs| ::
      objs[ms[k].t].center == obs[ms[k].d].center &&
      objs[ms[k].t].disappeared == 0 &&
      objs[ms[k].t].lastSeen == now
  }

  /** A track without an accepted pair changed at most in its class-stability
      fields. */
  ghost predicate UnmatchedOnlyStability(objs0: seq<Track>, objs: seq<Track>, ms: seq<Pair>) {
    forall i {:trigger objs[i]} | 0 <= i < |objs0| && i < |objs| && i !in UsedTracks(ms) :: StabilityOnly(objs0[i], objs[i])
  }

  /** What holds of the loop state relative to the tracks `objs0` it started
      from. */
  ghost predicate Consistent(c: Config, objs0: seq<Track>, snap: seq<Point>, obs: seq<Observation>, now: real, st: Assoc) {
    |objs0| == |snap| &&
    TracksEvolved(c, objs0, st.objs) &&
    PairsGated(c, snap, obs, st.matches) &&
    OneToOne(st.matches) &&
    MatchedOnDetection(st.objs, obs, now, st.matches) &&
    UnmatchedOnlyStability(objs0, st.objs, st.matches)
  }

  lemma StartIsConsistent(c: Config, objs0: seq<Track>, obs: seq<Observation>, now: real)
    requires forall i | 0 <= i < |objs0| :: WellFormed(c, objs0[i])
    ensures Consistent(c, objs0, Centers(objs0), obs, now, Assoc(objs0, []))
  {
  }

  lemma MatchKeepsPairs(c: Config, snap: seq<Point>, obs: seq<Observation>, ms: seq<Pair>, p: Pair)
    requires PairsGated(c, snap, obs, ms) && OneToOne(ms)
    requires p.t < |snap| && p.d < |obs| && p.t !in UsedTracks(ms) && p.d !in UsedDetections(ms)
    requires WithinGate(SqDist(snap[p.t], obs[p.d].center), c.maxDistance)
    ensures PairsGated(c, snap, obs, ms + [p]) && OneToOne(ms + [p])
  {
    var ms' := ms + [p];
    forall k | 0 <= k < |ms| ensures ms'[k] == ms[k] && ms[k].t != p.t && ms[k].d != p.d {
    }
  }

  lemma MatchKeepsEvolved(c: Config, objs0: seq<Track>, objs: seq<Track>, t: nat, a: Track)
    requires TracksEvolved(c, objs0, objs)
    requires t < |objs| && Evolves(objs0[t], a) && WellFormed(c, a)
    ensures TracksEvolved(c, objs0, objs[t := a])
  {
  }

  lemma MatchKeepsUnmatched(objs0: seq<Track>, objs: seq<Track>, ms: seq<Pair>, p: Pair, a: Track)
    requires UnmatchedOnlyStability(objs0, objs, ms)
    requires p.t < |objs|
    ensures UnmatchedOnlyStability(objs0, objs[p.t := a], ms + [p])
  {
    UsedAfterMatch(ms, p);
    var objs' := objs[p.t := a];
    forall i | 0 <= i < |objs0| && i < |objs'| && i !in UsedTracks(ms + [p])
      ensures StabilityOnly(objs0[i], objs'[i])
    {
      assert i != p.t && i !in UsedTracks(ms);
      assert objs'[i] == objs[i];
    }
  }

  lemma MatchKeepsOnDetection(objs: seq<Track>, obs: seq<Observation>, now: real, ms: seq<Pair>, p: Pair, a: Track)
    requires MatchedOnDetection(objs, obs, now, ms)
    requires p.t < |objs| && p.d < |obs| && p.t !in UsedTracks(ms)
    requires a.center == obs[p.d].center && a.disappeared == 0 && a.lastSeen == now
    ensures MatchedOnDetection(objs[p.t := a], obs, now, ms + [p])
  {
    var ms' := ms + [p];
    forall k | 0 <= k < |ms| ensures ms'[k] == ms[k] && ms[k].t != p.t {
    }
  }

  /** An accepted match extends a consistent state consistently. */
  lemma MatchKeepsConsistent(c: Config, objs0: seq<Track>, snap: seq<Point>, obs: seq<Observation>, now: real, st: Assoc, p: Pair)
    requires Consistent(c, objs0, snap, obs, now, st)
    requires Free(snap, ObservedCenters(obs), UsedTracks(st.matches), UsedDetections(st.matches), p.t, p.d)
    requires WithinGate(SqDist(snap[p.t], obs[p.d].center), c.maxDistance)
    requires Stability(c, st.objs[p.t], obs[p.d].className).0
    ensures Consistent(c, objs0, snap, obs, now,
      Assoc(st.objs[p.t := Accept(c, Stability(c, st.objs[p.t], obs[p.d].className).1, obs[p.d], now)], st.matches + [p]))
  {
    var s := Stability(c, st.objs[p.t], obs[p.d].className);
    var a := Accept(c, s.1, obs[p.d], now);
    StabilityKeepsWellFormed(c, st.objs[p.t], obs[p.d].className);
    AcceptKeepsWellFormed(c, s.1, obs[p.d], now);
    EvolvesTransitive(objs0[p.t], st.objs[p.t], s.1);
    EvolvesTransitive(objs0[p.t], s.1, a);
    MatchKeepsPairs(c, snap, obs, st.matches, p);
    MatchKeepsEvolved(c, objs0, st.objs, p.t, a);
    MatchKeepsUnmatched(objs0, st.objs, st.matches, p, a);
    MatchKeepsOnDetection(st.objs, obs, now, st.matches, p, a);
  }

  /** A refused match changes only the class-stability fields of an
      unmatched track, which keeps the state consistent. */
  lemma RefusalKeepsConsistent(c: Config, objs0: seq<Track>, snap: seq<Point>, obs: seq<Observation>, now: real, st: Assoc, p: Pair)
    requires Consistent(c, objs0, snap, obs, now, st)
    requires Free(snap, ObservedCenters(obs), UsedTracks(st.matches), UsedDetections(st.matches), p.t, p.d)
    ensures Consistent(c, objs0, snap, obs, now,
      Assoc(st.objs[p.t := Stability(c, st.objs[p.t], obs[p.d].className).1], st.matches))
  {
    var s := Stability(c, st.objs[p.t], obs[p.d].className);
    StabilityKeepsWellFormed(c, st.objs[p.t], obs[p.d].className);
    EvolvesTransitive(objs0[p.t], st.objs[p.t], s.1);
    MatchKeepsEvolved(c, objs0, st.objs, p.t, s.1);
    RefusalKeepsUnmatched(objs0, st.objs, st.matches, p.t, s.1);
    RefusalKeepsOnDetection(st.objs, obs, now, st.matches, p.t, s.1);
  }

  lemma RefusalKeepsUnmatched(objs0: seq<Track>, objs: seq<Track>, ms: seq<Pair>, t: nat, b: Track)
    requires UnmatchedOnlyStability(objs0, objs, ms)
    requires t < |objs| && t < |objs0| && StabilityOnly(objs[t], b)
    ensures UnmatchedOnlyStability(objs0, objs[t := b], ms)
  {
  }

  lemma RefusalKeepsOnDetection(objs: seq<Track>, obs: seq<Observation>, now: real, ms: seq<Pair>, t: nat, b: Track)
    requires MatchedOnDetection(objs, obs, now, ms)
    requires t < |objs| && t !in UsedTracks(ms)
    ensures MatchedOnDetection(objs[t := b], obs, now, ms)
  {
    forall k | 0 <= k < |ms| ensures ms[k].t != t {
    }
  }

  lemma RoundKeepsConsistent(c: Config, objs0: seq<Track>, snap: seq<Point>, obs: seq<Observation>, now: real, st: Assoc)
    requires Consistent(c, objs0, snap, obs, now, st)
    ensures Consistent(c, objs0, snap, obs, now, Round(c, snap, obs, now, st))
  {
    match Selected(snap, obs, st)
    case None =>
    case Some(p) =>
      if WithinGate(SqDist(snap[p.t], obs[p.d].center), c.maxDistance) {
        if Stability(c, st.objs[p.t], obs[p.d].className).0 {
          MatchKeepsConsistent(c, objs0, snap, obs, now, st, p);
        } else {
          RefusalKeepsConsistent(c, objs0, snap, obs, now, st, p);
        }
      }
  }

  lemma {:induction false} RoundsKeepConsistent(c: Config, objs0: seq<Track>, snap: seq<Point>, obs: seq<Observation>, now: real, k: nat, st: Assoc)
    requires Consistent(c, objs0, snap, obs, now, st)
    ensures Consistent(c, objs0, snap, obs, now, Rounds(c, snap, obs, now, k, st))
  {
    if k > 0 {
      var st1 := Round(c, snap, obs, now, st);
      RoundKeepsConsistent(c, objs0, snap, obs, now, st);
      RoundsKeepConsistent(c, objs0, snap, obs, now, k - 1, st1);
      assert Rounds(c, snap, obs, now, k, st) == Rounds(c, snap, obs, now, k - 1, st1);
    }
  }

  lemma RoundKeepsGreedy(c: Config, snap: seq<Point>, obs: seq<Observation>, now: real, st: Assoc)
    requires |st.objs| == |snap|
    requires Greedy(snap, ObservedCenters(obs), st.matches)
    ensures Greedy(snap, ObservedCenters(obs), Round(c, snap, obs, now, st).matches)
  {
    var r := Round(c, snap, obs, now, st);
    if r.matches != st.matches {
      GreedyExtends(snap, ObservedCenters(obs), st.matches, Selected(snap, obs, st).value);
    }
  }

  lemma {:induction false} RoundsKeepGreedy(c: Config, snap: seq<Point>, obs: seq<Observation>, now: real, k: nat, st: Assoc)
    requires |st.objs| == |snap|
    requires Greedy(snap, ObservedCenters(obs), st.matches)
    ensures Greedy(snap, ObservedCenters(obs), Rounds(c, snap, obs, now, k, st).matches)
  {
    if k > 0 {
      RoundKeepsGreedy(c, snap, obs, now, st);
      RoundsKeepGreedy(c, snap, obs, now, k - 1, Round(c, snap, obs, now, st));
    }
  }

  /** Each round accepts at most one pair. */
  lemma {:induction false} RoundsAcceptAtMostOnePerRound(c: Config, snap: seq<Point>, obs: seq<Observation>, now: real, k: nat, st: Assoc)
    requires |st.objs| == |snap|
    ensures |st.matches| <= |Rounds(c, snap, obs, now, k, st).matches| <= |st.matches| + k
    ensures Rounds(c, snap, obs, now, k, st).matches[..|st.matches|] == st.matches
  {
    if k > 0 {
      var st1 := Round(c, snap, obs, now, st);
      assert |st.matches| <= |st1.matches| <= |st.matches| + 1;
      assert st1.matches[..|st.matches|] == st.matches;
      RoundsAcceptAtMostOnePerRound(c, snap, obs, now, k - 1, st1);
      var r := Rounds(c, snap, obs, now, k - 1, st1);
      assert r.matches[..|st.matches|] == r.matches[..|st1.matches|][..|st.matches|];
    }
  }

  /** A round that changes nothing (no unused pair, or the closest one is
      outside the distance gate) repeats in every later round: the
      remaining rounds change nothing either. */
  lemma {:induction false} StuckRoundIsFinal(c: Config, snap: seq<Point>, obs: seq<Observation>, now: real, k: nat, st: Assoc)
    requires |st.objs| == |snap|
    requires Round(c, snap, obs, now, st) == st
    ensures Rounds(c, snap, obs, now, k, st) == st
  {
    if k > 0 {
      StuckRoundIsFinal(c, snap, obs, now, k - 1, st);
    }
  }

  /** A match refused for class instability is not marked used, so every
      later round of the same update selects the same pair again, counts one
      more class change for that track and refuses again: no other pair is
      accepted for the rest of the loop. */
  lemma {:induction false} RefusedPairHoldsTheLoop(c: Config, snap: seq<Point>, obs: seq<Observation>, now: real, k: nat, st: Assoc, p: Pair)
    requires |st.objs| == |snap|
    requires Selected(snap, obs, st) == Some(p)
    requires WithinGate(SqDist(snap[p.t], obs[p.d].center), c.maxDistance)
    requires !Stability(c, st.objs[p.t], obs[p.d].className).0
    ensures Rounds(c, snap, obs, now, k, st).matches == st.matches
    ensures Rounds(c, snap, obs, now, k, st).objs ==
      st.objs[p.t := st.objs[p.t].(classChanges := st.objs[p.t].classChanges + k)]
  {
    var tr := st.objs[p.t];
    if k == 0 {
      assert tr.(classChanges := tr.classChanges + 0) == tr;
      assert st.objs[p.t := tr] == st.objs;
    } else {
      var tr1 := tr.(classChanges := tr.classChanges + 1);
      var st1 := Round(c, snap, obs, now, st);
      assert st1 == Assoc(st.objs[p.t := tr1], st.matches);
      assert Selected(snap, obs, st1) == Some(p);
      assert !Stability(c, tr1, obs[p.d].className).0;
      RefusedPairHoldsTheLoop(c, snap, obs, now, k - 1, st1, p);
      assert tr1.(classChanges := tr1.classChanges + (k - 1)) == tr.(classChanges := tr.classChanges + k);
      assert st.objs[p.t := tr1][p.t := tr.(classChanges := tr.classChanges + k)] ==
        st.objs[p.t := tr.(classChanges := tr.classChanges + k)];
    }
  }
}

=== FILE: robot_track.dfy ===
/** A tracked object of the robot trackers (Version2 and Version3) and the
    operations on one track: creation, the class-stability check and the
    acceptance of a matched detection. */
module RobotTrack {
  import opened Wrappers
  import opened Geometry
  import opened Categories
  import opened TrackMetrics

  /** The two tracker generations; they differ in the fixed choices below. */
  datatype Variant = V2 | V3

  /** Class changes tolerated before a match is refused (`> 3`, `> 4`). */
  function ClassChangeBudget(v: Variant): nat {
    if v == V2 then 3 else 4
  }

  /** Extra confidence a detection needs to start a new track. */
  function CreationMargin(v: Variant): real {
    if v == V2 then 0.1 else 0.05
  }

  function PositionCap(v: Variant): nat {
    if v == V2 then 15 else 12
  }

  function ConfidenceCap(v: Variant): nat {
    if v == V2 then 10 else 8
  }

  /** Constructor arguments and configuration constants of a tracker. The
      step-length function stands for the Euclidean norm the movement
      analysis uses (Version3 only). */
  datatype Config = Config(
    variant: Variant,
    maxDistance: int,
    maxDisappeared: int,
    minConsecutive: nat,
    minConfidence: real,
    reportCooldown: real,
    minPresence: real,
    maxPositionVariance: real,
    table: Table,
    stepLength: (Point, Point) -> real)

  /** One detection handed to `update`: its box centre, label and score. */
  datatype Observation = Observation(center: Point, className: string, confidence: real)

  datatype Track = Track(
    id: nat,
    center: Point,
    disappeared: nat,
    positions: seq<Point>,
    className: string,
    category: string,
    confidenceHistory: seq<real>,
    avgConfidence: real,
    consecutive: nat,
    firstSeen: real,
    lastSeen: real,
    lastReported: real,
    confirmed: bool,
    reported: bool,
    stableClass: string,
    classChanges: nat,
    positionVariance: real,
    movement: Option<Pattern>)

  /** The movement pattern a track carries: Version3 keeps one, Version2
      has no such field. */
  function MovementOf(c: Config, ps: seq<Point>): (m: Option<Pattern>)
    ensures m.Some? <==> c.variant == V3
    ensures c.variant == V3 && |ps| < 4 ==> m == Some(Static)
  {
    if c.variant == V3 then Some(MovementPattern(ps, c.stepLength)) else None
  }

  /** What every track satisfies between calls: bounded histories whose
      derived metrics are current, the centre is the newest position, the
      category matches the stable class, and only confirmed tracks have been
      reported. */
  ghost predicate WellFormed(c: Config, tr: Track) {
    1 <= |tr.positions| <= PositionCap(c.variant) &&
    tr.center == tr.positions[|tr.positions| - 1] &&
    1 <= |tr.confidenceHistory| <= ConfidenceCap(c.variant) &&
    tr.avgConfidence == Mean(tr.confidenceHistory) &&
    tr.positionVariance == PositionVariance(tr.positions) &&
    tr.movement == MovementOf(c, tr.positions) &&
    tr.category == ItemCategory(c.table, tr.stableClass) &&
    tr.consecutive >= 1 &&
    (tr.reported ==> tr.confirmed)
  }

  /** How a track may change while it lives: its identity, label and birth
      time are fixed, confirmation is never withdrawn, reporting is left to
      the report step, and the counters only grow. */
  predicate Evolves(a: Track, b: Track) {
    b.id == a.id && b.className == a.className && b.firstSeen == a.firstSeen &&
    (a.confirmed ==> b.confirmed) &&
    b.reported == a.reported && b.lastReported == a.lastReported &&
    a.classChanges <= b.classChanges && a.consecutive <= b.consecutive
  }

  lemma EvolvesTransitive(a: Track, b: Track, d: Track)
    requires Evolves(a, b) && Evolves(b, d)
    ensures Evolves(a, d)
  {
  }

  /** `register`: a fresh, unconfirmed track seen once at `now`. */
  function NewTrack(c: Config, id: nat, o: Observation, now: real): (tr: Track)
    ensures tr.id == id && tr.center == o.center && tr.disappeared == 0
    ensures tr.className == o.className && tr.stableClass == o.className
    ensures tr.avgConfidence == o.confidence && tr.consecutive == 1
    ensures tr.firstSeen == now && tr.lastSeen == now && tr.lastReported == 0.0
    ensures !tr.confirmed && !tr.reported && tr.classChanges == 0
  {
    Track(id, o.center, 0, [o.center], o.className, ItemCategory(c.table, o.className),
          [o.confidence], o.confidence, 1, now, now, 0.0, false, false, o.className, 0, 0.0,
          MovementOf(c, [o.center]))
  }

  /** A new track is well formed: its one position, its one confidence and
      the metrics of both agree. */
  lemma NewTrackWellFormed(c: Config, id: nat, o: Observation, now: real)
    ensures WellFormed(c, NewTrack(c, id, o, now))
  {
    MeanBounds([o.confidence], o.confidence, o.confidence);
  }

  /** Only the class-stability fields differ. */
  predicate StabilityOnly(a: Track, b: Track) {
    b == a.(classChanges := b.classChanges, stableClass := b.stableClass, category := b.category)
  }

  /** `_update_class_stability`: a label different from the stable class
      counts as a change; past the budget the match is refused, otherwise a
      track seen more than half the confirmation count adopts the new label.
      The boolean says whether the match may proceed. */
  function Stability(c: Config, tr: Track, newClass: string): (r: (bool, Track))
    ensures StabilityOnly(tr, r.1) && Evolves(tr, r.1)
    ensures tr.stableClass == newClass ==> r == (true, tr)
    ensures !r.0 ==> r.1 == tr.(classChanges := tr.classChanges + 1)
    ensures tr.stableClass != newClass ==>
      r.1.classChanges == tr.classChanges + 1 &&
      (r.0 <==> r.1.classChanges <= ClassChangeBudget(c.variant))
    ensures r.1.stableClass != tr.stableClass ==>
      r.0 && r.1.stableClass == newClass && tr.consecutive > c.minConsecutive / 2
    ensures r.0 && tr.stableClass != newClass && tr.consecutive > c.minConsecutive / 2 ==>
      r.1.stableClass == newClass
  {
    if tr.stableClass == newClass then (true, tr)
    else
      var changed := tr.(classChanges := tr.classChanges + 1);
      if changed.classChanges > ClassChangeBudget(c.variant) then (false, changed)
      else if changed.consecutive > c.minConsecutive / 2 then
        (true, changed.(stableClass := newClass, category := ItemCategory(c.table, newClass)))
      else (true, changed)
  }

  /** The class-stability step keeps a track well formed: a new stable
      class comes with its own category. */
  lemma StabilityKeepsWellFormed(c: Config, tr: Track, newClass: string)
    requires WellFormed(c, tr)
    ensures WellFormed(c, Stability(c, tr, newClass).1)
  {
  }

  /** The confirmation criteria checked after a match (Version2 also bounds
      the positional variance). */
  predicate Qualifies(c: Config, tr: Track, now: real) {
    tr.consecutive >= c.minConsecutive &&
    tr.avgConfidence >= c.minConfidence &&
    now - tr.firstSeen >= c.minPresence &&
    (c.variant == V2 ==> tr.positionVariance <= c.maxPositionVariance)
  }

  /** A matched track moved to the detection: absence reset, histories
      extended and trimmed, metrics recomputed; confirmation untouched. */
  function Moved(c: Config, tr: Track, o: Observation, now: real): (r: Track)
    ensures r.id == tr.id && r.className == tr.className && r.firstSeen == tr.firstSeen
    ensures r.confirmed == tr.confirmed && r.reported == tr.reported && r.lastReported == tr.lastReported
    ensures r.stableClass == tr.stableClass && r.category == tr.category && r.classChanges == tr.classChanges
    ensures r.center == o.center && r.disappeared == 0 && r.lastSeen == now
    ensures r.consecutive == tr.consecutive + 1
    ensures r.positions == Push(tr.positions, o.center, PositionCap(c.variant))
    ensures r.confidenceHistory == Push(tr.confidenceHistory, o.confidence, ConfidenceCap(c.variant))
    ensures r.avgConfidence == Mean(r.confidenceHistory) && r.positionVariance == PositionVariance(r.positions)
    ensures r.movement == MovementOf(c, r.positions)
    ensures |tr.confidenceHistory| < ConfidenceCap(c.variant) ==> r.confidenceHistory == tr.confidenceHistory + [o.confidence]
  {
    var ps := Push(tr.positions, o.center, PositionCap(c.variant));
    var hs := Push(tr.confidenceHistory, o.confidence, ConfidenceCap(c.variant));
    assert |tr.confidenceHistory| < ConfidenceCap(c.variant) ==> hs == tr.confidenceHistory + [o.confidence];
    Track(tr.id, o.center, 0, ps, tr.className, tr.category, hs, Mean(hs),
          tr.consecutive + 1, tr.firstSeen, now, tr.lastReported, tr.confirmed,
          tr.reported, tr.stableClass, tr.classChanges, PositionVariance(ps),
          MovementOf(c, ps))
  }

  /** The body of a successful match: move the track to the detection, reset
      its absence, extend and trim its histories, refresh the metrics and
      confirm it once it qualifies. */
  function Accept(c: Config, tr: Track, o: Observation, now: real): (r: Track)
    ensures Evolves(tr, r)
    ensures r.center == o.center && r.disappeared == 0 && r.lastSeen == now
    ensures r.consecutive == tr.consecutive + 1
    ensures r.positions == Push(tr.positions, o.center, PositionCap(c.variant))
    ensures r.confidenceHistory == Push(tr.confidenceHistory, o.confidence, ConfidenceCap(c.variant))
    ensures |tr.confidenceHistory| < ConfidenceCap(c.variant) ==> r.confidenceHistory == tr.confidenceHistory + [o.confidence]
    ensures r.confirmed <==> tr.confirmed || Qualifies(c, r, now)
    ensures r.stableClass == tr.stableClass && r.category == tr.category && r.classChanges == tr.classChanges
  {
    var moved := Moved(c, tr, o, now);
    moved.(confirmed := moved.confirmed || Qualifies(c, moved, now))
  }

  /** A match keeps a track well formed: the histories stay within their
      caps and every derived metric is recomputed from them. */
  lemma AcceptKeepsWellFormed(c: Config, tr: Track, o: Observation, now: real)
    requires WellFormed(c, tr)
    ensures WellFormed(c, Accept(c, tr, o, now))
  {
  }
}

=== FILE: robot_tracker.dfy ===
/** The track table of the robot trackers and its `update` step. The table is
    a sequence in ascending id order, which is the insertion order of the
    original dictionary: ids come from an increasing counter and a removed id
    is never inserted again. */
module RobotTracker {
  import opened Wrappers
  import opened Geometry
  import opened Association
  import opened RobotTrack
  import opened RobotRounds

  datatype Tracker = Tracker(objects: seq<Track>, nextId: nat)

  /** `ObjectTracker()`: no tracks, ids start at zero. */
  const Empty := Tracker([], 0)

  predicate IdsAscending(objs: seq<Track>) {
    forall i, j | 0 <= i < j < |objs| :: objs[i].id < objs[j].id
  }

  /** The table invariant: ids ascending and already issued, every track well
      formed. */
  ghost predicate Valid(c: Config, t: Tracker) {
    IdsAscending(t.objects) &&
    forall i | 0 <= i < |t.objects| :: t.objects[i].id < t.nextId && WellFormed(c, t.objects[i])
  }

  lemma EmptyIsValid(c: Config)
    ensures Valid(c, Empty)
  {
  }

  /** The detections at or above the confidence threshold, in their order. */
  function Confident(obs: seq<Observation>, threshold: real): (r: seq<Observation>)
    ensures |r| <= |obs|
    ensures forall o | o in r :: o in obs && o.confidence >= threshold
    ensures forall i | 0 <= i < |obs| && obs[i].confidence >= threshold :: obs[i] in r
  {
    if |obs| == 0 then []
    else
      var rest := Confident(obs[..|obs| - 1], threshold);
      var o := obs[|obs| - 1];
      if o.confidence >= threshold then rest + [o] else rest
  }

  lemma {:induction false} NoneConfident(obs: seq<Observation>, threshold: real)
    requires forall i | 0 <= i < |obs| :: obs[i].confidence < threshold
    ensures Confident(obs, threshold) == []
  {
    if |obs| > 0 {
      NoneConfident(obs[..|obs| - 1], threshold);
    }
  }

  /** The positions of the detections at or above the threshold. */
  ghost function ConfidentIndices(obs: seq<Observation>, threshold: real): set<nat> {
    set i: nat | i < |obs| && obs[i].confidence >= threshold
  }

  /** The filter keeps one entry per detection at or above the threshold, so
      repeated detections are kept as often as they occur. */
  lemma {:induction false} ConfidentCountsIndices(obs: seq<Observation>, threshold: real)
    ensures |Confident(obs, threshold)| == |ConfidentIndices(obs, threshold)|
    decreases |obs|
  {
    if |obs| > 0 {
      var n := |obs| - 1;
      ConfidentCountsIndices(obs[..n], threshold);
      ConfidentIndicesSnoc(obs, threshold);
    }
  }

  lemma ConfidentIndicesSnoc(obs: seq<Observation>, threshold: real)
    requires |obs| > 0
    ensures |ConfidentIndices(obs, threshold)|
      == |ConfidentIndices(obs[..|obs| - 1], threshold)| + (if obs[|obs| - 1].confidence >= threshold then 1 else 0)
  {
    var n := |obs| - 1;
    var extra: set<nat> := if obs[n].confidence >= threshold then {n} else {};
    assert ConfidentIndices(obs, threshold) == ConfidentIndices(obs[..n], threshold) + extra;
    assert n !in ConfidentIndices(obs[..n], threshold);
  }

  /** The filter keeps detection order: filtering a concatenation filters
      each part and concatenates the results. */
  lemma {:induction false} ConfidentSplits(a: seq<Observation>, b: seq<Observation>, threshold: real)
    ensures Confident(a + b, threshold) == Confident(a, threshold) + Confident(b, threshold)
    decreases |b|
  {
    if |b| > 0 {
      var n := |b| - 1;
      assert (a + b)[..|a + b| - 1] == a + b[..n];
      ConfidentSplits(a, b[..n], threshold);
      AppendAssociates(Confident(a, threshold), Confident(b[..n], threshold), [b[n]]);
    } else {
      assert a + b == a;
    }
  }

  /** `deregister`: drop the track with this id; no effect when it is absent. */
  function Deregister(objs: seq<Track>, id: nat): (r: seq<Track>)
    ensures forall x | x in r :: x in objs && x.id != id
    ensures forall x | x in objs && x.id != id :: x in r
    ensures (forall x | x in objs :: x.id != id) ==> r == objs
  {
    if |objs| == 0 then []
    else
      var rest := Deregister(objs[..|objs| - 1], id);
      var x := objs[|objs| - 1];
      assert objs == objs[..|objs| - 1] + [x];
      if x.id == id then rest else rest + [x]
  }

  /** An unmatched track counts one more frame of absence. */
  function Absent(tr: Track): Track {
    tr.(disappeared := tr.disappeared + 1)
  }

  /** The track as the ageing pass leaves it: unchanged when matched, one
      frame older otherwise. */
  function AfterAgeing(tr: Track, matched: bool): Track {
    if matched then tr else Absent(tr)
  }

  /** Whether the ageing pass keeps the track: matched tracks always, others
      while their absence count does not exceed the limit. */
  predicate Kept(c: Config, tr: Track, matched: bool) {
    matched || tr.disappeared + 1 <= c.maxDisappeared
  }

  /** The ageing pass over the tracks present before the association: every
      track whose index was not matched counts an absent frame and is
      deregistered once that count exceeds `maxDisappeared`. The pass reads
      as the counting tracker's one, but over this tracker's own `Track` and
      `Config`; a shared version would need accessor parameters in every
      contract and invariant that mentions it, so each tracker keeps its own
      copy (`Absent`, `Kept` and the order lemma alike). */
  function AgeUnmatched(c: Config, objs: seq<Track>, used: set<nat>): (r: seq<Track>)
    ensures |r| <= |objs|
    ensures forall i | 0 <= i < |objs| && Kept(c, objs[i], i in used) :: AfterAgeing(objs[i], i in used) in r
    ensures forall x | x in r :: exists i | 0 <= i < |objs| :: Kept(c, objs[i], i in used) && x == AfterAgeing(objs[i], i in used)
  {
    if |objs| == 0 then []
    else
      var n := |objs| - 1;
      var rest := AgeUnmatched(c, objs[..n], used);
      var x := AfterAgeing(objs[n], n in used);
      if Kept(c, objs[n], n in used) then rest + [x] else rest
  }

  /** Ageing deregisters a dropped track: no track of the aged table carries
      its id, and every aged track comes from one that `Deregister` of that id
      keeps; deregistering it again changes nothing. */
  lemma DroppedTrackIsDeregistered(c: Config, objs: seq<Track>, used: set<nat>, i: nat)
    requires IdsAscending(objs) && i < |objs| && !Kept(c, objs[i], i in used)
    ensures forall x | x in AgeUnmatched(c, objs, used) ::
      x.id != objs[i].id && exists y | y in Deregister(objs, objs[i].id) :: y.id == x.id
    ensures Deregister(AgeUnmatched(c, objs, used), objs[i].id) == AgeUnmatched(c, objs, used)
  {
    forall x | x in AgeUnmatched(c, objs, used)
      ensures x.id != objs[i].id && exists y | y in Deregister(objs, objs[i].id) :: y.id == x.id
    {
      var j :| 0 <= j < |objs| && Kept(c, objs[j], j in used) && x == AfterAgeing(objs[j], j in used);
      assert j != i;
      assert objs[j] in Deregister(objs, objs[i].id);
    }
  }

  /** Ageing keeps ids, so it keeps any bound on them. */
  lemma AgedIdsBelow(c: Config, objs: seq<Track>, used: set<nat>, bound: nat)
    requires forall i | 0 <= i < |objs| :: objs[i].id < bound
    ensures forall y | y in AgeUnmatched(c, objs, used) :: y.id < bound
  {
    forall y | y in AgeUnmatched(c, objs, used) ensures y.id < bound {
      var i :| 0 <= i < |objs| && Kept(c, objs[i], i in used) && y == AfterAgeing(objs[i], i in used);
    }
  }

  /** Appending a track above every id keeps the ids ascending. */
  lemma AppendKeepsAscending(objs: seq<Track>, x: Track)
    requires IdsAscending(objs) && forall y | y in objs :: y.id < x.id
    ensures IdsAscending(objs + [x])
  {
    var r := objs + [x];
    forall i, j | 0 <= i < j < |r| ensures r[i].id < r[j].id {
      assert r[i] == objs[i];
      if j < |objs| {
        assert r[j] == objs[j];
      } else {
        assert objs[i] in objs;
      }
    }
  }

  /** Ageing removes tracks but never reorders them. */
  lemma {:induction false} AgeUnmatchedKeepsOrder(c: Config, objs: seq<Track>, used: set<nat>)
    requires IdsAscending(objs)
    ensures IdsAscending(AgeUnmatched(c, objs, used))
  {
    if |objs| > 0 {
      var n := |objs| - 1;
      var rest := AgeUnmatched(c, objs[..n], used);
      AgeUnmatchedKeepsOrder(c, objs[..n], used);
      AgedIdsBelow(c, objs[..n], used, objs[n].id);
      var x := AfterAgeing(objs[n], n in used);
      if Kept(c, objs[n], n in used) {
        assert AgeUnmatched(c, objs, used) == rest + [x];
        AppendKeepsAscending(rest, x);
      }
    }
  }

  /** The tracks `register` creates for the observations, one per
      observation, numbered upwards from `nextId`. */
  function NewTracks(c: Config, nextId: nat, os: seq<Observation>, now: real): (r: seq<Track>)
    ensures |r| == |os|
    ensures forall k | 0 <= k < |os| :: r[k] == NewTrack(c, nextId + k, os[k], now)
  {
    seq(|os|, k requires 0 <= k < |os| => NewTrack(c, nextId + k, os[k], now))
  }

  /** Each new track is well formed, unconfirmed, unreported and carries
      its issued id. */
  lemma NewTracksFacts(c: Config, nextId: nat, os: seq<Observation>, now: real)
    ensures forall k | 0 <= k < |os| ::
      var x := NewTracks(c, nextId, os, now)[k];
      x.id == nextId + k && !x.confirmed && !x.reported && WellFormed(c, x)
  {
    var r := NewTracks(c, nextId, os, now);
    forall k | 0 <= k < |os| ensures r[k].id == nextId + k && !r[k].confirmed && !r[k].reported && WellFormed(c, r[k]) {
      assert r[k] == NewTrack(c, nextId + k, os[k], now);
      NewTrackWellFormed(c, nextId + k, os[k], now);
    }
  }

  /** Registers the observations in order: the table grows by the new
      tracks and the counter by their number. */
  function RegisterAll(c: Config, t: Tracker, os: seq<Observation>, now: real): (r: Tracker)
    ensures r.nextId == t.nextId + |os|
    ensures r.objects == t.objects + NewTracks(c, t.nextId, os, now)
  {
    Tracker(t.objects + NewTracks(c, t.nextId, os, now), t.nextId + |os|)
  }

  /** Appending a well-formed track under the next id keeps the table
      valid. */
  lemma AppendKeepsValid(c: Config, objs: seq<Track>, nextId: nat, x: Track)
    requires Valid(c, Tracker(objs, nextId)) && x.id == nextId && WellFormed(c, x)
    ensures Valid(c, Tracker(objs + [x], nextId + 1))
  {
    AppendKeepsAscending(objs, x);
    var r := objs + [x];
    forall i | 0 <= i < |r| ensures r[i].id < nextId + 1 && WellFormed(c, r[i]) {
      if i < |objs| {
        assert r[i] == objs[i];
      }
    }
  }

  /** Registering a batch is registering all but its last element, then
      appending the last one's track. */
  lemma NewTracksSnoc(c: Config, nextId: nat, os: seq<Observation>, now: real)
    requires |os| > 0
    ensures NewTracks(c, nextId, os, now) ==
      NewTracks(c, nextId, os[..|os| - 1], now) + [NewTrack(c, nextId + |os| - 1, os[|os| - 1], now)]
  {
    var n := |os| - 1;
    var lhs := NewTracks(c, nextId, os, now);
    var rhs := NewTracks(c, nextId, os[..n], now) + [NewTrack(c, nextId + n, os[n], now)];
    forall k | 0 <= k < |os| ensures lhs[k] == rhs[k] {
      if k < n {
        assert os[..n][k] == os[k];
      }
    }
  }

  lemma RegisterAllSnoc(c: Config, t: Tracker, os: seq<Observation>, now: real)
    requires |os| > 0
    ensures RegisterAll(c, t, os, now) ==
      Tracker(RegisterAll(c, t, os[..|os| - 1], now).objects + [NewTrack(c, t.nextId + |os| - 1, os[|os| - 1], now)],
              t.nextId + |os|)
  {
    var n := |os| - 1;
    NewTracksSnoc(c, t.nextId, os, now);
    AppendAssociates(t.objects, NewTracks(c, t.nextId, os[..n], now), [NewTrack(c, t.nextId + n, os[n], now)]);
  }

  /** Registration keeps the table valid: the new tracks are well formed
      and numbered upwards from the counter. */
  lemma {:induction false} RegisterAllKeepsValid(c: Config, t: Tracker, os: seq<Observation>, now: real)
    requires Valid(c, t)
    ensures Valid(c, RegisterAll(c, t, os, now))
    decreases |os|
  {
    if |os| > 0 {
      var n := |os| - 1;
      RegisterAllKeepsValid(c, t, os[..n], now);
      var mid := RegisterAll(c, t, os[..n], now);
      NewTrackWellFormed(c, t.nextId + n, os[n], now);
      AppendKeepsValid(c, mid.objects, mid.nextId, NewTrack(c, t.nextId + n, os[n], now));
      RegisterAllSnoc(c, t, os, now);
    }
  }

  /** The confident detections no track claimed that clear the stricter
      creation threshold, in detection order. */
  function Unclaimed(c: Config, f: seq<Observation>, used: set<nat>): (r: seq<Observation>)
    ensures forall o | o in r :: o.confidence >= c.minConfidence + CreationMargin(c.variant)
    ensures forall o | o in r :: exists j | 0 <= j < |f| :: j !in used && f[j] == o
    ensures forall j | 0 <= j < |f| && j !in used && f[j].confidence >= c.minConfidence + CreationMargin(c.variant) :: f[j] in r
  {
    if |f| == 0 then []
    else
      var n := |f| - 1;
      var rest := Unclaimed(c, f[..n], used);
      if n !in used && f[n].confidence >= c.minConfidence + CreationMargin(c.variant) then rest + [f[n]] else rest
  }

  /** The positions of the detections the pass registers. */
  ghost function UnclaimedIndices(c: Config, f: seq<Observation>, used: set<nat>): set<nat> {
    set j: nat | j < |f| && j !in used && f[j].confidence >= c.minConfidence + CreationMargin(c.variant)
  }

  /** One new track per unclaimed detection that clears the creation
      threshold, repeated detections included. */
  lemma {:induction false} UnclaimedCountsIndices(c: Config, f: seq<Observation>, used: set<nat>)
    ensures |Unclaimed(c, f, used)| == |UnclaimedIndices(c, f, used)|
    decreases |f|
  {
    if |f| > 0 {
      var n := |f| - 1;
      UnclaimedCountsIndices(c, f[..n], used);
      UnclaimedIndicesSnoc(c, f, used);
    }
  }

  lemma UnclaimedIndicesSnoc(c: Config, f: seq<Observation>, used: set<nat>)
    requires |f| > 0
    ensures |UnclaimedIndices(c, f, used)| == |UnclaimedIndices(c, f[..|f| - 1], used)|
      + (if |f| - 1 !in used && f[|f| - 1].confidence >= c.minConfidence + CreationMargin(c.variant) then 1 else 0)
  {
    var n := |f| - 1;
    var extra: set<nat> :=
      if n !in used && f[n].confidence >= c.minConfidence + CreationMargin(c.variant) then {n} else {};
    assert UnclaimedIndices(c, f, used) == UnclaimedIndices(c, f[..n], used) + extra;
    assert n !in UnclaimedIndices(c, f[..n], used);
  }

  /** One step of the registration pass: a detection appended after `p` is
      registered after those of `p` when it is unclaimed and confident
      enough. */
  lemma UnclaimedStep(c: Config, f: seq<Observation>, used: set<nat>, p: seq<Observation>, x: Observation)
    requires f == p + [x]
    ensures Unclaimed(c, f, used) == Unclaimed(c, p, used)
      + (if |p| !in used && x.confidence >= c.minConfidence + CreationMargin(c.variant) then [x] else [])
  {
    assert f[..|f| - 1] == p;
  }

  /** Registration follows detection order: the unclaimed detections of a
      concatenation are those of the first part followed by those of the
      second, whose positions are offset by the first part's length. */
  lemma {:induction false} UnclaimedSplits(c: Config, a: seq<Observation>, b: seq<Observation>, used: set<nat>)
    ensures Unclaimed(c, a + b, used) == Unclaimed(c, a, used) + Unclaimed(c, b, Shift(used, |a|))
    decreases |b|
  {
    if |b| > 0 {
      var n := |b| - 1;
      var sh := Shift(used, |a|);
      var p := a + b[..n];
      assert b == b[..n] + [b[n]];
      assert a + b == p + [b[n]];
      assert |p| in used <==> n in sh;
      UnclaimedStep(c, b, sh, b[..n], b[n]);
      UnclaimedStep(c, a + b, used, p, b[n]);
      UnclaimedSplits(c, a, b[..n], used);
      var last: seq<Observation> :=
        if n !in sh && b[n].confidence >= c.minConfidence + CreationMargin(c.variant) then [b[n]] else [];
      AppendAssociates(Unclaimed(c, a, used), Unclaimed(c, b[..n], sh), last);
    } else {
      assert a + b == a;
    }
  }

  function Min(a: nat, b: nat): nat {
    if a <= b then a else b
  }

  /** The association loop of one `update`, from the table as it stood. */
  function Associate(c: Config, objs: seq<Track>, f: seq<Observation>, now: real): (a: Assoc)
    ensures |a.objs| == |objs|
  {
    Rounds(c, Centers(objs), f, now, Min(|objs|, |f|), Assoc(objs, []))
  }

  /** `update` on one frame's detections at time `now`. */
  function Update(c: Config, t: Tracker, dets: seq<Observation>, now: real): (r: Tracker)
    ensures r.nextId >= t.nextId
  {
    var f := Confident(dets, c.minConfidence);
    if |dets| == 0 || |f| == 0 then
      Tracker(AgeUnmatched(c, t.objects, {}), t.nextId)
    else if |t.objects| == 0 then
      RegisterAll(c, t, Unclaimed(c, f, {}), now)
    else
      var a := Associate(c, t.objects, f, now);
      RegisterAll(c, Tracker(AgeUnmatched(c, a.objs, UsedTracks(a.matches)), t.nextId),
                  Unclaimed(c, f, UsedDetections(a.matches)), now)
  }

  /** Ageing keeps the table valid: it drops tracks and touches only the
      absence counter of the rest. */
  lemma AgeingKeepsValid(c: Config, objs: seq<Track>, used: set<nat>, nextId: nat)
    requires Valid(c, Tracker(objs, nextId))
    ensures Valid(c, Tracker(AgeUnmatched(c, objs, used), nextId))
  {
    AgeUnmatchedKeepsOrder(c, objs, used);
    var r := AgeUnmatched(c, objs, used);
    forall k | 0 <= k < |r| ensures r[k].id < nextId && WellFormed(c, r[k]) {
      assert r[k] in r;
      var i :| 0 <= i < |objs| && Kept(c, objs[i], i in used) && r[k] == AfterAgeing(objs[i], i in used);
    }
  }

  /** The association loop of a valid table leaves a consistent state whose
      tracks, in the same order, still form a valid table. */
  lemma AssociateIsConsistent(c: Config, t: Tracker, f: seq<Observation>, now: real)
    requires Valid(c, t)
    ensures Consistent(c, t.objects, Centers(t.objects), f, now, Associate(c, t.objects, f, now))
    ensures Valid(c, Tracker(Associate(c, t.objects, f, now).objs, t.nextId))
  {
    var snap := Centers(t.objects);
    StartIsConsistent(c, t.objects, f, now);
    RoundsKeepConsistent(c, t.objects, snap, f, now, Min(|t.objects|, |f|), Assoc(t.objects, []));
    var a := Associate(c, t.objects, f, now);
    forall i, j | 0 <= i < j < |a.objs| ensures a.objs[i].id < a.objs[j].id {
      assert Evolves(t.objects[i], a.objs[i]) && Evolves(t.objects[j], a.objs[j]);
    }
    forall i | 0 <= i < |a.objs| ensures a.objs[i].id < t.nextId && WellFormed(c, a.objs[i]) {
      assert Evolves(t.objects[i], a.objs[i]);
    }
  }

  /** The association loop pairs tracks and detections one-to-one, only
      inside the distance gate, at most one pair per round, each pair being
      the first closest among those still unused when it was taken. */
  lemma AssociationIsGreedyMatching(c: Config, t: Tracker, f: seq<Observation>, now: real)
    requires Valid(c, t)
    ensures var a := Associate(c, t.objects, f, now);
      PairsGated(c, Centers(t.objects), f, a.matches) &&
      OneToOne(a.matches) &&
      Greedy(Centers(t.objects), ObservedCenters(f), a.matches) &&
      |a.matches| <= Min(|t.objects|, |f|)
  {
    AssociateIsConsistent(c, t, f, now);
    var snap := Centers(t.objects);
    RoundsKeepGreedy(c, snap, f, now, Min(|t.objects|, |f|), Assoc(t.objects, []));
    RoundsAcceptAtMostOnePerRound(c, snap, f, now, Min(|t.objects|, |f|), Assoc(t.objects, []));
  }

  /** `update` keeps the table invariant. */
  lemma UpdateKeepsValid(c: Config, t: Tracker, dets: seq<Observation>, now: real)
    requires Valid(c, t)
    ensures Valid(c, Update(c, t, dets, now))
  {
    var f := Confident(dets, c.minConfidence);
    if |dets| == 0 || |f| == 0 {
      AgeingKeepsValid(c, t.objects, {}, t.nextId);
    } else if |t.objects| == 0 {
      RegisterAllKeepsValid(c, t, Unclaimed(c, f, {}), now);
    } else {
      var a := Associate(c, t.objects, f, now);
      AssociateIsConsistent(c, t, f, now);
      AgeingKeepsValid(c, a.objs, UsedTracks(a.matches), t.nextId);
      RegisterAllKeepsValid(c, Tracker(AgeUnmatched(c, a.objs, UsedTracks(a.matches)), t.nextId),
                            Unclaimed(c, f, UsedDetections(a.matches)), now);
    }
  }

  /** After ageing, every track is an evolved form of the track at its
      index before the association. */
  lemma AgeingOnlyEvolves(c: Config, objs0: seq<Track>, objs: seq<Track>, used: set<nat>, nextId: nat)
    requires |objs| == |objs0|
    requires forall i | 0 <= i < |objs| :: Evolves(objs0[i], objs[i]) && objs0[i].id < nextId
    ensures forall x | x in AgeUnmatched(c, objs, used) :: Descends(objs0, nextId, x)
  {
    forall x | x in AgeUnmatched(c, objs, used)
      ensures x.id < nextId && exists i | 0 <= i < |objs0| :: Evolves(objs0[i], x)
    {
      var i :| 0 <= i < |objs| && Kept(c, objs[i], i in used) && x == AfterAgeing(objs[i], i in used);
      assert Evolves(objs0[i], x);
    }
  }

  /** A track that evolved from one of `objs0` under an id already issued. */
  ghost predicate Descends(objs0: seq<Track>, nextId: nat, x: Track) {
    x.id < nextId && exists i | 0 <= i < |objs0| :: Evolves(objs0[i], x)
  }

  /** Registration keeps the tracks it is given and appends only fresh
      ones, numbered from the counter, neither confirmed nor reported. */
  lemma RegisteredAreFresh(c: Config, objs0: seq<Track>, base: Tracker, os: seq<Observation>, now: real)
    requires forall x | x in base.objects :: Descends(objs0, base.nextId, x)
    ensures forall x | x in RegisterAll(c, base, os, now).objects ::
      Descends(objs0, base.nextId, x) || (x.id >= base.nextId && !x.confirmed && !x.reported)
  {
    var born := NewTracks(c, base.nextId, os, now);
    NewTracksFacts(c, base.nextId, os, now);
    var all := base.objects + born;
    forall x | x in all ensures Descends(objs0, base.nextId, x) || (x.id >= base.nextId && !x.confirmed && !x.reported) {
      var k :| 0 <= k < |all| && all[k] == x;
      if k < |base.objects| {
        assert x == base.objects[k];
        assert x in base.objects;
      } else {
        assert x == born[k - |base.objects|];
      }
    }
  }

  /** Where each track after `update` comes from: an id below the old
      counter belongs to a track that was already in the table and only
      evolved; any other id is a fresh, unconfirmed, unreported track. So an
      id that left the table never comes back. */
  lemma UpdateNeverReusesIds(c: Config, t: Tracker, dets: seq<Observation>, now: real)
    requires Valid(c, t)
    ensures forall x | x in Update(c, t, dets, now).objects ::
      (x.id < t.nextId && exists i | 0 <= i < |t.objects| :: Evolves(t.objects[i], x)) ||
      (x.id >= t.nextId && !x.confirmed && !x.reported)
  {
    var r := Update(c, t, dets, now);
    var f := Confident(dets, c.minConfidence);
    var base: seq<Track>, os: seq<Observation>;
    if |dets| == 0 || |f| == 0 {
      AgeingOnlyEvolves(c, t.objects, t.objects, {}, t.nextId);
      base, os := AgeUnmatched(c, t.objects, {}), [];
    } else if |t.objects| == 0 {
      base, os := [], Unclaimed(c, f, {});
    } else {
      var a := Associate(c, t.objects, f, now);
      AssociateIsConsistent(c, t, f, now);
      AgeingOnlyEvolves(c, t.objects, a.objs, UsedTracks(a.matches), t.nextId);
      base, os := AgeUnmatched(c, a.objs, UsedTracks(a.matches)), Unclaimed(c, f, UsedDetections(a.matches));
    }
    assert r == RegisterAll(c, Tracker(base, t.nextId), os, now);
    RegisteredAreFresh(c, t.objects, Tracker(base, t.nextId), os, now);
  }

  /** A track whose absence count stays within `maxDisappeared` after this
      frame is still in the table after `update`, matched or not. */
  lemma UpdateKeepsRecentTracks(c: Config, t: Tracker, dets: seq<Observation>, now: real, i: nat)
    requires Valid(c, t)
    requires i < |t.objects| && t.objects[i].disappeared + 1 <= c.maxDisappeared
    ensures exists x | x in Update(c, t, dets, now).objects :: x.id == t.objects[i].id
  {
    var r := Update(c, t, dets, now);
    var f := Confident(dets, c.minConfidence);
    if |dets| == 0 || |f| == 0 {
      assert AfterAgeing(t.objects[i], i in {}) in r.objects;
    } else {
      var a := Associate(c, t.objects, f, now);
      AssociateIsConsistent(c, t, f, now);
      var used := UsedTracks(a.matches);
      var aged := AgeUnmatched(c, a.objs, used);
      assert i in used || StabilityOnly(t.objects[i], a.objs[i]);
      assert Kept(c, a.objs[i], i in used);
      var x := AfterAgeing(a.objs[i], i in used);
      assert x in aged;
      assert r.objects[..|aged|] == aged;
      assert x in r.objects;
    }
  }

  /** Without a detection at or above the confidence threshold, `update`
      only ages every track. */
  lemma NoConfidentDetectionOnlyAges(c: Config, t: Tracker, dets: seq<Observation>, now: real)
    requires forall i | 0 <= i < |dets| :: dets[i].confidence < c.minConfidence
    ensures Update(c, t, dets, now) == Tracker(AgeUnmatched(c, t.objects, {}), t.nextId)
  {
    NoneConfident(dets, c.minConfidence);
  }

  /** On an empty table `update` registers, in order, the confident
      detections that clear the creation threshold. */
  lemma FirstFrameRegistersConfident(c: Config, t: Tracker, dets: seq<Observation>, now: real)
    requires t.objects == []
    ensures Update(c, t, dets, now) == RegisterAll(c, t, Unclaimed(c, Confident(dets, c.minConfidence), {}), now)
  {
    var f := Confident(dets, c.minConfidence);
    if |dets| == 0 || |f| == 0 {
      assert Unclaimed(c, f, {}) == [];
    }
  }
}

=== FILE: track_metrics.dfy ===
/** Per-track quality metrics: bounded histories, the mean confidence, the
    positional variance and the coarse movement pattern. Numbers are exact
    reals; the floating-point rounding of the original is not modelled. */
module TrackMetrics {
  import opened Geometry

  /** The newest `cap` elements of a history (`s[-cap:]` once it is longer). */
  function Window<T>(s: seq<T>, cap: nat): (r: seq<T>)
    ensures |r| == if |s| > cap then cap else |s|
    ensures r == s[|s| - |r|..]
  {
    if |s| > cap then s[|s| - cap..] else s
  }

  /** Appends a sample and trims the history back to its capacity. */
  function Push<T>(s: seq<T>, x: T, cap: nat): (r: seq<T>)
    requires cap >= 1
    ensures 1 <= |r| <= cap
    ensures |r| == if |s| + 1 > cap then cap else |s| + 1
    ensures r[|r| - 1] == x
    ensures r[..|r| - 1] == s[|s| + 1 - |r|..]
    ensures |s| < cap ==> r == s + [x]
  {
    var r := Window(s + [x], cap);
    assert r == (s + [x])[|s| + 1 - |r|..];
    assert r[..|r| - 1] == s[|s| + 1 - |r|..];
    r
  }

  function Sum(s: seq<real>): real {
    if |s| == 0 then 0.0 else Sum(s[..|s| - 1]) + s[|s| - 1]
  }

  /** `np.mean` of a non-empty history. */
  function Mean(s: seq<real>): real
    requires |s| > 0
  {
    Sum(s) / (|s| as real)
  }

  lemma {:induction false} SumAtLeast(s: seq<real>, lo: real)
    requires forall i | 0 <= i < |s| :: lo <= s[i]
    ensures (|s| as real) * lo <= Sum(s)
  {
    if |s| > 0 {
      SumAtLeast(s[..|s| - 1], lo);
    }
  }

  lemma {:induction false} SumAtMost(s: seq<real>, hi: real)
    requires forall i | 0 <= i < |s| :: s[i] <= hi
    ensures Sum(s) <= (|s| as real) * hi
  {
    if |s| > 0 {
      SumAtMost(s[..|s| - 1], hi);
    }
  }

  lemma QuotientBounds(a: real, n: real, lo: real, hi: real)
    requires n > 0.0 && n * lo <= a <= n * hi
    ensures lo <= a / n <= hi
  {
    assert a / n - lo == (a - n * lo) / n;
    assert hi - a / n == (n * hi - a) / n;
  }

  /** The mean lies within any bounds every sample respects; in particular the
      mean of a one-sample history is that sample. */
  lemma MeanBounds(s: seq<real>, lo: real, hi: real)
    requires |s| > 0
    requires forall i | 0 <= i < |s| :: lo <= s[i] <= hi
    ensures lo <= Mean(s) <= hi
  {
    SumAtLeast(s, lo);
    SumAtMost(s, hi);
    QuotientBounds(Sum(s), |s| as real, lo, hi);
  }

  function Squares(s: seq<real>, mu: real): (r: seq<real>)
    ensures |r| == |s|
    ensures forall i | 0 <= i < |s| :: r[i] == (s[i] - mu) * (s[i] - mu)
  {
    seq(|s|, i requires 0 <= i < |s| => (s[i] - mu) * (s[i] - mu))
  }

  /** `np.var`: the population variance, the mean squared deviation. */
  function PopVariance(s: seq<real>): real
    requires |s| > 0
  {
    Mean(Squares(s, Mean(s)))
  }

  lemma PopVarianceNonNegative(s: seq<real>)
    requires |s| > 0
    ensures PopVariance(s) >= 0.0
  {
    var sq := Squares(s, Mean(s));
    forall i | 0 <= i < |sq| ensures 0.0 <= sq[i] {
      var e := s[i] - Mean(s);
      assert sq[i] == e * e;
    }
    SumAtLeast(sq, 0.0);
    QuotientBounds(Sum(sq), |sq| as real, 0.0, Sum(sq) / (|sq| as real) + 1.0);
  }

  /** A history whose samples all agree has that sample as its mean and no
      spread. */
  lemma ConstantHasNoVariance(s: seq<real>, c: real)
    requires |s| > 0
    requires forall i | 0 <= i < |s| :: s[i] == c
    ensures Mean(s) == c
    ensures PopVariance(s) == 0.0
  {
    MeanBounds(s, c, c);
    var sq := Squares(s, Mean(s));
    MeanBounds(sq, 0.0, 0.0);
  }

  function Xs(ps: seq<Point>): (r: seq<real>)
    ensures |r| == |ps|
    ensures forall i | 0 <= i < |ps| :: r[i] == ps[i].x as real
  {
    seq(|ps|, i requires 0 <= i < |ps| => ps[i].x as real)
  }

  function Ys(ps: seq<Point>): (r: seq<real>)
    ensures |r| == |ps|
    ensures forall i | 0 <= i < |ps| :: r[i] == ps[i].y as real
  {
    seq(|ps|, i requires 0 <= i < |ps| => ps[i].y as real)
  }

  /** `_calculate_position_variance`: zero below three samples, otherwise the
      average of the per-axis population variances. */
  function PositionVariance(ps: seq<Point>): (v: real)
    ensures |ps| < 3 ==> v == 0.0
    ensures v >= 0.0
  {
    if |ps| < 3 then 0.0
    else
      PopVarianceNonNegative(Xs(ps));
      PopVarianceNonNegative(Ys(ps));
      (PopVariance(Xs(ps)) + PopVariance(Ys(ps))) / 2.0
  }

  /** A track that stayed on one point has no positional variance. */
  lemma StationaryTrackHasNoVariance(ps: seq<Point>, c: Point)
    requires forall i | 0 <= i < |ps| :: ps[i] == c
    ensures PositionVariance(ps) == 0.0
  {
    if |ps| >= 3 {
      ConstantHasNoVariance(Xs(ps), c.x as real);
      ConstantHasNoVariance(Ys(ps), c.y as real);
    }
  }

  datatype Pattern = Static | SlowMoving | FastMoving

  /** Lengths of the consecutive steps of a position history, measured by the
      given step-length function (the Euclidean norm in the original). */
  function Steps(ps: seq<Point>, stepLength: (Point, Point) -> real): (r: seq<real>)
    requires |ps| >= 1
    ensures |r| == |ps| - 1
    ensures forall i | 0 <= i < |r| :: r[i] == stepLength(ps[i], ps[i + 1])
  {
    seq(|ps| - 1, i requires 0 <= i < |ps| - 1 => stepLength(ps[i], ps[i + 1]))
  }

  /** `_analyze_movement_pattern`: STATIC below four samples, otherwise the
      mean step length bucketed at 5 and 20 pixels per frame. */
  function MovementPattern(ps: seq<Point>, stepLength: (Point, Point) -> real): (p: Pattern)
    ensures |ps| < 4 ==> p == Static
    ensures |ps| >= 4 ==>
      (p == Static <==> Mean(Steps(ps, stepLength)) < 5.0) &&
      (p == FastMoving <==> Mean(Steps(ps, stepLength)) >= 20.0)
  {
    if |ps| < 4 then Static
    else
      var avg := Mean(Steps(ps, stepLength));
      if avg < 5.0 then Static
      else if avg < 20.0 then SlowMoving
      else FastMoving
  }

  /** A track that stayed on one point is STATIC, whatever its history
      length, under any step measure that gives a zero-length step zero. */
  lemma StationaryTrackIsStatic(ps: seq<Point>, c: Point, stepLength: (Point, Point) -> real)
    requires stepLength(c, c) == 0.0
    requires forall i | 0 <= i < |ps| :: ps[i] == c
    ensures MovementPattern(ps, stepLength) == Static
  {
    if |ps| >= 4 {
      var st := Steps(ps, stepLength);
      forall i | 0 <= i < |st| ensures st[i] == 0.0 {
        assert ps[i] == c && ps[i + 1] == c;
      }
      MeanBounds(st, 0.0, 0.0);
    }
  }
}

=== FILE: waste_tables.dfy ===
/** The category tables the three deployments ship with, and the facts about
    them that the trackers and the publisher rely on. */
module WasteTables {
  import opened Wrappers
  import opened Categories

  const RecyclableItems: seq<string> := [
    "can", "cardboard_bowl", "cardboard_box", "plastic_bottle", "plastic_bottle_cap",
    "plastic_box", "plastic_cup", "plastic_cup_lid", "reuseable_paper", "scrap_paper"
  ]

  const NonRecyclableItems: seq<string> := [
    "plastic_bag", "plastic_cultery", "scrap_plastic", "snack_bag", "stick", "straw"
  ]

  const HazardousItems: seq<string> := [
    "battery", "chemical_plastic_bottle", "chemical_plastic_gallon",
    "chemical_spray_can", "light_bulb", "paint_bucket"
  ]

  /** The three-way recycling table (`RECICLABLE`, `NO_RECICLABLE`,
      `PELIGROSO`) without priorities. The first two deployments carry the
      same table in their configuration and in the inline laptop script. */
  const RecyclingTable: Table := [
    Category("RECICLABLE", RecyclableItems, Color(0, 255, 0), None),
    Category("NO_RECICLABLE", NonRecyclableItems, Color(0, 0, 255), None),
    Category("PELIGROSO", HazardousItems, Color(0, 165, 255), None)
  ]

  /** The 22 detector labels of the recycling deployments. */
  const RecyclingLabels: seq<string> := [
    "battery", "can", "cardboard_bowl", "cardboard_box", "chemical_plastic_bottle",
    "chemical_plastic_gallon", "chemical_spray_can", "light_bulb", "paint_bucket",
    "plastic_bag", "plastic_bottle", "plastic_bottle_cap", "plastic_box",
    "plastic_cultery", "plastic_cup", "plastic_cup_lid", "reuseable_paper",
    "scrap_paper", "scrap_plastic", "snack_bag", "stick", "straw"
  ]

  /** The five-way collector-robot table with pickup priorities. */
  const RobotTable: Table := [
    Category("METAL", ["can"], Color(0, 255, 255), Some(High)),
    Category("PLASTICO",
      ["plastic_bottle", "plastic_bottle_cap", "plastic_cup", "plastic_cup_lid", "plastic_cultery"],
      Color(0, 165, 255), Some(High)),
    Category("BOLSAS", ["snack_bag", "plastic_bag"], Color(0, 0, 255), Some(Medium)),
    Category("PAPEL", ["scrap_paper", "reuseable_paper"], Color(0, 255, 0), Some(Medium)),
    Category("OTROS", ["straw", "stick"], Color(128, 128, 128), Some(Low))
  ]

  /** The 12 detector labels of the collector robot. */
  const RobotLabels: seq<string> := [
    "can", "plastic_bottle", "plastic_bottle_cap", "plastic_cup", "plastic_cup_lid",
    "plastic_cultery", "snack_bag", "plastic_bag", "straw", "scrap_paper",
    "reuseable_paper", "stick"
  ]

  /** No label is listed by two categories. */
  ghost predicate DisjointItems(table: Table) {
    forall i, j, item | 0 <= i < j < |table| && item in table[i].items :: item !in table[j].items
  }

  /** Every label is listed by some category, and every listed item is a label. */
  ghost predicate CoversExactly(table: Table, labels: seq<string>) {
    && (forall l | l in labels :: exists k | 0 <= k < |table| :: l in table[k].items)
    && (forall k, item | 0 <= k < |table| && item in table[k].items :: item in labels)
  }

  /** Category names differ from the sentinel, so a label some entry lists
      never looks up as unknown. */
  lemma CoveredLabelsAreKnown(table: Table, labels: seq<string>)
    requires forall k | 0 <= k < |table| :: table[k].name != Unknown
    requires forall l | l in labels :: exists k | 0 <= k < |table| :: l in table[k].items
    ensures forall l | l in labels :: ItemCategory(table, l) != Unknown
  {
    forall l | l in labels ensures ItemCategory(table, l) != Unknown {
      var k0 :| 0 <= k0 < |table| && l in table[k0].items;
      FirstHolderExists(table, l, k0);
      var k :| FirstHolder(table, l, k);
      ItemCategoryIsFirstHolder(table, l);
      assert ItemCategory(table, l) == table[k].name;
    }
  }

  /** No label is listed in both lists. */
  predicate Apart(a: seq<string>, b: seq<string>) {
    forall item | item in a :: item !in b
  }

  lemma RecyclingApart01()
    ensures Apart(RecyclableItems, NonRecyclableItems)
  {
    forall i | 0 <= i < |RecyclableItems| ensures RecyclableItems[i] !in NonRecyclableItems {
    }
  }

  lemma RecyclingApart02()
    ensures Apart(RecyclableItems, HazardousItems)
  {
    forall i | 0 <= i < |RecyclableItems| ensures RecyclableItems[i] !in HazardousItems {
    }
  }

  lemma RecyclingApart12()
    ensures Apart(NonRecyclableItems, HazardousItems)
  {
    forall i | 0 <= i < |NonRecyclableItems| ensures NonRecyclableItems[i] !in HazardousItems {
    }
  }

  lemma RecyclingItemsDisjoint()
    ensures DisjointItems(RecyclingTable)
  {
    RecyclingApart01();
    RecyclingApart02();
    RecyclingApart12();
    var t := RecyclingTable;
    assert t[0].items == RecyclableItems && t[1].items == NonRecyclableItems && t[2].items == HazardousItems;
    forall i, j | 0 <= i < j < 3 ensures Apart(t[i].items, t[j].items) {
    }
  }

  /** Every item of the list is one of the labels. */
  predicate ListedLabels(items: seq<string>, labels: seq<string>) {
    forall item | item in items :: item in labels
  }

  lemma RecyclingListed0()
    ensures ListedLabels(RecyclableItems, RecyclingLabels)
  {
  }

  lemma RecyclingListed1()
    ensures ListedLabels(NonRecyclableItems, RecyclingLabels)
  {
  }

  lemma RecyclingListed2()
    ensures ListedLabels(HazardousItems, RecyclingLabels)
  {
  }

  lemma RecyclingLabelsListed()
    ensures forall l | l in RecyclingLabels :: exists k | 0 <= k < |RecyclingTable| :: l in RecyclingTable[k].items
  {
    var t := RecyclingTable;
    forall l | l in RecyclingLabels ensures exists k | 0 <= k < |t| :: l in t[k].items {
      if l in t[0].items {
        assert l in t[0].items;
      } else if l in t[1].items {
        assert l in t[1].items;
      } else {
        assert l in t[2].items;
      }
    }
  }

  lemma RecyclingCoverage()
    ensures CoversExactly(RecyclingTable, RecyclingLabels)
  {
    RecyclingLabelsListed();
    RecyclingListed0();
    RecyclingListed1();
    RecyclingListed2();
    var t := RecyclingTable;
    assert t[0].items == RecyclableItems && t[1].items == NonRecyclableItems && t[2].items == HazardousItems;
    forall k | 0 <= k < 3 ensures ListedLabels(t[k].items, RecyclingLabels) {
    }
  }

  /** The recycling table partitions its 22 labels: each lies in exactly one
      of the three categories, and lookups never fall back to the sentinel. */
  lemma RecyclingTablePartitionsLabels()
    ensures |RecyclingLabels| == 22
    ensures DistinctNames(RecyclingTable)
    ensures DisjointItems(RecyclingTable)
    ensures CoversExactly(RecyclingTable, RecyclingLabels)
    ensures forall l | l in RecyclingLabels :: ItemCategory(RecyclingTable, l) != Unknown
  {
    RecyclingItemsDisjoint();
    RecyclingCoverage();
    CoveredLabelsAreKnown(RecyclingTable, RecyclingLabels);
  }

  lemma RobotItemsDisjoint()
    ensures DisjointItems(RobotTable)
  {
    var t := RobotTable;
    forall i, j | 0 <= i < j < 5 ensures forall item | item in t[i].items :: item !in t[j].items {
    }
  }

  lemma RobotCoverage()
    ensures CoversExactly(RobotTable, RobotLabels)
  {
    var t := RobotTable;
    forall l | l in RobotLabels ensures exists k | 0 <= k < |t| :: l in t[k].items {
      if l in t[0].items {
        assert l in t[0].items;
      } else if l in t[1].items {
        assert l in t[1].items;
      } else if l in t[2].items {
        assert l in t[2].items;
      } else if l in t[3].items {
        assert l in t[3].items;
      } else {
        assert l in t[4].items;
      }
    }
    forall k | 0 <= k < 5 ensures forall item | item in t[k].items :: item in RobotLabels {
    }
  }

  /** The robot table maps each of its 12 labels to exactly one category. */
  lemma RobotTablePartitionsLabels()
    ensures DistinctNames(RobotTable)
    ensures Prioritized(RobotTable)
    ensures DisjointItems(RobotTable)
    ensures CoversExactly(RobotTable, RobotLabels)
    ensures forall l | l in RobotLabels :: ItemCategory(RobotTable, l) != Unknown
  {
    RobotItemsDisjoint();
    RobotCoverage();
    CoveredLabelsAreKnown(RobotTable, RobotLabels);
  }

  lemma RobotTableNames()
    ensures Names(RobotTable) == ["METAL", "PLASTICO", "BOLSAS", "PAPEL", "OTROS"]
  {
    var t := RobotTable;
    assert Names(t[4..]) == ["OTROS"];
    assert Names(t[3..]) == ["PAPEL", "OTROS"];
    assert Names(t[2..]) == ["BOLSAS", "PAPEL", "OTROS"];
    assert Names(t[1..]) == ["PLASTICO", "BOLSAS", "PAPEL", "OTROS"];
  }

  /** With the shipped robot table the pickup order is METAL, PLASTICO,
      BOLSAS, PAPEL, OTROS: the table is already listed in priority order. */
  lemma RobotPriorityOrder()
    ensures Prioritized(RobotTable)
    ensures PriorityOrder(RobotTable) == ["METAL", "PLASTICO", "BOLSAS", "PAPEL", "OTROS"]
  {
    var t := RobotTable;
    assert Prioritized(t);
    assert RankSorted(t);
    SortedTableKeepsOrder(t);
    assert OrderedCategories(t) == t;
    RobotTableNames();
  }

  lemma RecyclingTableNames()
    ensures Names(RecyclingTable) == ["RECICLABLE", "NO_RECICLABLE", "PELIGROSO"]
  {
    var t := RecyclingTable;
    assert Names(t[2..]) == ["PELIGROSO"];
    assert Names(t[1..]) == ["NO_RECICLABLE", "PELIGROSO"];
  }

  /** A name the table does not list is looked up as unknown. */
  lemma UnlistedName(table: Table, name: string)
    requires name !in Names(table)
    ensures Lookup(table, name).None?
  {
    assert forall k | 0 <= k < |table| :: table[k].name == Names(table)[k];
  }

  /** An unknown category is gray in the recycling table. */
  lemma RecyclingUnknownIsGray()
    ensures CategoryColor(RecyclingTable, Unknown) == Gray
  {
    RecyclingTableNames();
    UnlistedName(RecyclingTable, Unknown);
  }

  /** An unknown category is gray and has LOW priority in the robot table. */
  lemma RobotUnknownDefaults()
    ensures CategoryColor(RobotTable, Unknown) == Gray
    ensures Prioritized(RobotTable) && CategoryPriority(RobotTable, Unknown) == Low
  {
    RobotTableNames();
    UnlistedName(RobotTable, Unknown);
    RobotTablePartitionsLabels();
  }

  /** An unknown category is gray and, in the robot table, has LOW priority. */
  lemma UnknownCategoryDefaults()
    ensures CategoryColor(RecyclingTable, Unknown) == Gray
    ensures CategoryColor(RobotTable, Unknown) == Gray
    ensures Prioritized(RobotTable) && CategoryPriority(RobotTable, Unknown) == Low
  {
    RecyclingUnknownIsGray();
    RobotUnknownDefaults();
  }
}

=== FILE: wrappers.dfy ===
/** Optional values, used where the source returns a value or signals its
    absence, and the facts about sequence concatenation and position offsets
    that the registration proofs rely on. */
module Wrappers {

  datatype Option<+T> = None | Some(value: T)

  /** Concatenation regroups freely. */
  lemma AppendAssociates<T>(a: seq<T>, b: seq<T>, d: seq<T>)
    ensures (a + b) + d == a + (b + d)
  {
  }

  /** The positions of `used` seen from an offset: `j` is in the result
      exactly when `j + k` is in `used`. */
  function Shift(used: set<nat>, k: nat): (r: set<nat>)
    ensures forall j: nat :: j in r <==> j + k in used
  {
    var r := set j | j in used && j >= k :: (j - k) as nat;
    assert forall j: nat | j + k in used :: j in r by {
      forall j: nat | j + k in used ensures j in r {
        assert (j + k) - k == j;
      }
    }
    r
  }
}
